=== FILE: README.md ===
# sunday-schemas core, modelled in Dafny

This project models the checking logic of the sunday-schemas repository. The repository is the schema registry of a prediction-market data platform.

- **Go discovery validator.** It checks event- and series-discovery payloads from the venues Polymarket and Kalshi: required fields, enum membership, non-zero timestamps, USD amounts at cent precision, settlement-source names and batch metadata.
- **Go mapping functions.** These turn venue API records into canonical series metadata.
- **Go compatibility layer.** This covers the legacy `RawEnvelope` and `Trade` shapes and their generated counterparts, plus the schema and venue registries.
- **Release scripts.**
  - Semantic-version overlap policy for deprecations.
  - Backward-compatibility checks for schemas, topic mappings and the venue list.
  - Changelog checks.
  - Deprecation metadata validation and urgency.
  - Venue consistency of schema enums.

Each component has its own module:

| file | module | component |
|---|---|---|
| `wrappers.dfy` | `Wrappers` | `Option` and `Outcome` (Go `error` or nil) |
| `text.dfy` | `Text` | JavaScript string primitives: `includes`, `trim`, `split`, `parseInt` |
| `json.dfy` | `Json` | opaque JSON values for `interface{}` payloads |
| `enums.dfy` | `Enums` | discovery kinds, event types, venue ids, currency |
| `discovery_types.dfy` | `DiscoveryTypes` | the discovery records; `time.Time` as nanoseconds since year 1 |
| `precision.dfy` | `Precision` | the cent-precision test on `float64` amounts |
| `validation.dfy` | `Validation` | the discovery validators, fail-fast and with wrapped errors |
| `validation_properties.dfy` | `ValidationProperties` | cross-validator properties and the test scenarios |
| `mapping.dfy` | `Mapping` | the Polymarket and Kalshi mappers |
| `registry.dfy` | `Registry` | schema and venue constants and their validators |
| `compat.dfy` | `Compat` | legacy/generated type conversions |
| `version_overlap.dfy` | `VersionOverlap` | the version parser, comparison and overlap policy |
| `compatibility.dfy` | `Compatibility` | schema, topic and venue backward compatibility |
| `changelog.dfy` | `Changelog` | the changelog gate |
| `deprecations.dfy` | `Deprecations` | deprecation analysis, validation and urgency |
| `venue_check.dfy` | `VenueCheck` | venue enums against the venue registry |

## Conventions

- **Values and types.**
  - Go pointers and JavaScript `null`/`undefined` become `Option`.
  - A JavaScript value is "truthy" here when it is present and, for strings, non-empty.
  - Go `float64` becomes `real`.
  - Integers are unbounded.
- **Errors.** A Go `error` is an `Outcome<Error>`. The `Error` value keeps:
  - the innermost `ValidationError` (field and message);
  - the chain of `fmt.Errorf` contexts wrapped around it (`event metadata validation failed`, `settlement source %d validation failed`, ...).
- **Fail-fast order.** Each Go validator returns its first failing check. `Validation.FirstFailure` over an ordered list of checks is the reference definition of that order, and each validator is proved equal to it.
- **JavaScript objects** are key/value sequences in `Object.keys` order. Where it matters, the keys are distinct, as they are for the output of `JSON.parse`.
- **Parameters in place of I/O.**
  - The clock (`time.Now()`, `new Date()`) is a parameter.
  - `time.Parse(time.RFC3339, ·)` and `new Date(·)` are parameters returning `None` for an unparseable string.
  - Git, the file system and the console are left out.
- **Messages.** Issue and error messages are structured values. Each carries the data the source formats into its message: file, field, list of removed names.

Three behaviours of the code are modelled as written:

- The mappers store a present zero time for an unparseable RFC 3339 timestamp; they do not omit it.
- The validator never compares the outer `venue_id` of a payload with the venue inside the embedded record.
- It never checks `child_event_ids`.

## Model

| member | source | states |
|---|---|---|
| Text.TrimStart | scripts/check-changelog.js:71 | `trim` drops exactly the leading run of JavaScript white space |
| Text.BlankIffAllWhiteSpace | scripts/check-changelog.js:71 | `line.trim()` is falsy iff every character of the line is JavaScript white space |
| Text.DigitPrefixLength | scripts/check-version-overlap.js:18 | `parseInt` reads the longest run of leading decimal digits |
| Text.NatToString | scripts/check-version-overlap.js:260 | A template string prints a natural number as digits that denote it |
| Text.ParseIntOfIntToString | scripts/check-version-overlap.js:18 | `parseInt` reads a printed integer back to the same integer |
| Text.Split | scripts/check-changelog.js:54 | `split` on one character gives at least one piece, none containing the separator |
| Text.JoinSplit | scripts/check-changelog.js:54 | Joining the pieces of `split` with the separator gives the original string |
| Text.SplitJoin | scripts/check-version-overlap.js:18 | Splitting the join of separator-free pieces gives the pieces back |
| Enums.DeclaredValues | codegen/go/discovery/enums.go:6-35 | The declared kinds, event types, venue ids and currency are exactly the listed constants, pairwise distinct |
| Enums.EventTypeValidIffDeclared | codegen/go/discovery/validation.go:202-209 | An event type is valid iff it is one of the three declared event types; "invalid" is rejected |
| Enums.VenueIdValidIffDeclared | codegen/go/discovery/validation.go:211-218 | A venue id is valid iff it is one of the two declared venues |
| Precision.Round | codegen/go/discovery/validation.go:309-313 | `math.Round` rounds to the nearest integer, with ties away from zero |
| Precision.RoundOfNearInteger | codegen/go/discovery/validation.go:309-313 | A value strictly within one half of an integer rounds to that integer |
| Precision.CentsPrecisionIffNearCents | codegen/go/discovery/validation.go:309-313 | An amount has cent precision iff it lies within the 1e-10 tolerance of some whole number of cents |
| Precision.WholeCentsAreValid | codegen/go/discovery/validation.go:309-313 | Every whole number of cents passes the precision test |
| Precision.UnitTestValues | codegen/go/discovery/validation_test.go:554-577 | The sample amounts of the unit tests are accepted (0.01, 123.45, 99999.99) or rejected (123.456, 0.005, 1.23456789) as the tests expect |
| Validation.FirstFailure | codegen/go/discovery/validation.go:103-137 | Reference fail-fast semantics: passes iff all checks pass, otherwise reports the first failing check's error with every earlier check passing |
| Validation.FirstFailureAppend | codegen/go/discovery/validation.go:139-180 | Running two check lists in sequence reports the first list's failure, or else the second's |
| Validation.FirstFailureReportsFirstFailingField | codegen/go/discovery/validation.go:103-137 | With distinct field names, field i is reported iff check i fails and all earlier checks pass |
| Validation.ValidateHeader | codegen/go/discovery/validation.go:103-137 | The shared header checks (kind, venue, id, title, active, closed, two timestamps) pass iff all header conditions hold, in source order |
| Validation.HeaderReportsFirstFailingField | codegen/go/discovery/validation.go:103-137 | The header fields are checked in the order kind, venue_id, event_id, title, active, closed, discovered_at, last_seen, and field i is reported iff it is the first failure |
| Validation.ValidateEventMetadata | codegen/go/discovery/validation.go:103-137 | Event metadata is valid iff kind is "event", the venue is declared, id and title are non-empty, active/closed are present and both times are non-zero; a wrong kind gives the kind error |
| Validation.ValidateUsdAmount | codegen/go/discovery/validation.go:221-266 | An optional USD amount passes iff it is absent, or non-negative with cent precision |
| Validation.ValidateFinancialData | codegen/go/discovery/validation.go:221-266 | Financial data passes iff every present USD amount is non-negative with cent precision, every present count and score is non-negative and a present currency is USD; a negative 24h volume is the first error |
| Validation.ValidateSettlementSource | codegen/go/discovery/validation.go:269-275 | A settlement source passes iff its name is non-empty, otherwise it fails with the name error |
| Validation.ValidateSourcesFrom | codegen/go/discovery/validation.go:297-306 | The source loop passes iff every source from the start index has a name, else it reports the first nameless index wrapped in its context |
| Validation.ValidateContractData | codegen/go/discovery/validation.go:297-306 | Contract data passes iff every settlement source is named; a failure names the first nameless source's index |
| Validation.ContractReportsFirstNamelessSource | codegen/go/discovery/validation.go:297-306 | The first nameless source at index i produces exactly the `settlement source i` error |
| Validation.ValidateSeriesData | codegen/go/discovery/validation.go:278-294 | Series data passes iff present financial data and present contract data are valid; financial errors come first, then contract errors, each wrapped in its context |
| Validation.ValidateSeriesMetadata | codegen/go/discovery/validation.go:139-180 | Series metadata is valid iff the header conditions hold with kind "series" and present series data is valid; header failures come first, series-data failures are wrapped |
| Validation.ValidateDiscoveryMeta | codegen/go/discovery/validation.go:182-200 | Discovery metadata passes iff batch id and run id are non-empty and batch sequence and total count are at least 1; failures are reported in that order |
| Validation.ValidateOuter | codegen/go/discovery/validation.go:22-55 | The outer payload fields pass iff event id is non-empty, event type and venue are declared, timestamp is non-zero and present discovery metadata is valid |
| Validation.ValidateEventPayload | codegen/go/discovery/validation.go:22-55 | A decoded event payload passes iff its embedded event metadata and outer fields are valid; a failing embedded event comes first, wrapped as event-metadata failure; otherwise the result is exactly the fail-fast outer check (event id, event type, timestamp, venue, then the wrapped discovery-meta error) |
| Validation.ValidateSeriesPayload | codegen/go/discovery/validation.go:58-91 | A decoded series payload passes iff its embedded series metadata and outer fields are valid; a failing embedded series comes first, wrapped as series-metadata failure; otherwise the result is exactly the fail-fast outer check (event id, event type, timestamp, venue, then the wrapped discovery-meta error) |
| Validation.ValidateEventDiscoveryPayload | codegen/go/discovery/validation.go:22-55 | Malformed JSON fails with the unmarshal error; otherwise the event payload validation decides |
| Validation.ValidateSeriesDiscoveryPayload | codegen/go/discovery/validation.go:58-91 | Malformed JSON fails with the unmarshal error; otherwise the series payload validation decides |
| ValidationProperties.SeriesKindRejectedByEventValidator | codegen/go/discovery/validation.go:103-106 | Metadata of kind "series" given to the event validator fails with the kind error |
| ValidationProperties.EmbeddedRecordCheckedBeforeOuterFields | codegen/go/discovery/validation.go:22-55 | An invalid embedded event is reported first, under exactly one context, and carries the embedded record's field error |
| ValidationProperties.DecodedSeriesErrorsNameAField | codegen/go/discovery/validation.go:58-91 | Every failure of a decoded series payload ends in a field-level ValidationError |
| ValidationProperties.EmptySourceNameErrorPath | codegen/go/discovery/validation.go:139-180 | A nameless settlement source is reported through the contexts series metadata, series data, contract data, settlement source i, in that order |
| ValidationProperties.EventValidationIgnoresDescriptiveFields | codegen/go/discovery/metadata.go:8-26 | Event validation depends only on the header fields; description, category, tags and extra metadata never change the outcome |
| ValidationProperties.SeriesValidationIgnoresChildEvents | codegen/go/discovery/metadata.go:29-45 | Child event ids and relationships never change the series validation outcome |
| ValidationProperties.SeriesDataValidationReadsFinancialAndSourceNames | codegen/go/discovery/validation.go:278-306 | Series data validation depends only on the financial data and the names of the settlement sources |
| ValidationProperties.SourcesFromAgree | codegen/go/discovery/validation.go:297-306 | Two source lists with the same names give the same outcome |
| ValidationProperties.OuterVenueNotComparedWithEmbeddedVenue | codegen/go/discovery/validation.go:22-55 | A valid payload stays valid with any declared outer venue id, so the outer venue is never compared with the embedded one |
| ValidationProperties.AllAbsentFinancialValid | codegen/go/discovery/validation.go:221-266 | Financial data with every field absent is valid |
| ValidationProperties.SubCentVolumeRejected | codegen/go/discovery/validation.go:221-230 | A 24h volume of 123.456 fails with the cent-precision error on volume_24h_usd |
| ValidationProperties.ZeroBatchSequenceRejected | codegen/go/discovery/validation.go:182-200 | A batch sequence of 0 with a batch id fails with the at-least-one error on batch_sequence |
| ValidationProperties.SchemaEvolutionCompatible | codegen/go/discovery/mapping_test.go:428-470 | A minimal event payload is valid, and stays valid with the optional fields (description, category, tags, discovery metadata) added |
| Mapping.MapPolymarketToCanonical | codegen/go/discovery/mapping_test.go:348-382 | The Polymarket mapping copies id, title, category, flags, slug, images and both volumes (as USD financial data) into a series record stamped with the clock's time, without contract data, layout, status or creators, and with created/updated timestamps that are the parsed API stamps or the zero time when a stamp does not parse |
| Mapping.MapSettlementSources | codegen/go/discovery/mapping_test.go:390-396 | Each Kalshi settlement source maps to one canonical source with the same name and its URL, in order |
| Mapping.MapKalshiToCanonical | codegen/go/discovery/mapping_test.go:384-425 | The Kalshi mapping copies ticker, title, category, flags, tags, frequency and contract terms, and exactly the mapped settlement sources, in order; it sets no financial data, slug, subtitle, images, layout, status, creators or child events, and stores created/updated timestamps as the parsed API stamps or the zero time |
| Mapping.PolymarketMappingValidIff | codegen/go/discovery/mapping_test.go:348-382 | A mapped Polymarket record validates iff id and title are non-empty, the clock is non-zero and both volumes are non-negative with cent precision |
| Mapping.KalshiMappingValidIff | codegen/go/discovery/mapping_test.go:384-425 | A mapped Kalshi record validates iff ticker and title are non-empty, the clock is non-zero and every settlement source is named |
| Mapping.KalshiNamelessSourceReported | codegen/go/discovery/mapping_test.go:390-396 | A nameless Kalshi source i (the first one) surfaces as the wrapped `settlement source i` name error |
| Mapping.MappingClockOnlyStampsTimes | codegen/go/discovery/mapping_test.go:348-425 | Changing the clock changes only discovered_at and last_seen of either mapping |
| Mapping.UnparseableStampStoredAsZero | codegen/go/discovery/mapping_test.go:349-421 | In both mappers an unparseable created_at or updated_at is stored as a present zero time, and timestamp parsing never changes the validation verdict of the mapped series |
| Mapping.ParsedOrZero | codegen/go/discovery/mapping_test.go:349-350 | `time.Parse` with its error discarded yields the parsed time, or the zero time when the text does not parse |
| Mapping.TimestampsNotValidated | codegen/go/discovery/validation.go:139-180 | Series-metadata validation gives the same verdict whatever the record's timestamps are |
| Mapping.ConcacafMapsToValidSeries | codegen/go/discovery/mapping_test.go:19-79 | The Concacaf sample listing maps to id "10244", title "Concacaf", a 24h volume of 125000.50, and validates |
| Registry.AllSchemas | codegen/go/constants.go:70-81 | The schema list has the eight declared schemas, pairwise distinct |
| Registry.AllVenues | codegen/go/constants.go:84-86 | The venue list is polymarket and kalshi, the same as the discovery venue ids |
| Registry.ValidateSchema | codegen/go/constants.go:50-57 | A schema passes iff it is one of the declared schemas, otherwise the error names it |
| Registry.ValidateVenue | codegen/go/constants.go:60-67 | A venue passes iff it is one of the declared venues, otherwise the error names it |
| Registry.RegistryAgreesWithDiscoveryVenues | codegen/go/constants.go:60-67 | The registry's venue check and the discovery validator's venue check accept the same strings |
| Registry.AllSchemasValidate | codegen/go/constants.go:50-81 | Every listed schema validates; "raw.v1" and "" do not |
| Compat.UnixMilli | codegen/go/compat.go:46-58 | `UnixMilli` is the floor of the time's offset from the Unix epoch in milliseconds |
| Compat.UnixMilliMonotone | codegen/go/compat.go:46-58 | Later times never give smaller millisecond stamps |
| Compat.NewRawEnvelope | codegen/go/compat.go:46-58 | A new envelope carries schema raw.v0, the given venue, stream and instrument, partition key `venue:instrument`, event and ingest millisecond stamps, no historical flags, and the payload |
| Compat.PartitionKeySplits | codegen/go/compat.go:46-58 | For colon-free parts, splitting the partition key at ':' gives venue and instrument back |
| Compat.PartitionKeyInjective | codegen/go/compat.go:46-58 | Colon-free venue/instrument pairs have distinct partition keys |
| Compat.ToRawEnvelopeV0 | codegen/go/compat.go:61-74 | Conversion succeeds iff the payload is a JSON object (the Go type assertion), and fixes the schema to raw.v0 |
| Compat.FromRawEnvelopeV0 | codegen/go/compat.go:77-90 | The legacy envelope copies the schema and wraps the payload map as an object |
| Compat.CanonicalEnvelopeRoundTrip | codegen/go/compat.go:61-90 | Generated, to legacy, back to generated gives the envelope with schema raw.v0, which is the identity iff the schema was raw.v0 |
| Compat.LegacyEnvelopeRoundTrip | codegen/go/compat.go:61-90 | Legacy, to generated, back to legacy is the identity iff the payload is an object and the schema is raw.v0 |
| Compat.NewEnvelopeConverts | codegen/go/compat.go:46-90 | An envelope built by NewRawEnvelope with an object payload survives the round trip unchanged |
| Compat.ToNormalizedTradeV1 | codegen/go/compat.go:117-128 | The conversion keeps every trade field and sets the schema to md.trade.v1 |
| Compat.FromNormalizedTradeV1 | codegen/go/compat.go:131-142 | The conversion back keeps every field, schema included |
| Compat.LegacyTradeRoundTrip | codegen/go/compat.go:117-142 | Legacy, to normalized, back gives the trade with schema md.trade.v1, which is the identity iff the schema was md.trade.v1 |
| Compat.CanonicalTradeRoundTrip | codegen/go/compat.go:117-142 | Normalized, to legacy, back is the identity iff the schema is md.trade.v1 |
| VersionOverlap.StripV | scripts/check-version-overlap.js:17 | At most one leading 'v' is removed |
| VersionOverlap.ParseVersion | scripts/check-version-overlap.js:13-31 | A version parses iff it is present and non-empty and, without its 'v', splits at '.' into exactly three parts that `parseInt` accepts; the original text is kept |
| VersionOverlap.NoDotInIntToString | scripts/check-version-overlap.js:13-31 | A printed integer never contains '.' |
| VersionOverlap.StripLeadingV | scripts/check-version-overlap.js:17 | Removing the leading 'v' undoes prepending one |
| VersionOverlap.VersionTextParts | scripts/check-version-overlap.js:17-18 | The printed version, with its 'v' removed, splits on '.' into the three printed numbers |
| VersionOverlap.ParseVersionText | scripts/check-version-overlap.js:13-31 | Printing `major.minor.patch` and parsing it gives the three numbers back |
| VersionOverlap.LeadingVIsOptional | scripts/check-version-overlap.js:17 | A version and the same version with a leading 'v' parse alike and to the same numbers |
| VersionOverlap.TwoComponentsRejected | scripts/check-version-overlap.js:20-22 | A two-part version such as "1.2" does not parse |
| VersionOverlap.CompareVersions | scripts/check-version-overlap.js:33-39 | The comparison is undefined iff a version is missing, and is zero iff the three numbers agree |
| VersionOverlap.CompareVersionsIsLexicographic | scripts/check-version-overlap.js:33-39 | The comparison's sign is the lexicographic order on (major, minor, patch); it is reflexive and antisymmetric |
| VersionOverlap.CompareVersionsTransitive | scripts/check-version-overlap.js:33-39 | The comparison is transitive |
| VersionOverlap.GetMinorVersionDifference | scripts/check-version-overlap.js:41-60 | The difference is defined iff both versions parse and removal's major is not below deprecation's; it is the minor difference within a major and 10 across majors |
| VersionOverlap.SuggestRemovalVersion | scripts/check-version-overlap.js:256-261 | The suggestion is "Invalid version" for an unparseable version, else `v` followed by `major.(minor+overlap+1).0` |
| VersionOverlap.ValidateVersionOverlapPolicy | scripts/check-version-overlap.js:263-272 | The policy is valid iff the overlap is defined and at least 1; a removal version is suggested iff the overlap is defined and too small |
| VersionOverlap.SameMajorPolicy | scripts/check-version-overlap.js:41-60 | Within one major version the policy holds iff the removal minor exceeds the deprecation minor |
| VersionOverlap.LaterMajorAlwaysValid | scripts/check-version-overlap.js:52-54 | A removal in a later major version always satisfies the policy |
| VersionOverlap.SameMajorDifference | scripts/check-version-overlap.js:41-51 | Within one major version the minor difference is the removal's minor minus the deprecation's |
| VersionOverlap.PolicyOfDifference | scripts/check-version-overlap.js:263-267 | A minor difference of at least the required overlap makes the policy valid |
| VersionOverlap.SuggestedRemovalParses | scripts/check-version-overlap.js:256-260 | The suggested removal version parses to the deprecation's major version and `overlap + 1` more minor versions, patch 0 |
| VersionOverlap.SuggestedRemovalSatisfiesPolicy | scripts/check-version-overlap.js:256-272 | The suggested removal version has overlap exactly overlap+1 and satisfies the policy |
| VersionOverlap.EmptyVersionRejected | scripts/check-version-overlap.js:14 | Missing and empty versions do not parse |
| VersionOverlap.PatchOnlyRemovalRejected | scripts/check-version-overlap.js:263-272 | 1.2.0 to 1.2.5 violates the policy with suggestion v1.4.0, while 1.2.0 to 1.3.0 satisfies it |
| Compatibility.Lookup | scripts/check-compatibility.js:82 | A property lookup finds a value iff the key is present, and the value belongs to that key |
| Compatibility.LookupOfEntry | scripts/check-compatibility.js:109 | With distinct keys, looking up an entry's key gives that entry's value |
| Compatibility.Missing | scripts/check-compatibility.js:58 | `a.filter(x => !b.includes(x))` holds exactly the members of a that are not in b |
| Compatibility.MissingEmptyIff | scripts/check-compatibility.js:58-60 | Nothing is missing iff every member of a is in b |
| Compatibility.MissingOfConcat | scripts/check-compatibility.js:143 | Filtering distributes over concatenation |
| Compatibility.MissingSameMembers | scripts/check-compatibility.js:143 | The filter depends only on which values b contains |
| Compatibility.MissingAntitone | scripts/check-compatibility.js:149 | Enlarging b never lengthens the missing list |
| Compatibility.EnumIssue | scripts/check-compatibility.js:81-89 | One property gives at most one issue; it gives one iff both versions have an enum and some previous value is missing from the current enum, and that issue lists exactly those missing values in previous-enum order |
| Compatibility.EnumIssues | scripts/check-compatibility.js:80-90 | Each enum issue names the file, a current property and a non-empty list of removed values; there are at most as many issues as properties |
| Compatibility.EnumIssuesExact | scripts/check-compatibility.js:80-90 | Every enum issue lists exactly the previous values some current property's enum dropped; every property that dropped values has its issue; with distinct keys no property is reported twice |
| Compatibility.EnumIssueEmptyIff | scripts/check-compatibility.js:84-89 | One property gives no enum issue iff it lacks an enum on either side or keeps every previous value |
| Compatibility.EnumIssuesEmptyIff | scripts/check-compatibility.js:80-90 | No enum issue is raised iff every current property keeps its previous enum values |
| Compatibility.ListIssues | scripts/check-compatibility.js:56-77 | The added-required, removed-required and removed-properties issues are each raised, once, exactly when their list is non-empty |
| Compatibility.IssueIf | scripts/check-compatibility.js:60-62 | An issue is pushed iff its list is non-empty |
| Compatibility.AtMostOneEachAppend | scripts/check-compatibility.js:80-90 | Appending enum issues keeps the other three kinds at most once each |
| Compatibility.CheckSchemaCompatibility | scripts/check-compatibility.js:47-97 | A new schema has no issues; every issue names the file; each non-enum kind appears at most once |
| Compatibility.SchemaListIssues | scripts/check-compatibility.js:56-77 | The three list issues are present iff added required fields, removed required fields and removed properties are non-empty |
| Compatibility.SchemaIssuesIffIncompatible | scripts/check-compatibility.js:47-97 | The check raises no issue iff required fields are unchanged as sets, no property is removed and no enum loses a value |
| Compatibility.IdenticalSchemasCompatible | scripts/check-compatibility.js:47-97 | A schema is compatible with itself |
| Compatibility.AddedEnumValuesNeverIssue | scripts/check-compatibility.js:84-89 | Adding enum values is never a breaking change |
| Compatibility.TopicOf | scripts/check-compatibility.js:112-113 | The topic is `topic` when it is a non-empty string, else `null` when there is no topics array, else the array's first element (a non-empty array yields its first topic), which is `undefined` for an empty array |
| Compatibility.TopicChanges | scripts/check-compatibility.js:108-119 | Each topic issue is for a schema id present on both sides and names two different topics |
| Compatibility.TopicChangesSound | scripts/check-compatibility.js:108-119 | Every reported topic change is, for some current schema id with a previous mapping, exactly the change from its previous topic to its current one |
| Compatibility.TopicChangesComplete | scripts/check-compatibility.js:108-119 | Every current schema id with a previous mapping whose topic differs has exactly that change reported |
| Compatibility.CheckTopicsCompatibility | scripts/check-compatibility.js:99-132 | A new topics file has no issues; the removed-mappings issue is raised, last, iff some previous schema id is missing |
| Compatibility.TopicChangesEmptyIff | scripts/check-compatibility.js:108-119 | No topic change is reported iff every shared schema id keeps its topic |
| Compatibility.TopicIssuesIffIncompatible | scripts/check-compatibility.js:99-132 | No issue iff every shared schema id keeps its topic and no previous schema id is removed |
| Compatibility.TopicChangesOfConcat | scripts/check-compatibility.js:108-119 | Topic changes of concatenated mappings are the concatenated topic changes |
| Compatibility.TopicChangesOfNewIds | scripts/check-compatibility.js:111 | Mappings for new schema ids never report a topic change |
| Compatibility.KeysOfConcat | scripts/check-compatibility.js:108 | The keys of concatenated objects are the concatenated keys |
| Compatibility.NewSchemaIdsNeverIssue | scripts/check-compatibility.js:99-132 | Adding mappings for new schema ids leaves the issues unchanged |
| Compatibility.NewKeysLeaveMembership | scripts/check-compatibility.js:122 | New keys do not change whether an old key is present |
| Compatibility.EmptyTopicsArrayIsNotNull | scripts/check-compatibility.js:112-116 | Replacing an absent topics array by an empty one is reported as a change from null to undefined |
| Compatibility.CheckVenuesCompatibility | scripts/check-compatibility.js:134-159 | A new venue file has no issues; otherwise the one issue is raised iff some previous venue is gone, and it lists exactly the removed venues |
| Compatibility.AddedVenuesNeverIssue | scripts/check-compatibility.js:148-152 | Adding venues never creates an issue |
| Changelog.HasSchemaChanges | scripts/check-changelog.js:36-42 | True iff some changed file is under schemas/ or openapi/ or is package.json |
| Changelog.SchemaChangesMonotone | scripts/check-changelog.js:36-42 | More changed files never remove a schema change; non-schema files never add one |
| Changelog.FirstMarkerUnique | scripts/check-changelog.js:58-62 | The first Unreleased marker line is unique |
| Changelog.SectionEndRulesOutEntry | scripts/check-changelog.js:65-68 | A `## ` line before any entry closes the section with no content |
| Changelog.EndRulesOutEntry | scripts/check-changelog.js:58-78 | Reaching the end with no entry after the marker means no content |
| Changelog.ScanUnreleased | scripts/check-changelog.js:54-78 | The scan reports content iff a non-blank line that is not a `###`/`## ` heading follows the first Unreleased marker before the next `## ` heading |
| Changelog.HasUnreleasedChanges | scripts/check-changelog.js:51-79 | Missing or empty content has no unreleased changes; otherwise the answer is the scan of the '\n'-separated lines |
| Changelog.LinesBeforeMarkerIgnored | scripts/check-changelog.js:58-62 | Lines before the first marker never affect the answer |
| Changelog.NoMarkerNoUnreleased | scripts/check-changelog.js:58-62 | Without an Unreleased marker there are no unreleased changes |
| Changelog.EntryAfterPrefix | scripts/check-changelog.js:58-75 | An entry of the unreleased section stays one, at the shifted index, behind marker-free lines |
| Changelog.EntryBeyondPrefix | scripts/check-changelog.js:58-75 | An entry behind marker-free lines lies past them and is an entry of the remaining lines |
| Changelog.RunThenParts | scripts/check-changelog.js:85 | A matched `\d+` followed by the stop character splits the text into digits, the stop, and the rest |
| Changelog.RunThenOfParts | scripts/check-changelog.js:85 | Digits followed by the stop character are matched, leaving the rest |
| Changelog.DigitPrefixOfDigits | scripts/check-changelog.js:85 | `\d+` is greedy and stops at the first non-digit |
| Changelog.VersionHeadingOfParts | scripts/check-changelog.js:85 | `## [x.y.z]` with non-empty digit runs matches the heading pattern |
| Changelog.VersionHeadingParts | scripts/check-changelog.js:85 | Every text matching the heading pattern has the form `## [x.y.z]` plus a rest, with non-empty digit runs |
| Changelog.HasRecentVersionEntry | scripts/check-changelog.js:81-87 | Missing content has no entry; otherwise the answer is whether some line (multiline `^`) starts with `## [digits.digits.digits]` |
| Changelog.SecondLineHeadingFound | scripts/check-changelog.js:84-86 | A version heading on the second line is found |
| Deprecations.OrElse | scripts/check-deprecations.js:143-144 | `x \|\| fallback` gives x when it is truthy, otherwise the fallback |
| Deprecations.AnalyzeDeprecation | scripts/check-deprecations.js:131-148 | The record copies the metadata fields; urgency and impact default to "medium"; the description defaults to ""; the warning flag is set iff the description contains "DEPRECATED" |
| Deprecations.Push | scripts/check-deprecations.js:150-210 | A conditional push adds the problem iff its condition holds and keeps the report order |
| Deprecations.FieldWarnings | scripts/check-deprecations.js:159-170 | The first three warnings (missing deprecatedInVersion, replacedBy, migrationGuide) are raised exactly when the field is falsy, in that order |
| Deprecations.Warnings | scripts/check-deprecations.js:159-179 | The warnings are exactly those whose condition holds, in source order, each once |
| Deprecations.Errors | scripts/check-deprecations.js:155-207 | The errors are exactly those whose condition holds, in source order, each once |
| Deprecations.ValidateDeprecationMetadata | scripts/check-deprecations.js:150-210 | Both lists hold exactly the applicable problems in source order: missing reason; invalid deprecation date; invalid or past removal date (as errors); and the five metadata warnings |
| Deprecations.CompleteDeprecationIsClean | scripts/check-deprecations.js:150-210 | Complete metadata with the warning in the description and no dates gives no warnings and no errors |
| Deprecations.OrderedCount | scripts/check-deprecations.js:150-210 | An ordered report lists each problem at most once |
| Deprecations.TimelineWarningOnce | scripts/check-deprecations.js:172-174 | The missing-timeline warning appears exactly once iff neither removal date nor removal version is given |
| Deprecations.DescriptionWarningFollowsDescription | scripts/check-deprecations.js:146 | The description warning is raised iff the schema description lacks "DEPRECATED" |
| Deprecations.IsUrgentDeprecation | scripts/check-deprecations.js:212-224 | Urgent iff urgency is "high", or a removal date is given, parses, and is less than 30 days (2592000000 ms) from now |
| Deprecations.UrgencyGrowsWithTime | scripts/check-deprecations.js:212-224 | An urgent deprecation stays urgent later |
| Deprecations.PastRemovalIsUrgent | scripts/check-deprecations.js:193-224 | A deprecation whose removal date is reported as past is urgent |
| Deprecations.DefaultUrgencyNeedsDate | scripts/check-deprecations.js:143 | With the default urgency and no removal date, a deprecation is never urgent |
| VenueCheck.EnumOf | scripts/check-venues.js:30-31 | A schema without properties contributes no venue values |
| VenueCheck.CheckOneSchema | scripts/check-venues.js:30-55 | One schema passes iff every value of its venue_id, long_venue and short_venue enums is a registered venue |
| VenueCheck.CheckSchemaVenues | scripts/check-venues.js:27-59 | The check passes iff every schema passes; one bad schema does not stop the others being checked |
| VenueCheck.MoreVenuesStillValid | scripts/check-venues.js:27-59 | Registering more venues never makes a passing schema fail |
| VenueCheck.NoVenueEnumsPass | scripts/check-venues.js:30-55 | A schema without venue enums passes |
| VenueCheck.UnregisteredVenueFails | scripts/check-venues.js:30-43 | An unregistered venue_id value fails the schema |

## Left out

- **JSON decoding and encoding.**
  - `json.Unmarshal` is a `Decoded` value, either a payload or a malformed-input reason.
  - `json.Marshal` and `interface{}` payloads other than objects are opaque `Json` values.
- **Floating point.**
  - `float64` is modelled as exact reals, so rounding error in `value*100` is not modelled.
  - JavaScript numbers are unbounded integers.
  - `parseInt` on very long digit runs loses no precision here.
- **Times.**
  - `time.Time` keeps no location or monotonic reading.
  - Compat.UnixMilli does not model int64 overflow for times outside roughly ±292 million years.
- **Non-string JSON values.** JSON values that are not strings are left out: enum entries, topic mapping fields, the values of `ExtraMetadata`, and venue lists.
  - The scripts compare them with `includes` and `!==`.
  - The model handles string values only.
- **Script messages and drivers.**
  - The text of script messages and Go error strings is not modelled; each message is a structured value carrying the same data.
  - `console.log`, the `main` functions, git calls, the file system and `process.exit` are left out.
  - The loops in `main` over schema files, deprecated schemas and dates are left out.
- **`new Date` exceptions.** The `try`/`catch` around `new Date(...)` in the deprecation script is not modelled. For string input it never throws, and an invalid date gives NaN, which is modelled as `None`.
- **JavaScript object keys.**
  - Prototype-inherited keys are left out.
  - JSON objects with duplicate keys are left out, and so are mapping values that are falsy but present. In `checkTopicsCompatibility` a previous mapping is treated as present whenever its key is.
- **Kalshi settlement sources.** The Go mapper takes the address of the loop variable for each URL (mapping_test.go:390-396). The model gives each source its own URL, which is the behaviour under Go 1.22 loop semantics.
- **Files left out.**
  - `schemas.go` and `types.go` hold generated declarations only.
  - The TypeScript bundle and the remaining scripts (code generation, documentation, coverage) are not part of this model.
- **Error rendering.** `ValidationError.Error()` and the rendering of wrapped error chains are represented by `Validation.Render` only, with no contract about the exact text.
- **`checkVersionOverlap`** reads `package.json`, git tags and every schema file; only the functions it calls are modelled.


=== FILE: changelog.dfy ===
/** The CHANGELOG requirement of the release tooling: whether the changed
    files touch the schemas, whether the `[Unreleased]` section holds an
    entry, and whether some line opens a released version section. A missing
    CHANGELOG file is `None`. */
module Changelog {
  import opened Wrappers
  import opened Text

  // ---------------------------------------------------------------------
  // Changed files

  /** A path whose change calls for a CHANGELOG entry. */
  predicate IsSchemaPath(file: string) {
    StartsWith(file, "schemas/") || StartsWith(file, "openapi/") || file == "package.json"
  }

  /** `hasSchemaChanges`: `changedFiles.some(...)`, scanning from the front. */
  function HasSchemaChanges(changedFiles: seq<string>): (r: bool)
    ensures r <==> exists i :: 0 <= i < |changedFiles| && IsSchemaPath(changedFiles[i])
  {
    if |changedFiles| == 0 then false
    else IsSchemaPath(changedFiles[0]) || HasSchemaChanges(changedFiles[1..])
  }

  /** Changes outside the schema directories and the package manifest never
      call for an entry, and adding a file can only turn the answer to yes. */
  lemma SchemaChangesMonotone(changedFiles: seq<string>, more: seq<string>)
    ensures HasSchemaChanges(changedFiles) ==> HasSchemaChanges(changedFiles + more)
    ensures (forall i :: 0 <= i < |more| ==> !IsSchemaPath(more[i])) ==>
      HasSchemaChanges(changedFiles + more) == HasSchemaChanges(changedFiles)
  {
    var all := changedFiles + more;
    if HasSchemaChanges(changedFiles) {
      var i :| 0 <= i < |changedFiles| && IsSchemaPath(changedFiles[i]);
      assert all[i] == changedFiles[i];
    }
    if HasSchemaChanges(all) && forall i :: 0 <= i < |more| ==> !IsSchemaPath(more[i]) {
      var i :| 0 <= i < |all| && IsSchemaPath(all[i]);
      if i < |changedFiles| {
        assert all[i] == changedFiles[i];
      }
    }
  }

  // ---------------------------------------------------------------------
  // The [Unreleased] section

  const UnreleasedMarker: string := "## [Unreleased]"

  /** A line that opens (or re-opens) the unreleased section. */
  predicate IsMarker(line: string) {
    Contains(line, UnreleasedMarker)
  }

  /** A line that closes the unreleased section: the next `## ` heading. */
  predicate EndsSection(line: string) {
    !IsMarker(line) && StartsWith(line, "## ")
  }

  /** A line of real content: not a marker, not blank, not a `###` sub-heading
      and not a `## ` heading. */
  predicate IsEntry(line: string) {
    !IsMarker(line) && !IsBlank(line) && !StartsWith(line, "###") && !StartsWith(line, "## ")
  }

  /** `u` is the first line that holds the marker. */
  predicate FirstMarker(lines: seq<string>, u: int) {
    0 <= u < |lines| && IsMarker(lines[u]) && forall k :: 0 <= k < u ==> !IsMarker(lines[k])
  }

  /** Line `j` is an entry of the unreleased section opened at `u`: no section
      end lies between them. */
  predicate EntryAt(lines: seq<string>, u: int, j: int) {
    FirstMarker(lines, u) && u < j < |lines| && IsEntry(lines[j])
    && forall k :: u < k < j ==> !EndsSection(lines[k])
  }

  /** The independent statement: some line after the first marker and before
      the next section heading is an entry. */
  predicate HasUnreleasedEntry(lines: seq<string>) {
    exists u, j :: 0 <= u < j < |lines| && EntryAt(lines, u, j)
  }

  lemma FirstMarkerUnique(lines: seq<string>, u: int, v: int)
    requires FirstMarker(lines, u) && FirstMarker(lines, v)
    ensures u == v
  {
  }

  /** The scan stopped at a section end without having met an entry. */
  lemma SectionEndRulesOutEntry(lines: seq<string>, u: int, i: int)
    requires FirstMarker(lines, u) && u < i < |lines| && EndsSection(lines[i])
    requires forall k :: u < k < i ==> !IsEntry(lines[k])
    ensures !HasUnreleasedEntry(lines)
  {
    if exists v, j :: EntryAt(lines, v, j) {
      var v, j :| EntryAt(lines, v, j);
      FirstMarkerUnique(lines, u, v);
    }
  }

  /** The scan reached the end without having met an entry. */
  lemma EndRulesOutEntry(lines: seq<string>, u: int)
    requires FirstMarker(lines, u)
    requires forall k :: u < k < |lines| ==> !IsEntry(lines[k])
    ensures !HasUnreleasedEntry(lines)
  {
  }

  /** The loop of `hasUnreleasedChanges` over the lines of the file. A marker
      line is skipped before anything else is tested, so a second marker
      neither ends the section nor counts as content. */
  method ScanUnreleased(lines: seq<string>) returns (hasContent: bool)
    ensures hasContent <==> HasUnreleasedEntry(lines)
  {
    var inUnreleased := false;
    ghost var u := 0;
    hasContent := false;
    var i := 0;
    while i < |lines|
      invariant 0 <= i <= |lines|
      invariant !inUnreleased ==> forall k :: 0 <= k < i ==> !IsMarker(lines[k])
      invariant inUnreleased ==> FirstMarker(lines, u) && u < i
      invariant inUnreleased ==> forall k :: u < k < i ==> !EndsSection(lines[k]) && !IsEntry(lines[k])
    {
      var line := lines[i];
      if IsMarker(line) {
        if !inUnreleased {
          u := i;
        }
        inUnreleased := true;
        i := i + 1;
        continue;
      }
      if inUnreleased {
        if StartsWith(line, "## ") {
          SectionEndRulesOutEntry(lines, u, i);
          break;
        }
        if !IsBlank(line) && !StartsWith(line, "###") && !StartsWith(line, "## ") {
          assert EntryAt(lines, u, i);
          hasContent := true;
          break;
        }
      }
      i := i + 1;
    }
    if !hasContent && inUnreleased && i == |lines| {
      EndRulesOutEntry(lines, u);
    }
  }

  /** `hasUnreleasedChanges`: false for a missing or empty file, otherwise the
      scan of its `\n`-separated lines. */
  method HasUnreleasedChanges(content: Option<string>) returns (r: bool)
    ensures content.None? || content.value == "" ==> !r
    ensures content.Some? && content.value != "" ==> (r <==> HasUnreleasedEntry(Split(content.value, '\n')))
  {
    if content.None? || content.value == "" {
      return false;
    }
    r := ScanUnreleased(Split(content.value, '\n'));
  }

  /** An entry of `lines` stays an entry, shifted, behind a marker-free
      prefix. */
  lemma EntryAfterPrefix(prefix: seq<string>, lines: seq<string>, u: int, j: int)
    requires forall k :: 0 <= k < |prefix| ==> !IsMarker(prefix[k])
    requires EntryAt(lines, u, j)
    ensures EntryAt(prefix + lines, |prefix| + u, |prefix| + j)
  {
    var all := prefix + lines;
    var n := |prefix|;
    assert all[n + u] == lines[u] && all[n + j] == lines[j];
    forall k | 0 <= k < n + u
      ensures !IsMarker(all[k])
    {
      if k >= n {
        assert all[k] == lines[k - n];
      }
    }
    forall k | n + u < k < n + j
      ensures !EndsSection(all[k])
    {
      assert all[k] == lines[k - n];
    }
  }

  /** An entry behind a marker-free prefix is an entry of the rest. */
  lemma EntryBeyondPrefix(prefix: seq<string>, lines: seq<string>, u: int, j: int)
    requires forall k :: 0 <= k < |prefix| ==> !IsMarker(prefix[k])
    requires EntryAt(prefix + lines, u, j)
    ensures |prefix| <= u && EntryAt(lines, u - |prefix|, j - |prefix|)
  {
    var all := prefix + lines;
    var n := |prefix|;
    assert all[u] == lines[u - n] && all[j] == lines[j - n];
    forall k | 0 <= k < u - n
      ensures !IsMarker(lines[k])
    {
      assert all[k + n] == lines[k];
    }
    forall k | u - n < k < j - n
      ensures !EndsSection(lines[k])
    {
      assert all[k + n] == lines[k];
    }
  }

  /** Lines before the first marker never matter: putting marker-free lines
      in front of a file leaves the answer unchanged. */
  lemma LinesBeforeMarkerIgnored(prefix: seq<string>, lines: seq<string>)
    requires forall k :: 0 <= k < |prefix| ==> !IsMarker(prefix[k])
    ensures HasUnreleasedEntry(prefix + lines) <==> HasUnreleasedEntry(lines)
  {
    if HasUnreleasedEntry(lines) {
      var u, j :| 0 <= u < j < |lines| && EntryAt(lines, u, j);
      EntryAfterPrefix(prefix, lines, u, j);
    }
    if HasUnreleasedEntry(prefix + lines) {
      var u, j :| 0 <= u < j < |prefix + lines| && EntryAt(prefix + lines, u, j);
      EntryBeyondPrefix(prefix, lines, u, j);
    }
  }

  /** A file without the marker never has unreleased changes. */
  lemma NoMarkerNoUnreleased(lines: seq<string>)
    requires forall k :: 0 <= k < |lines| ==> !IsMarker(lines[k])
    ensures !HasUnreleasedEntry(lines)
  {
  }

  // ---------------------------------------------------------------------
  // Released version headings

  /** The ECMAScript line terminators, after which `^` matches in a
      multi-line regular expression. */
  predicate IsLineTerminator(c: char) {
    c == '\n' || c == '\r' || c == '\U{2028}' || c == '\U{2029}'
  }

  /** One `\d+` followed by the character `stop`: the text after `stop`
      when `s` starts with a non-empty run of ASCII digits and then `stop`.
      The run is the longest one: a shorter run would be followed by a digit,
      which `stop` never is. */
  function RunThen(s: string, stop: char): Option<string> {
    var n := DigitPrefixLength(s);
    if n > 0 && n < |s| && s[n] == stop then Some(s[n + 1..]) else None
  }

  /** `s` begins with a match of `## \[\d+\.\d+\.\d+\]`. */
  predicate VersionHeadingPrefix(s: string) {
    StartsWith(s, "## [") &&
    match RunThen(s[4..], '.')
    case None => false
    case Some(b) =>
      match RunThen(b, '.')
      case None => false
      case Some(c) => RunThen(c, ']').Some?
  }

  lemma DigitPrefixOfDigits(x: string, rest: string)
    requires AllDigits(x)
    requires |rest| > 0 && !IsDigit(rest[0])
    ensures DigitPrefixLength(x + rest) == |x|
  {
    var s := x + rest;
    var n := DigitPrefixLength(s);
    assert forall i :: 0 <= i < |x| ==> IsDigit(s[i]);
    assert !IsDigit(s[|x|]);
  }

  lemma RunThenOfParts(x: string, stop: char, rest: string)
    requires |x| > 0 && AllDigits(x) && !IsDigit(stop)
    ensures RunThen(x + [stop] + rest, stop) == Some(rest)
  {
    var s := x + [stop] + rest;
    assert s == x + ([stop] + rest);
    DigitPrefixOfDigits(x, [stop] + rest);
    assert s[|x| + 1..] == rest;
  }

  lemma RunThenParts(s: string, stop: char) returns (x: string)
    requires RunThen(s, stop).Some?
    ensures |x| > 0 && AllDigits(x)
    ensures s == x + ([stop] + RunThen(s, stop).value)
  {
    var n := DigitPrefixLength(s);
    x := s[..n];
    assert s == s[..n] + ([s[n]] + s[n + 1..]);
  }

  /** The text "## [x.y.z]" followed by `rest`. */
  function HeadingText(x: string, y: string, z: string, rest: string): string {
    "## [" + (x + ("." + (y + ("." + (z + ("]" + rest))))))
  }

  /** Any heading "## [x.y.z]" with non-empty digit runs matches, whatever
      follows it on the line. */
  lemma VersionHeadingOfParts(x: string, y: string, z: string, rest: string)
    requires |x| > 0 && |y| > 0 && |z| > 0 && AllDigits(x) && AllDigits(y) && AllDigits(z)
    ensures VersionHeadingPrefix(HeadingText(x, y, z, rest))
  {
    var c := z + ("]" + rest);
    var b := y + ("." + c);
    var a := x + ("." + b);
    var s := HeadingText(x, y, z, rest);
    assert s[4..] == a;
    assert a == x + ['.'] + b;
    assert b == y + ['.'] + c;
    assert c == z + [']'] + rest;
    RunThenOfParts(x, '.', b);
    RunThenOfParts(y, '.', c);
    RunThenOfParts(z, ']', rest);
  }

  /** Conversely every match is such a heading: the digit runs it read are
      returned. */
  lemma VersionHeadingParts(s: string) returns (x: string, y: string, z: string, rest: string)
    requires VersionHeadingPrefix(s)
    ensures |x| > 0 && |y| > 0 && |z| > 0 && AllDigits(x) && AllDigits(y) && AllDigits(z)
    ensures s == HeadingText(x, y, z, rest)
  {
    assert s[..4] == "## [";
    var a := s[4..];
    assert RunThen(a, '.').Some?;
    var b := RunThen(a, '.').value;
    assert RunThen(b, '.').Some?;
    var c := RunThen(b, '.').value;
    assert RunThen(c, ']').Some?;
    rest := RunThen(c, ']').value;
    x := RunThenParts(a, '.');
    y := RunThenParts(b, '.');
    z := RunThenParts(c, ']');
    assert c == z + ("]" + rest);
    assert b == y + ("." + c);
    assert a == x + ("." + b);
    assert s == s[..4] + a;
  }

  /** `^` of a multi-line expression: the start of the text or just after a
      line terminator. */
  predicate LineStart(s: string, p: int) {
    p == 0 || (0 < p <= |s| && IsLineTerminator(s[p - 1]))
  }

  /** `hasRecentVersionEntry`: false for a missing or empty file, otherwise
      whether some line starts with a released version heading. */
  method HasRecentVersionEntry(content: Option<string>) returns (r: bool)
    ensures content.None? ==> !r
    ensures content.Some? ==>
      (r <==> exists p :: 0 <= p < |content.value| && LineStart(content.value, p)
                           && VersionHeadingPrefix(content.value[p..]))
  {
    if content.None? || content.value == "" {
      return false;
    }
    var s := content.value;
    var p := 0;
    while p < |s|
      invariant 0 <= p <= |s|
      invariant forall q :: 0 <= q < p ==> !(LineStart(s, q) && VersionHeadingPrefix(s[q..]))
    {
      if LineStart(s, p) && VersionHeadingPrefix(s[p..]) {
        return true;
      }
      p := p + 1;
    }
    return false;
  }

  /** A changelog whose second line is "## [1.2.3] - 2024-01-01" has a
      released version entry. */
  lemma SecondLineHeadingFound(first: string, date: string)
    requires forall i :: 0 <= i < |first| ==> first[i] != '#'
    ensures var s := first + "\n## [1.2.3]" + date;
      exists p :: 0 <= p < |s| && LineStart(s, p) && VersionHeadingPrefix(s[p..])
  {
    var s := first + "\n## [1.2.3]" + date;
    var p := |first| + 1;
    assert s[p - 1] == '\n';
    assert s[p..] == HeadingText("1", "2", "3", date);
    VersionHeadingOfParts("1", "2", "3", date);
  }
}

=== FILE: compat.dfy ===
/** The legacy compatibility layer: the old raw envelope and trade records
    and their conversions to and from the canonical `RawEnvelopeV0` and
    `NormalizedTradeV1`. The canonical conversion stamps its own schema
    constant, while the legacy one copies whatever schema it is given. */
module Compat {
  import opened Wrappers
  import Json
  import Text
  import DiscoveryTypes
  import Registry

  // ---------------------------------------------------------------------
  // Streams

  type Stream = string

  const StreamOrderbook: Stream := "orderbook"
  const StreamTrades: Stream := "trades"
  const StreamStatus: Stream := "status"
  const StreamEventDiscovery: Stream := "event_discovery"
  const StreamSeriesDiscovery: Stream := "series_discovery"
  const StreamCategoryDiscovery: Stream := "category_discovery"

  // ---------------------------------------------------------------------
  // Time in milliseconds

  /** Seconds from Go's zero instant (January 1, year 1, UTC) to the Unix
      epoch. */
  const UnixToInternalSeconds: int := 62135596800

  /** Go's `Time.UnixMilli`: milliseconds since the Unix epoch, rounded down. */
  function UnixMilli(t: DiscoveryTypes.Time): (ms: int)
    ensures ms * 1000000 <= t.nanosSinceZero - UnixToInternalSeconds * 1000000000 < (ms + 1) * 1000000
  {
    (t.nanosSinceZero - UnixToInternalSeconds * 1000000000) / 1000000
  }

  /** A later instant never has a smaller millisecond stamp. */
  lemma UnixMilliMonotone(s: DiscoveryTypes.Time, t: DiscoveryTypes.Time)
    requires s.nanosSinceZero <= t.nanosSinceZero
    ensures UnixMilli(s) <= UnixMilli(t)
  {
  }

  // ---------------------------------------------------------------------
  // Raw envelopes

  /** The legacy envelope; its payload may hold any JSON value. */
  datatype RawEnvelope = RawEnvelope(
    schema: string,
    venueId: string,
    stream: string,
    instrumentNative: string,
    partitionKey: string,
    tsEventMs: int,
    tsIngestMs: int,
    isHistorical: Option<bool>,
    backfillTsMs: Option<int>,
    payload: Json.Value)

  /** The canonical envelope; its payload is a JSON object. */
  datatype RawEnvelopeV0 = RawEnvelopeV0(
    schema: string,
    venueId: string,
    stream: string,
    instrumentNative: string,
    partitionKey: string,
    tsEventMs: int,
    tsIngestMs: int,
    isHistorical: Option<bool>,
    backfillTsMs: Option<int>,
    payload: map<string, Json.Value>)

  /** `venueID + ":" + instrument`. */
  function PartitionKey(venueId: string, instrument: string): string {
    venueId + ":" + instrument
  }

  /** `NewRawEnvelope`, with the ingest clock reading `now` as a parameter. */
  function NewRawEnvelope(venueId: string, stream: string, instrument: string, eventTs: DiscoveryTypes.Time,
                          now: DiscoveryTypes.Time, payload: Json.Value): (r: RawEnvelope)
    ensures r.schema == Registry.SchemaRawV0
    ensures r.venueId == venueId && r.stream == stream && r.instrumentNative == instrument
    ensures r.partitionKey == PartitionKey(venueId, instrument)
    ensures r.tsEventMs == UnixMilli(eventTs) && r.tsIngestMs == UnixMilli(now)
    ensures r.isHistorical.None? && r.backfillTsMs.None?
    ensures r.payload == payload
  {
    RawEnvelope(Registry.SchemaRawV0, venueId, stream, instrument, PartitionKey(venueId, instrument),
      UnixMilli(eventTs), UnixMilli(now), None, None, payload)
  }

  /** A partition key gives back its venue and instrument when neither holds
      a colon. */
  lemma PartitionKeySplits(venueId: string, instrument: string)
    requires ':' !in venueId && ':' !in instrument
    ensures Text.Split(PartitionKey(venueId, instrument), ':') == [venueId, instrument]
  {
    var parts := [venueId, instrument];
    assert Text.Join(parts[1..], ':') == instrument;
    assert Text.Join(parts, ':') == PartitionKey(venueId, instrument);
    Text.SplitJoin(parts, ':');
  }

  /** Envelopes of colon-free venues and instruments share a partition key
      only when they share both. */
  lemma PartitionKeyInjective(v1: string, i1: string, v2: string, i2: string)
    requires ':' !in v1 && ':' !in i1 && ':' !in v2 && ':' !in i2
    requires PartitionKey(v1, i1) == PartitionKey(v2, i2)
    ensures v1 == v2 && i1 == i2
  {
    PartitionKeySplits(v1, i1);
    PartitionKeySplits(v2, i2);
  }

  /** `RawEnvelope.ToRawEnvelopeV0`. The type assertion on the payload panics
      unless it holds a JSON object; the panic is `None`. */
  function ToRawEnvelopeV0(r: RawEnvelope): (v: Option<RawEnvelopeV0>)
    ensures v.Some? <==> r.payload.Obj?
    ensures v.Some? ==> v.value.schema == Registry.SchemaRawV0 && v.value.payload == r.payload.fields
  {
    if r.payload.Obj? then
      Some(RawEnvelopeV0(Registry.SchemaRawV0, r.venueId, r.stream, r.instrumentNative, r.partitionKey,
        r.tsEventMs, r.tsIngestMs, r.isHistorical, r.backfillTsMs, r.payload.fields))
    else None
  }

  /** `FromRawEnvelopeV0`: field by field, schema included. */
  function FromRawEnvelopeV0(env: RawEnvelopeV0): (r: RawEnvelope)
    ensures r.schema == env.schema && r.payload == Json.Obj(env.payload)
  {
    RawEnvelope(env.schema, env.venueId, env.stream, env.instrumentNative, env.partitionKey,
      env.tsEventMs, env.tsIngestMs, env.isHistorical, env.backfillTsMs, Json.Obj(env.payload))
  }

  /** A canonical envelope survives the trip through the legacy record exactly
      when its schema is the canonical constant; any other schema is replaced
      by it. */
  lemma CanonicalEnvelopeRoundTrip(env: RawEnvelopeV0)
    ensures ToRawEnvelopeV0(FromRawEnvelopeV0(env)) == Some(env.(schema := Registry.SchemaRawV0))
    ensures ToRawEnvelopeV0(FromRawEnvelopeV0(env)) == Some(env) <==> env.schema == Registry.SchemaRawV0
  {
  }

  /** A legacy envelope survives the trip through the canonical record exactly
      when it carries the canonical schema and an object payload. */
  lemma LegacyEnvelopeRoundTrip(r: RawEnvelope)
    ensures (ToRawEnvelopeV0(r).Some? && FromRawEnvelopeV0(ToRawEnvelopeV0(r).value) == r)
        <==> (r.payload.Obj? && r.schema == Registry.SchemaRawV0)
  {
  }

  /** A freshly built envelope with an object payload converts, and converts
      back to itself. */
  lemma NewEnvelopeConverts(venueId: string, stream: string, instrument: string, eventTs: DiscoveryTypes.Time,
                            now: DiscoveryTypes.Time, payload: map<string, Json.Value>)
    ensures var r := NewRawEnvelope(venueId, stream, instrument, eventTs, now, Json.Obj(payload));
      ToRawEnvelopeV0(r).Some? && FromRawEnvelopeV0(ToRawEnvelopeV0(r).value) == r
  {
    LegacyEnvelopeRoundTrip(NewRawEnvelope(venueId, stream, instrument, eventTs, now, Json.Obj(payload)));
  }

  // ---------------------------------------------------------------------
  // Trades

  /** The legacy trade record. */
  datatype Trade = Trade(
    schema: string,
    instrumentId: string,
    venueId: string,
    tsMs: int,
    side: string,
    prob: real,
    size: real,
    notionalUsd: Option<real>)

  /** The canonical trade record. */
  datatype NormalizedTradeV1 = NormalizedTradeV1(
    instrumentId: string,
    notionalUsd: Option<real>,
    prob: real,
    schema: string,
    side: string,
    size: real,
    tsMs: int,
    venueId: string)

  /** `Trade.ToNormalizedTradeV1`: stamps the canonical schema. */
  function ToNormalizedTradeV1(t: Trade): (n: NormalizedTradeV1)
    ensures n.schema == Registry.SchemaMdTradeV1
    ensures n.instrumentId == t.instrumentId && n.venueId == t.venueId && n.tsMs == t.tsMs
    ensures n.side == t.side && n.prob == t.prob && n.size == t.size && n.notionalUsd == t.notionalUsd
  {
    NormalizedTradeV1(t.instrumentId, t.notionalUsd, t.prob, Registry.SchemaMdTradeV1, t.side, t.size, t.tsMs, t.venueId)
  }

  /** `FromNormalizedTradeV1`: field by field, schema included. */
  function FromNormalizedTradeV1(n: NormalizedTradeV1): (t: Trade)
    ensures t.schema == n.schema
    ensures t.instrumentId == n.instrumentId && t.venueId == n.venueId && t.tsMs == n.tsMs
    ensures t.side == n.side && t.prob == n.prob && t.size == n.size && t.notionalUsd == n.notionalUsd
  {
    Trade(n.schema, n.instrumentId, n.venueId, n.tsMs, n.side, n.prob, n.size, n.notionalUsd)
  }

  /** Converting a legacy trade and back restores it exactly when it already
      carried the canonical schema; every other field always survives. */
  lemma LegacyTradeRoundTrip(t: Trade)
    ensures FromNormalizedTradeV1(ToNormalizedTradeV1(t)) == t.(schema := Registry.SchemaMdTradeV1)
    ensures FromNormalizedTradeV1(ToNormalizedTradeV1(t)) == t <==> t.schema == Registry.SchemaMdTradeV1
  {
  }

  /** Converting a canonical trade and back restores it exactly when its
      schema is the canonical constant. */
  lemma CanonicalTradeRoundTrip(n: NormalizedTradeV1)
    ensures ToNormalizedTradeV1(FromNormalizedTradeV1(n)) == n <==> n.schema == Registry.SchemaMdTradeV1
  {
  }
}

=== FILE: compatibility.dfy ===
/** The backward-compatibility diff of the release tooling: a current and a
    previous JSON schema, topic map and venue list are compared, and every
    breaking change becomes one issue. A previous version that is missing or
    does not parse (`null`) is a new file and yields no issue. A parsed JSON
    object is the sequence of its entries in `Object.keys` order; an issue is
    a structured value carrying the file, field and value lists its message
    prints. */
module Compatibility {
  import opened Wrappers

  // ---------------------------------------------------------------------
  // JavaScript objects and arrays

  /** A parsed JSON object: its own entries in key order. */
  type JsObject<T> = seq<(string, T)>

  /** `Object.keys(o)`. */
  function Keys<T>(o: JsObject<T>): (ks: seq<string>)
    ensures |ks| == |o|
    ensures forall i :: 0 <= i < |o| ==> ks[i] == o[i].0
  {
    if |o| == 0 then [] else [o[0].0] + Keys(o[1..])
  }

  /** `JSON.parse` never yields an object with a repeated key. */
  predicate DistinctKeys<T>(o: JsObject<T>) {
    forall i, j :: 0 <= i < j < |o| ==> o[i].0 != o[j].0
  }

  /** `o[key]` for an own key, `undefined` (`None`) otherwise. */
  function Lookup<T>(o: JsObject<T>, key: string): (v: Option<T>)
    ensures v.Some? <==> key in Keys(o)
    ensures v.Some? ==> exists i :: 0 <= i < |o| && o[i] == (key, v.value)
  {
    if |o| == 0 then None
    else if o[0].0 == key then Some(o[0].1)
    else Lookup(o[1..], key)
  }

  /** In an object without repeated keys every entry is what its key looks up. */
  lemma {:induction false} LookupOfEntry<T>(o: JsObject<T>, i: nat)
    requires DistinctKeys(o) && i < |o|
    ensures Lookup(o, o[i].0) == Some(o[i].1)
  {
    if i > 0 {
      assert o[0].0 != o[i].0;
      assert DistinctKeys(o[1..]) by {
        forall a, b | 0 <= a < b < |o[1..]|
          ensures o[1..][a].0 != o[1..][b].0
        {
          assert o[1..][a] == o[a + 1] && o[1..][b] == o[b + 1];
        }
      }
      LookupOfEntry(o[1..], i - 1);
    }
  }

  /** `a.filter(x => !b.includes(x))`: the elements of `a` that `b` lacks, in
      their order in `a`, repetitions kept. */
  function Missing(a: seq<string>, b: seq<string>): (d: seq<string>)
    ensures forall x :: x in d <==> x in a && x !in b
    ensures |d| <= |a|
  {
    if |a| == 0 then []
    else (if a[0] in b then [] else [a[0]]) + Missing(a[1..], b)
  }

  /** Nothing is missing exactly when every element of `a` is in `b`. */
  lemma MissingEmptyIff(a: seq<string>, b: seq<string>)
    ensures Missing(a, b) == [] <==> forall x :: x in a ==> x in b
  {
    var d := Missing(a, b);
    if d != [] {
      assert d[0] in d;
    }
  }

  lemma ConcatAssoc<T>(x: seq<T>, y: seq<T>, z: seq<T>)
    ensures x + (y + z) == (x + y) + z
  {
  }

  /** One step of the filter: the head is kept iff `b` lacks it. */
  lemma MissingCons(x: string, a: seq<string>, b: seq<string>)
    ensures Missing([x] + a, b) == (if x in b then [] else [x]) + Missing(a, b)
  {
    assert ([x] + a)[0] == x;
    assert ([x] + a)[1..] == a;
  }

  /** The filter works element by element: it distributes over concatenation. */
  lemma {:induction false} MissingOfConcat(a: seq<string>, c: seq<string>, b: seq<string>)
    ensures Missing(a + c, b) == Missing(a, b) + Missing(c, b)
  {
    if |a| > 0 {
      var h := if a[0] in b then [] else [a[0]];
      var t := a[1..];
      assert a == [a[0]] + t;
      assert a + c == [a[0]] + (t + c);
      MissingCons(a[0], t + c, b);
      MissingCons(a[0], t, b);
      MissingOfConcat(t, c, b);
      ConcatAssoc(h, Missing(t, b), Missing(c, b));
    } else {
      assert a + c == c;
    }
  }

  /** Only membership in the second list matters. */
  lemma {:induction false} MissingSameMembers(a: seq<string>, b: seq<string>, c: seq<string>)
    requires forall x :: x in a ==> (x in b <==> x in c)
    ensures Missing(a, b) == Missing(a, c)
  {
    if |a| > 0 {
      MissingSameMembers(a[1..], b, c);
    }
  }

  /** A larger second list never lets more elements through. */
  lemma {:induction false} MissingAntitone(a: seq<string>, b: seq<string>, c: seq<string>)
    requires forall x :: x in b ==> x in c
    ensures |Missing(a, c)| <= |Missing(a, b)|
  {
    if |a| > 0 {
      MissingAntitone(a[1..], b, c);
    }
  }

  // ---------------------------------------------------------------------
  // Schemas

  /** A schema property; only its `enum` list takes part in the diff. */
  datatype Property = Property(enumValues: Option<seq<string>>)

  /** A JSON schema: its `required` list and its `properties` object. */
  datatype Schema = Schema(required: Option<seq<string>>, properties: Option<JsObject<Property>>)

  datatype SchemaIssue =
    | AddedRequired(file: string, fields: seq<string>)
    | RemovedRequired(file: string, fields: seq<string>)
    | RemovedProperties(file: string, props: seq<string>)
    | RemovedEnumValues(file: string, prop: string, values: seq<string>)

  /** `schema.required || []`. */
  function RequiredOf(s: Schema): seq<string> {
    s.required.GetOr([])
  }

  /** `schema.properties || {}`. */
  function PropertiesOf(s: Schema): JsObject<Property> {
    s.properties.GetOr([])
  }

  /** `previousSchema.properties?.[prop]?.enum`. */
  function PreviousEnum(previous: Schema, prop: string): Option<seq<string>> {
    match Lookup(PropertiesOf(previous), prop)
    case None => None
    case Some(p) => p.enumValues
  }

  /** The enum check of one current property: one issue listing the previous
      values the current enum lacks, when both versions have an enum and that
      list is non-empty. */
  function EnumIssue(file: string, prop: string, current: Property, previous: Schema): (r: seq<SchemaIssue>)
    ensures |r| <= 1
    ensures r != [] <==>
      current.enumValues.Some? && PreviousEnum(previous, prop).Some?
      && Missing(PreviousEnum(previous, prop).value, current.enumValues.value) != []
    ensures r != [] ==>
      r[0] == RemovedEnumValues(file, prop, Missing(PreviousEnum(previous, prop).value, current.enumValues.value))
  {
    if current.enumValues.Some? && PreviousEnum(previous, prop).Some? then
      var removed := Missing(PreviousEnum(previous, prop).value, current.enumValues.value);
      if |removed| > 0 then [RemovedEnumValues(file, prop, removed)] else []
    else []
  }

  /** The values of property `k` that the current enum dropped, when both
      versions have an enum. */
  predicate RemovedAt(entries: JsObject<Property>, previous: Schema, k: int, values: seq<string>) {
    && 0 <= k < |entries|
    && entries[k].1.enumValues.Some? && PreviousEnum(previous, entries[k].0).Some?
    && values == Missing(PreviousEnum(previous, entries[k].0).value, entries[k].1.enumValues.value)
  }

  /** The enum-narrowing loop over the current properties: at most one issue
      per property, each naming a current property and listing values. */
  function EnumIssues(file: string, entries: JsObject<Property>, previous: Schema): (r: seq<SchemaIssue>)
    ensures |r| <= |entries|
    ensures forall i :: 0 <= i < |r| ==>
      r[i].RemovedEnumValues? && r[i].file == file && r[i].values != [] && r[i].prop in Keys(entries)
  {
    if |entries| == 0 then []
    else EnumIssue(file, entries[0].0, entries[0].1, previous) + EnumIssues(file, entries[1..], previous)
  }

  /** Every issue lists exactly the values some current property's enum dropped. */
  ghost predicate IssuesSound(entries: JsObject<Property>, previous: Schema, r: seq<SchemaIssue>) {
    forall i :: 0 <= i < |r| ==>
      r[i].RemovedEnumValues?
      && exists k :: 0 <= k < |entries| && entries[k].0 == r[i].prop && RemovedAt(entries, previous, k, r[i].values)
  }

  /** Every current property whose enum dropped values has its issue. */
  ghost predicate IssuesComplete(file: string, entries: JsObject<Property>, previous: Schema, r: seq<SchemaIssue>) {
    forall k, values :: RemovedAt(entries, previous, k, values) && values != [] ==>
      RemovedEnumValues(file, entries[k].0, values) in r
  }

  /** No property is reported twice. */
  predicate OnePerProperty(r: seq<SchemaIssue>)
    requires forall i :: 0 <= i < |r| ==> r[i].RemovedEnumValues?
  {
    forall i, j :: 0 <= i < j < |r| ==> r[i].prop != r[j].prop
  }

  /** What the enum-narrowing loop reports: every issue lists exactly the
      values some current property's enum dropped; every property that dropped
      values has its issue; and, the keys of a parsed object being distinct,
      no property is reported twice. */
  lemma {:induction false} EnumIssuesExact(file: string, entries: JsObject<Property>, previous: Schema)
    ensures IssuesSound(entries, previous, EnumIssues(file, entries, previous))
    ensures IssuesComplete(file, entries, previous, EnumIssues(file, entries, previous))
    ensures DistinctKeys(entries) ==> OnePerProperty(EnumIssues(file, entries, previous))
  {
    if |entries| > 0 {
      var rest := EnumIssues(file, entries[1..], previous);
      EnumIssuesExact(file, entries[1..], previous);
      EnumIssuesSoundStep(file, entries, previous, rest);
      EnumIssuesCompleteStep(file, entries, previous, rest);
      if DistinctKeys(entries) {
        DistinctKeysTail(entries);
        EnumIssuesDistinctStep(file, entries, previous, rest);
      }
    }
  }

  lemma EnumIssuesSoundStep(file: string, entries: JsObject<Property>, previous: Schema, rest: seq<SchemaIssue>)
    requires |entries| > 0 && IssuesSound(entries[1..], previous, rest)
    ensures IssuesSound(entries, previous, EnumIssue(file, entries[0].0, entries[0].1, previous) + rest)
  {
    var head := EnumIssue(file, entries[0].0, entries[0].1, previous);
    var r := head + rest;
    forall i | 0 <= i < |r|
      ensures r[i].RemovedEnumValues?
      ensures exists k :: 0 <= k < |entries| && entries[k].0 == r[i].prop && RemovedAt(entries, previous, k, r[i].values)
    {
      if i < |head| {
        assert RemovedAt(entries, previous, 0, r[i].values);
      } else {
        assert r[i] == rest[i - |head|];
        var k :| 0 <= k < |entries[1..]| && entries[1..][k].0 == rest[i - |head|].prop
          && RemovedAt(entries[1..], previous, k, rest[i - |head|].values);
        assert entries[1..][k] == entries[k + 1];
        assert RemovedAt(entries, previous, k + 1, r[i].values);
      }
    }
  }

  lemma EnumIssuesCompleteStep(file: string, entries: JsObject<Property>, previous: Schema, rest: seq<SchemaIssue>)
    requires |entries| > 0 && IssuesComplete(file, entries[1..], previous, rest)
    ensures IssuesComplete(file, entries, previous, EnumIssue(file, entries[0].0, entries[0].1, previous) + rest)
  {
    var head := EnumIssue(file, entries[0].0, entries[0].1, previous);
    forall k, values | RemovedAt(entries, previous, k, values) && values != []
      ensures RemovedEnumValues(file, entries[k].0, values) in head + rest
    {
      if k == 0 {
        assert head[0] == RemovedEnumValues(file, entries[0].0, values);
      } else {
        assert entries[1..][k - 1] == entries[k];
        assert RemovedAt(entries[1..], previous, k - 1, values);
      }
    }
  }

  /** The tail of an object with distinct keys has distinct keys and lacks
      the head's key. */
  lemma DistinctKeysTail<T>(o: JsObject<T>)
    requires |o| > 0 && DistinctKeys(o)
    ensures DistinctKeys(o[1..]) && o[0].0 !in Keys(o[1..])
  {
    forall a, b | 0 <= a < b < |o[1..]|
      ensures o[1..][a].0 != o[1..][b].0
    {
      assert o[1..][a] == o[a + 1] && o[1..][b] == o[b + 1];
    }
    forall m | 0 <= m < |o[1..]|
      ensures Keys(o[1..])[m] != o[0].0
    {
      assert o[1..][m] == o[m + 1];
    }
  }

  lemma EnumIssuesDistinctStep(file: string, entries: JsObject<Property>, previous: Schema, rest: seq<SchemaIssue>)
    requires |entries| > 0 && entries[0].0 !in Keys(entries[1..])
    requires forall i :: 0 <= i < |rest| ==> rest[i].RemovedEnumValues? && rest[i].prop in Keys(entries[1..])
    requires OnePerProperty(rest)
    ensures OnePerProperty(EnumIssue(file, entries[0].0, entries[0].1, previous) + rest)
  {
    var head := EnumIssue(file, entries[0].0, entries[0].1, previous);
    var r := head + rest;
    forall i, j | 0 <= i < j < |r|
      ensures r[i].prop != r[j].prop
    {
      assert r[j] == rest[j - |head|];
      if i >= |head| {
        assert r[i] == rest[i - |head|];
      }
    }
  }

  /** One current property with an enum in both versions keeps all of its
      previous values. */
  predicate EnumKept(prop: string, current: Property, previous: Schema) {
    current.enumValues.Some? && PreviousEnum(previous, prop).Some? ==>
      forall v :: v in PreviousEnum(previous, prop).value ==> v in current.enumValues.value
  }

  /** Every current property keeps its previous enum values. */
  predicate EnumsKept(entries: JsObject<Property>, previous: Schema) {
    forall i :: 0 <= i < |entries| ==> EnumKept(entries[i].0, entries[i].1, previous)
  }

  lemma EnumIssueEmptyIff(file: string, prop: string, current: Property, previous: Schema)
    ensures EnumIssue(file, prop, current, previous) == [] <==> EnumKept(prop, current, previous)
  {
    if current.enumValues.Some? && PreviousEnum(previous, prop).Some? {
      var removed := Missing(PreviousEnum(previous, prop).value, current.enumValues.value);
      if removed != [] {
        assert removed[0] in removed;
      }
    }
  }

  lemma {:induction false} EnumIssuesEmptyIff(file: string, entries: JsObject<Property>, previous: Schema)
    ensures EnumIssues(file, entries, previous) == [] <==> EnumsKept(entries, previous)
  {
    if |entries| > 0 {
      EnumIssueEmptyIff(file, entries[0].0, entries[0].1, previous);
      EnumIssuesEmptyIff(file, entries[1..], previous);
      EnumsKeptSplit(entries, previous);
    }
  }

  /** All properties keep their enums iff the first does and the rest do. */
  lemma EnumsKeptSplit(entries: JsObject<Property>, previous: Schema)
    requires |entries| > 0
    ensures EnumsKept(entries, previous) <==>
      EnumKept(entries[0].0, entries[0].1, previous) && EnumsKept(entries[1..], previous)
  {
    if EnumsKept(entries, previous) {
      forall i | 0 <= i < |entries[1..]|
        ensures EnumKept(entries[1..][i].0, entries[1..][i].1, previous)
      {
        assert entries[1..][i] == entries[i + 1];
      }
    }
    if EnumKept(entries[0].0, entries[0].1, previous) && EnumsKept(entries[1..], previous) {
      forall i | 1 <= i < |entries|
        ensures EnumKept(entries[i].0, entries[i].1, previous)
      {
        assert entries[i] == entries[1..][i - 1];
      }
    }
  }

  /** No issue of the same kind twice, for the three once-per-file kinds. */
  predicate AtMostOneEach(issues: seq<SchemaIssue>) {
    forall i, j :: 0 <= i < j < |issues| ==>
      !(issues[i].AddedRequired? && issues[j].AddedRequired?)
      && !(issues[i].RemovedRequired? && issues[j].RemovedRequired?)
      && !(issues[i].RemovedProperties? && issues[j].RemovedProperties?)
  }

  /** The three once-per-file checks: added required fields, removed required
      fields and removed property keys, each an issue only when its list is
      non-empty. */
  function ListIssues(file: string, added: seq<string>, removed: seq<string>, removedProps: seq<string>): (issues: seq<SchemaIssue>)
    ensures |issues| <= 3 && AtMostOneEach(issues)
    ensures forall i :: 0 <= i < |issues| ==> issues[i].file == file && !issues[i].RemovedEnumValues?
    ensures AddedRequired(file, added) in issues <==> added != []
    ensures RemovedRequired(file, removed) in issues <==> removed != []
    ensures RemovedProperties(file, removedProps) in issues <==> removedProps != []
  {
    ListIssuesFacts(file, added, removed, removedProps);
    IssueIf(added, AddedRequired(file, added))
    + IssueIf(removed, RemovedRequired(file, removed))
    + IssueIf(removedProps, RemovedProperties(file, removedProps))
  }

  lemma ListIssuesFacts(file: string, added: seq<string>, removed: seq<string>, removedProps: seq<string>)
    ensures var issues := IssueIf(added, AddedRequired(file, added))
      + IssueIf(removed, RemovedRequired(file, removed))
      + IssueIf(removedProps, RemovedProperties(file, removedProps));
      && |issues| <= 3 && AtMostOneEach(issues)
      && (forall i :: 0 <= i < |issues| ==> issues[i].file == file && !issues[i].RemovedEnumValues?)
      && (AddedRequired(file, added) in issues <==> added != [])
      && (RemovedRequired(file, removed) in issues <==> removed != [])
      && (RemovedProperties(file, removedProps) in issues <==> removedProps != [])
  {
    var x, y, z := AddedRequired(file, added), RemovedRequired(file, removed), RemovedProperties(file, removedProps);
    var issues := IssueIf(added, x) + IssueIf(removed, y) + IssueIf(removedProps, z);
    OrderedKindsOnce(x, y, z);
    if added == [] {
      if removed == [] {
        if removedProps == [] { assert issues == []; } else { assert issues == [z]; }
      } else {
        if removedProps == [] { assert issues == [y]; } else { assert issues == [y, z]; }
      }
    } else {
      if removed == [] {
        if removedProps == [] { assert issues == [x]; } else { assert issues == [x, z]; }
      } else {
        if removedProps == [] { assert issues == [x, y]; } else { assert issues == [x, y, z]; }
      }
    }
  }

  /** The three list kinds in their order, any of them omitted, hold each
      kind at most once. */
  lemma OrderedKindsOnce(x: SchemaIssue, y: SchemaIssue, z: SchemaIssue)
    requires x.AddedRequired? && y.RemovedRequired? && z.RemovedProperties?
    ensures AtMostOneEach([]) && AtMostOneEach([x]) && AtMostOneEach([y]) && AtMostOneEach([z])
    ensures AtMostOneEach([x, y]) && AtMostOneEach([x, z]) && AtMostOneEach([y, z])
    ensures AtMostOneEach([x, y, z])
  {
  }

  /** The issue for a computed list, raised only when the list is non-empty. */
  function IssueIf(list: seq<string>, issue: SchemaIssue): (r: seq<SchemaIssue>)
    ensures r == [] || r == [issue]
    ensures issue in r <==> list != []
  {
    if |list| > 0 then [issue] else []
  }

  lemma AtMostOneEachAppend(h: seq<SchemaIssue>, e: seq<SchemaIssue>)
    requires AtMostOneEach(h)
    requires forall i :: 0 <= i < |e| ==> e[i].RemovedEnumValues?
    ensures AtMostOneEach(h + e)
  {
    forall i, j | 0 <= i < j < |h + e|
      ensures !((h + e)[i].AddedRequired? && (h + e)[j].AddedRequired?)
      ensures !((h + e)[i].RemovedRequired? && (h + e)[j].RemovedRequired?)
      ensures !((h + e)[i].RemovedProperties? && (h + e)[j].RemovedProperties?)
    {
      if j >= |h| {
        assert (h + e)[j] == e[j - |h|];
      }
    }
  }

  /** `checkSchemaCompatibility`. */
  function CheckSchemaCompatibility(current: Schema, previous: Option<Schema>, file: string): (issues: seq<SchemaIssue>)
    ensures previous.None? ==> issues == []
    ensures forall i :: 0 <= i < |issues| ==> issues[i].file == file
    ensures AtMostOneEach(issues)
    ensures |issues| <= 3 + |PropertiesOf(current)|
  {
    if previous.None? then []
    else
      var h := ListIssues(file,
        Missing(RequiredOf(current), RequiredOf(previous.value)),
        Missing(RequiredOf(previous.value), RequiredOf(current)),
        Missing(Keys(PropertiesOf(previous.value)), Keys(PropertiesOf(current))));
      var e := EnumIssues(file, PropertiesOf(current), previous.value);
      AtMostOneEachAppend(h, e);
      h + e
  }

  /** Each list check raises its issue, carrying exactly the list it
      computed, when that list is non-empty and not otherwise; enum issues
      come after them. */
  lemma SchemaListIssues(current: Schema, previous: Schema, file: string)
    ensures var issues := CheckSchemaCompatibility(current, Some(previous), file);
      var added := Missing(RequiredOf(current), RequiredOf(previous));
      var removed := Missing(RequiredOf(previous), RequiredOf(current));
      var removedProps := Missing(Keys(PropertiesOf(previous)), Keys(PropertiesOf(current)));
      && (AddedRequired(file, added) in issues <==> added != [])
      && (RemovedRequired(file, removed) in issues <==> removed != [])
      && (RemovedProperties(file, removedProps) in issues <==> removedProps != [])
  {
    var added := Missing(RequiredOf(current), RequiredOf(previous));
    var removed := Missing(RequiredOf(previous), RequiredOf(current));
    var removedProps := Missing(Keys(PropertiesOf(previous)), Keys(PropertiesOf(current)));
    var h := ListIssues(file, added, removed, removedProps);
    var e := EnumIssues(file, PropertiesOf(current), previous);
    assert CheckSchemaCompatibility(current, Some(previous), file) == h + e;
    assert forall x :: x in e ==> x.RemovedEnumValues?;
  }

  /** The independent statement of backward compatibility: the same required
      fields as a set, no property key dropped, and no enum value dropped from
      a property that has an enum in both versions. */
  predicate BackwardCompatible(current: Schema, previous: Schema) {
    && (forall x :: x in RequiredOf(current) ==> x in RequiredOf(previous))
    && (forall x :: x in RequiredOf(previous) ==> x in RequiredOf(current))
    && (forall k :: k in Keys(PropertiesOf(previous)) ==> k in Keys(PropertiesOf(current)))
    && EnumsKept(PropertiesOf(current), previous)
  }

  /** A schema change raises no issue exactly when it is backward compatible. */
  lemma SchemaIssuesIffIncompatible(current: Schema, previous: Schema, file: string)
    ensures CheckSchemaCompatibility(current, Some(previous), file) == [] <==> BackwardCompatible(current, previous)
  {
    EnumIssuesEmptyIff(file, PropertiesOf(current), previous);
    MissingEmptyIff(RequiredOf(current), RequiredOf(previous));
    MissingEmptyIff(RequiredOf(previous), RequiredOf(current));
    MissingEmptyIff(Keys(PropertiesOf(previous)), Keys(PropertiesOf(current)));
  }

  /** A schema compared with itself raises no issue. */
  lemma IdenticalSchemasCompatible(s: Schema, file: string)
    requires DistinctKeys(PropertiesOf(s))
    ensures CheckSchemaCompatibility(s, Some(s), file) == []
  {
    var props := PropertiesOf(s);
    forall i | 0 <= i < |props|
      ensures PreviousEnum(s, props[i].0) == props[i].1.enumValues
    {
      LookupOfEntry(props, i);
    }
    SchemaIssuesIffIncompatible(s, s, file);
  }

  /** New enum values never raise an issue: a property whose current enum
      contains every previous value is compatible, whatever it adds. */
  lemma AddedEnumValuesNeverIssue(file: string, prop: string, values: seq<string>, added: seq<string>)
    ensures var previous := Schema(None, Some([(prop, Property(Some(values)))]));
      var current := Schema(None, Some([(prop, Property(Some(values + added)))]));
      CheckSchemaCompatibility(current, Some(previous), file) == []
  {
    var previous := Schema(None, Some([(prop, Property(Some(values)))]));
    var current := Schema(None, Some([(prop, Property(Some(values + added)))]));
    assert PreviousEnum(previous, prop) == Some(values);
    SchemaIssuesIffIncompatible(current, previous, file);
  }

  // ---------------------------------------------------------------------
  // Topics

  /** The value `mapping.topic || (Array.isArray(mapping.topics) ?
      mapping.topics[0] : null)` takes: a name, `null` or `undefined`. */
  datatype TopicValue = Named(name: string) | JsNull | JsUndefined

  /** One schema's entry in the topic map. `topics` is `None` when it is
      absent or not an array. */
  datatype TopicMapping = TopicMapping(topic: Option<string>, topics: Option<seq<string>>)

  datatype TopicIssue =
    | TopicChanged(schemaId: string, from: TopicValue, to: TopicValue)
    | RemovedSchemaMappings(schemaIds: seq<string>)

  /** The topic of a mapping. An empty `topic` string is falsy and falls
      through to the array; an empty array yields `undefined`, not `null`. */
  function TopicOf(m: TopicMapping): (t: TopicValue)
    ensures m.topic.Some? && m.topic.value != "" ==> t == Named(m.topic.value)
    ensures t.JsNull? <==> (m.topic.None? || m.topic.value == "") && m.topics.None?
    ensures t.JsUndefined? <==> (m.topic.None? || m.topic.value == "") && m.topics == Some([])
    ensures (m.topic.None? || m.topic.value == "") && m.topics.Some? && |m.topics.value| > 0 ==>
      t == Named(m.topics.value[0])
  {
    if m.topic.Some? && m.topic.value != "" then Named(m.topic.value)
    else if m.topics.Some? then (if |m.topics.value| > 0 then Named(m.topics.value[0]) else JsUndefined)
    else JsNull
  }

  /** The loop over the current mappings: a schema id present in both maps
      whose topic differs is one issue. */
  function TopicChanges(current: JsObject<TopicMapping>, previous: JsObject<TopicMapping>): (r: seq<TopicIssue>)
    ensures |r| <= |current|
    ensures forall i :: 0 <= i < |r| ==>
      r[i].TopicChanged? && r[i].from != r[i].to && r[i].schemaId in Keys(previous) && r[i].schemaId in Keys(current)
  {
    if |current| == 0 then []
    else
      var (id, mapping) := current[0];
      (match Lookup(previous, id)
       case None => []
       case Some(before) =>
         if TopicOf(mapping) != TopicOf(before) then [TopicChanged(id, TopicOf(before), TopicOf(mapping))] else [])
      + TopicChanges(current[1..], previous)
  }

  /** `checkTopicsCompatibility`. */
  function CheckTopicsCompatibility(current: JsObject<TopicMapping>, previous: Option<JsObject<TopicMapping>>): (issues: seq<TopicIssue>)
    ensures previous.None? ==> issues == []
    ensures forall i :: 0 <= i < |issues| - 1 ==> issues[i].TopicChanged?
    ensures previous.Some? ==>
      var removed := Missing(Keys(previous.value), Keys(current));
      RemovedSchemaMappings(removed) in issues <==> removed != []
  {
    if previous.None? then []
    else
      var removed := Missing(Keys(previous.value), Keys(current));
      TopicChanges(current, previous.value) + (if |removed| > 0 then [RemovedSchemaMappings(removed)] else [])
  }

  /** The independent statement: no schema id dropped, and every id in both
      maps keeps its topic. */
  predicate TopicsCompatible(current: JsObject<TopicMapping>, previous: JsObject<TopicMapping>) {
    && (forall k :: k in Keys(previous) ==> k in Keys(current))
    && (forall i :: 0 <= i < |current| && Lookup(previous, current[i].0).Some? ==>
          TopicOf(Lookup(previous, current[i].0).value) == TopicOf(current[i].1))
  }

  lemma {:induction false} TopicChangesEmptyIff(current: JsObject<TopicMapping>, previous: JsObject<TopicMapping>)
    ensures TopicChanges(current, previous) == [] <==>
      forall i :: 0 <= i < |current| && Lookup(previous, current[i].0).Some? ==>
        TopicOf(Lookup(previous, current[i].0).value) == TopicOf(current[i].1)
  {
    if |current| > 0 {
      TopicChangesEmptyIff(current[1..], previous);
      forall i | 1 <= i < |current|
        ensures current[i] == current[1..][i - 1]
      {
      }
    }
  }

  /** The change report for the current entry at index `k`: its id has a
      previous mapping, and the issue names the previous and current topics. */
  predicate TopicChangeAt(current: JsObject<TopicMapping>, previous: JsObject<TopicMapping>, k: int, t: TopicIssue) {
    && 0 <= k < |current|
    && Lookup(previous, current[k].0).Some?
    && t == TopicChanged(current[k].0, TopicOf(Lookup(previous, current[k].0).value), TopicOf(current[k].1))
  }

  /** The report for a single entry: its change, when its id has a previous
      mapping with another topic, and nothing otherwise. */
  lemma TopicChangesSingle(e: (string, TopicMapping), previous: JsObject<TopicMapping>)
    ensures TopicChanges([e], previous) ==
      if Lookup(previous, e.0).Some? && TopicOf(Lookup(previous, e.0).value) != TopicOf(e.1)
      then [TopicChanged(e.0, TopicOf(Lookup(previous, e.0).value), TopicOf(e.1))]
      else []
  {
    assert [e][0] == e;
    assert [e][1..] == [];
  }

  /** Every reported change is the change of some shared id, from its previous
      topic to its current one. */
  lemma {:induction false} TopicChangesSound(current: JsObject<TopicMapping>, previous: JsObject<TopicMapping>)
    ensures forall t :: t in TopicChanges(current, previous) ==>
      exists k :: TopicChangeAt(current, previous, k, t)
  {
    if |current| > 0 {
      var rest := current[1..];
      assert current == [current[0]] + rest;
      TopicChangesCons(current[0], rest, previous);
      TopicChangesSingle(current[0], previous);
      TopicChangesSound(rest, previous);
      forall t | t in TopicChanges(current, previous)
        ensures exists k :: TopicChangeAt(current, previous, k, t)
      {
        if t in TopicChanges(rest, previous) {
          var k :| TopicChangeAt(rest, previous, k, t);
          assert rest[k] == current[k + 1];
          assert TopicChangeAt(current, previous, k + 1, t);
        } else {
          assert TopicChangeAt(current, previous, 0, t);
        }
      }
    }
  }

  /** Every shared id whose topic changed has its change reported. */
  lemma {:induction false} TopicChangesComplete(current: JsObject<TopicMapping>, previous: JsObject<TopicMapping>, k: int)
    requires 0 <= k < |current| && Lookup(previous, current[k].0).Some?
    requires TopicOf(Lookup(previous, current[k].0).value) != TopicOf(current[k].1)
    ensures TopicChanged(current[k].0, TopicOf(Lookup(previous, current[k].0).value), TopicOf(current[k].1))
      in TopicChanges(current, previous)
  {
    var rest := current[1..];
    var t := TopicChanged(current[k].0, TopicOf(Lookup(previous, current[k].0).value), TopicOf(current[k].1));
    var h, r := TopicChanges([current[0]], previous), TopicChanges(rest, previous);
    assert current == [current[0]] + rest;
    TopicChangesCons(current[0], rest, previous);
    assert TopicChanges(current, previous) == h + r;
    if k > 0 {
      assert rest[k - 1] == current[k];
      TopicChangesComplete(rest, previous, k - 1);
      assert t in r;
    } else {
      TopicChangesSingle(current[0], previous);
      assert h == [t];
    }
  }

  /** A topic map change raises no issue exactly when it is compatible. */
  lemma TopicIssuesIffIncompatible(current: JsObject<TopicMapping>, previous: JsObject<TopicMapping>)
    ensures CheckTopicsCompatibility(current, Some(previous)) == [] <==> TopicsCompatible(current, previous)
  {
    TopicChangesEmptyIff(current, previous);
    var removed := Missing(Keys(previous), Keys(current));
    if removed != [] {
      assert removed[0] in removed;
    }
  }

  /** One step of the loop: the first entry's report, then the rest's. */
  lemma TopicChangesCons(e: (string, TopicMapping), rest: JsObject<TopicMapping>, previous: JsObject<TopicMapping>)
    ensures TopicChanges([e] + rest, previous) == TopicChanges([e], previous) + TopicChanges(rest, previous)
  {
    assert ([e] + rest)[0] == e;
    assert ([e] + rest)[1..] == rest;
    assert [e][1..] == [];
  }

  lemma {:induction false} TopicChangesOfConcat(a: JsObject<TopicMapping>, b: JsObject<TopicMapping>, previous: JsObject<TopicMapping>)
    ensures TopicChanges(a + b, previous) == TopicChanges(a, previous) + TopicChanges(b, previous)
  {
    if |a| > 0 {
      var t := a[1..];
      assert a == [a[0]] + t;
      assert a + b == [a[0]] + (t + b);
      TopicChangesCons(a[0], t + b, previous);
      TopicChangesCons(a[0], t, previous);
      TopicChangesOfConcat(t, b, previous);
      ConcatAssoc(TopicChanges([a[0]], previous), TopicChanges(t, previous), TopicChanges(b, previous));
    } else {
      assert a + b == b;
    }
  }

  lemma {:induction false} TopicChangesOfNewIds(extra: JsObject<TopicMapping>, previous: JsObject<TopicMapping>)
    requires forall i :: 0 <= i < |extra| ==> extra[i].0 !in Keys(previous)
    ensures TopicChanges(extra, previous) == []
  {
    if |extra| > 0 {
      TopicChangesOfNewIds(extra[1..], previous);
    }
  }

  lemma KeysOfConcat<T>(a: JsObject<T>, b: JsObject<T>)
    ensures Keys(a + b) == Keys(a) + Keys(b)
  {
    var k, l := Keys(a + b), Keys(a) + Keys(b);
    assert |k| == |l|;
    forall i | 0 <= i < |k|
      ensures k[i] == l[i]
    {
      if i >= |a| {
        assert (a + b)[i] == b[i - |a|];
      }
    }
  }

  /** Mappings for new schema ids never raise an issue: appending them to the
      current map leaves the issue list as it was. */
  lemma NewSchemaIdsNeverIssue(current: JsObject<TopicMapping>, extra: JsObject<TopicMapping>, previous: JsObject<TopicMapping>)
    requires forall i :: 0 <= i < |extra| ==> extra[i].0 !in Keys(previous)
    ensures CheckTopicsCompatibility(current + extra, Some(previous)) == CheckTopicsCompatibility(current, Some(previous))
  {
    TopicChangesOfConcat(current, extra, previous);
    TopicChangesOfNewIds(extra, previous);
    assert TopicChanges(current + extra, previous) == TopicChanges(current, previous);
    KeysOfConcat(current, extra);
    assert forall i :: 0 <= i < |Keys(extra)| ==> Keys(extra)[i] !in Keys(previous);
    NewKeysLeaveMembership(Keys(previous), Keys(current), Keys(extra));
    MissingSameMembers(Keys(previous), Keys(current + extra), Keys(current));
  }

  lemma NewKeysLeaveMembership(before: seq<string>, current: seq<string>, extra: seq<string>)
    requires forall i :: 0 <= i < |extra| ==> extra[i] !in before
    ensures forall x :: x in before ==> (x in current + extra <==> x in current)
  {
  }

  /** An empty `topics` array against a mapping with no topic at all is
      reported as a change from `null` to `undefined`, although neither
      version names a topic. */
  lemma EmptyTopicsArrayIsNotNull(id: string)
    ensures CheckTopicsCompatibility([(id, TopicMapping(None, Some([])))], Some([(id, TopicMapping(None, None))]))
      == [TopicChanged(id, JsNull, JsUndefined)]
  {
    assert Missing(Keys([(id, TopicMapping(None, None))]), Keys([(id, TopicMapping(None, Some([])))])) == [];
  }

  // ---------------------------------------------------------------------
  // Venues

  datatype VenueIssue = RemovedVenues(venues: seq<string>)

  /** `checkVenuesCompatibility`: removed venues are one issue; added venues
      are only logged. */
  function CheckVenuesCompatibility(current: seq<string>, previous: Option<seq<string>>): (issues: seq<VenueIssue>)
    ensures previous.None? ==> issues == []
    ensures |issues| <= 1
    ensures issues == [] <==> previous.None? || forall v :: v in previous.value ==> v in current
    ensures issues != [] ==> forall v :: v in issues[0].venues <==> v in previous.value && v !in current
  {
    if previous.None? then []
    else
      var removed := Missing(previous.value, current);
      if |removed| > 0 then assert removed[0] in removed; [RemovedVenues(removed)]
      else []
  }

  /** Adding venues never raises an issue: the removed list can only shrink,
      and a change that was compatible stays compatible. */
  lemma AddedVenuesNeverIssue(current: seq<string>, added: seq<string>, previous: seq<string>)
    ensures |Missing(previous, current + added)| <= |Missing(previous, current)|
    ensures CheckVenuesCompatibility(current, Some(previous)) == [] ==>
      CheckVenuesCompatibility(current + added, Some(previous)) == []
  {
    MissingAntitone(previous, current, current + added);
  }
}

=== FILE: deprecations.dfy ===
/** The deprecation lint of the release tooling. A schema's `x-deprecated`
    block is read into a deprecation record, the record is checked for the
    fields a deprecation must or should carry, and a deprecation is urgent
    when marked so or when its planned removal is less than thirty days away.
    The wall clock (`new Date()`) is the parameter `now`, in milliseconds
    since the Unix epoch, and `new Date(text).getTime()` is the parameter
    `parseDate`, whose `None` stands for NaN. A metadata value that is absent
    is `None`; JavaScript treats it and the empty string alike as falsy. */
module Deprecations {
  import opened Wrappers
  import opened Text

  /** A string-valued field is truthy when present and non-empty. */
  predicate Truthy(v: Option<string>) {
    v.Some? && v.value != ""
  }

  /** `value || fallback` for a string-valued field. */
  function OrElse(v: Option<string>, fallback: string): (r: string)
    ensures Truthy(v) ==> r == v.value
    ensures !Truthy(v) ==> r == fallback
  {
    if Truthy(v) then v.value else fallback
  }

  /** The `x-deprecated` block of a schema. */
  datatype DeprecationInfo = DeprecationInfo(
    deprecatedInVersion: Option<string>,
    removalPlannedInVersion: Option<string>,
    reason: Option<string>,
    replacedBy: Option<string>,
    migrationGuide: Option<string>,
    deprecationDate: Option<string>,
    plannedRemovalDate: Option<string>,
    contact: Option<string>,
    urgency: Option<string>,
    impactLevel: Option<string>)

  /** The record `analyzeDeprecation` builds. */
  datatype Deprecation = Deprecation(
    schema: string,
    deprecated: bool,
    deprecatedInVersion: Option<string>,
    removalPlannedInVersion: Option<string>,
    reason: Option<string>,
    replacedBy: Option<string>,
    migrationGuide: Option<string>,
    deprecationDate: Option<string>,
    plannedRemovalDate: Option<string>,
    contact: Option<string>,
    urgency: string,
    impactLevel: string,
    description: string,
    hasWarningInDescription: bool)

  const DefaultLevel: string := "medium"
  const DeprecatedMarker: string := "DEPRECATED"

  /** `analyzeDeprecation`: the block's fields copied, urgency and impact
      defaulted to "medium", and whether the schema's description carries
      the word DEPRECATED. */
  function AnalyzeDeprecation(schema: string, info: DeprecationInfo, description: Option<string>): (d: Deprecation)
    ensures d.schema == schema && d.deprecated
    ensures d.deprecatedInVersion == info.deprecatedInVersion && d.removalPlannedInVersion == info.removalPlannedInVersion
    ensures d.reason == info.reason && d.replacedBy == info.replacedBy && d.migrationGuide == info.migrationGuide
    ensures d.deprecationDate == info.deprecationDate && d.plannedRemovalDate == info.plannedRemovalDate
    ensures d.contact == info.contact
    ensures d.urgency == (if Truthy(info.urgency) then info.urgency.value else DefaultLevel)
    ensures d.impactLevel == (if Truthy(info.impactLevel) then info.impactLevel.value else DefaultLevel)
    ensures d.urgency != "" && d.impactLevel != ""
    ensures d.description == (if Truthy(description) then description.value else "")
    ensures d.hasWarningInDescription <==> description.Some? && Contains(description.value, DeprecatedMarker)
  {
    Deprecation(
      schema := schema,
      deprecated := true,
      deprecatedInVersion := info.deprecatedInVersion,
      removalPlannedInVersion := info.removalPlannedInVersion,
      reason := info.reason,
      replacedBy := info.replacedBy,
      migrationGuide := info.migrationGuide,
      deprecationDate := info.deprecationDate,
      plannedRemovalDate := info.plannedRemovalDate,
      contact := info.contact,
      urgency := OrElse(info.urgency, DefaultLevel),
      impactLevel := OrElse(info.impactLevel, DefaultLevel),
      description := OrElse(description, ""),
      hasWarningInDescription := description.Some? && Contains(description.value, DeprecatedMarker))
  }

  // ---------------------------------------------------------------------
  // Metadata validation

  /** One finding of the lint; every message names the schema. */
  datatype Problem =
    | MissingReason
    | MissingDeprecatedInVersion
    | NoReplacedBy
    | NoMigrationGuide
    | NoRemovalTimeline
    | NoDescriptionWarning
    | InvalidDeprecationDate
    | InvalidPlannedRemovalDate
    | RemovalDateInPast

  /** The order in which the lint reports its findings. */
  function Rank(p: Problem): nat {
    match p
    case MissingReason => 0
    case MissingDeprecatedInVersion => 1
    case NoReplacedBy => 2
    case NoMigrationGuide => 3
    case NoRemovalTimeline => 4
    case NoDescriptionWarning => 5
    case InvalidDeprecationDate => 6
    case InvalidPlannedRemovalDate => 7
    case RemovalDateInPast => 8
  }

  /** The independent rule for each warning; false for the errors. */
  predicate WarningApplies(d: Deprecation, p: Problem) {
    match p
    case MissingDeprecatedInVersion => !Truthy(d.deprecatedInVersion)
    case NoReplacedBy => !Truthy(d.replacedBy)
    case NoMigrationGuide => !Truthy(d.migrationGuide)
    case NoRemovalTimeline => !Truthy(d.plannedRemovalDate) && !Truthy(d.removalPlannedInVersion)
    case NoDescriptionWarning => !d.hasWarningInDescription
    case MissingReason => false
    case InvalidDeprecationDate => false
    case InvalidPlannedRemovalDate => false
    case RemovalDateInPast => false
  }

  /** The independent rule for each error; false for the warnings. */
  predicate ErrorApplies(d: Deprecation, now: int, parseDate: string -> Option<int>, p: Problem) {
    match p
    case MissingReason => !Truthy(d.reason)
    case InvalidDeprecationDate => Truthy(d.deprecationDate) && parseDate(d.deprecationDate.value).None?
    case InvalidPlannedRemovalDate => Truthy(d.plannedRemovalDate) && parseDate(d.plannedRemovalDate.value).None?
    case RemovalDateInPast =>
      Truthy(d.plannedRemovalDate) && parseDate(d.plannedRemovalDate.value).Some?
      && parseDate(d.plannedRemovalDate.value).value < now
    case MissingDeprecatedInVersion => false
    case NoReplacedBy => false
    case NoMigrationGuide => false
    case NoRemovalTimeline => false
    case NoDescriptionWarning => false
  }

  datatype Report = Report(warnings: seq<Problem>, errors: seq<Problem>)

  /** Findings in strictly increasing report order, hence none twice. */
  predicate Ordered(list: seq<Problem>) {
    forall i, j :: 0 <= i < j < |list| ==> Rank(list[i]) < Rank(list[j])
  }

  /** The findings listed in report order: each appears once, exactly when
      its rule applies, and no other finding appears. */
  predicate ListsExactly(list: seq<Problem>, d: Deprecation, now: int, parseDate: string -> Option<int>, errors: bool) {
    && (forall p :: p in list <==>
          if errors then ErrorApplies(d, now, parseDate, p) else WarningApplies(d, p))
    && Ordered(list)
  }

  /** `list.push(p)` when `c` holds. */
  function Push(list: seq<Problem>, c: bool, p: Problem): (r: seq<Problem>)
    ensures forall q :: q in r <==> q in list || (c && q == p)
    ensures Ordered(list) && (forall q :: q in list ==> Rank(q) < Rank(p)) ==> Ordered(r)
  {
    if c then list + [p] else list
  }

  /** The first three warnings: the missing deprecation version and the two
      missing recommended fields. */
  function FieldWarnings(d: Deprecation): (w: seq<Problem>)
    ensures forall p :: p in w <==> WarningApplies(d, p) && Rank(p) <= 3
    ensures Ordered(w) && forall q :: q in w ==> Rank(q) <= 3
  {
    var w1 := Push([], !Truthy(d.deprecatedInVersion), MissingDeprecatedInVersion);
    var w2 := Push(w1, !Truthy(d.replacedBy), NoReplacedBy);
    Push(w2, !Truthy(d.migrationGuide), NoMigrationGuide)
  }

  /** The warnings of `validateDeprecationMetadata`, in the order pushed. */
  function Warnings(d: Deprecation): (w: seq<Problem>)
    ensures forall p :: p in w <==> WarningApplies(d, p)
    ensures Ordered(w)
  {
    var w3 := FieldWarnings(d);
    var w4 := Push(w3, !Truthy(d.plannedRemovalDate) && !Truthy(d.removalPlannedInVersion), NoRemovalTimeline);
    assert Ordered(w4) && forall q :: q in w4 ==> Rank(q) <= 4;
    Push(w4, !d.hasWarningInDescription, NoDescriptionWarning)
  }

  /** The errors of `validateDeprecationMetadata`, in the order pushed. The
      removal-date checks are written as the two exclusive pushes they amount
      to: a removal date that parses is never also reported as invalid. */
  function Errors(d: Deprecation, now: int, parseDate: string -> Option<int>): (e: seq<Problem>)
    ensures forall p :: p in e <==> ErrorApplies(d, now, parseDate, p)
    ensures Ordered(e)
  {
    var removal := if Truthy(d.plannedRemovalDate) then parseDate(d.plannedRemovalDate.value) else None;
    var e0 := Push([], !Truthy(d.reason), MissingReason);
    var e1 := Push(e0, Truthy(d.deprecationDate) && parseDate(d.deprecationDate.value).None?, InvalidDeprecationDate);
    var e2 := Push(e1, Truthy(d.plannedRemovalDate) && removal.None?, InvalidPlannedRemovalDate);
    Push(e2, removal.Some? && removal.value < now, RemovalDateInPast)
  }

  /** `validateDeprecationMetadata`. */
  function ValidateDeprecationMetadata(d: Deprecation, now: int, parseDate: string -> Option<int>): (r: Report)
    ensures ListsExactly(r.warnings, d, now, parseDate, false)
    ensures ListsExactly(r.errors, d, now, parseDate, true)
  {
    Report(Warnings(d), Errors(d, now, parseDate))
  }

  /** A complete deprecation draws no finding at all: a reason, the version it
      was deprecated in, a replacement, a migration guide, a removal version,
      a marked description and no dates. */
  lemma CompleteDeprecationIsClean(d: Deprecation, now: int, parseDate: string -> Option<int>)
    requires Truthy(d.reason) && Truthy(d.deprecatedInVersion) && Truthy(d.replacedBy) && Truthy(d.migrationGuide)
    requires Truthy(d.removalPlannedInVersion) && d.hasWarningInDescription
    requires !Truthy(d.deprecationDate) && !Truthy(d.plannedRemovalDate)
    ensures ValidateDeprecationMetadata(d, now, parseDate) == Report([], [])
  {
  }

  /** In an ordered list a finding occurs at most once. */
  lemma {:induction false} OrderedCount(list: seq<Problem>, p: Problem)
    requires Ordered(list)
    ensures multiset(list)[p] == if p in list then 1 else 0
  {
    if |list| > 0 {
      assert list == [list[0]] + list[1..];
      assert Ordered(list[1..]) by {
        forall i, j | 0 <= i < j < |list[1..]|
          ensures Rank(list[1..][i]) < Rank(list[1..][j])
        {
          assert list[1..][i] == list[i + 1] && list[1..][j] == list[j + 1];
        }
      }
      OrderedCount(list[1..], p);
      assert list[0] !in list[1..] by {
        forall k | 0 <= k < |list[1..]|
          ensures list[1..][k] != list[0]
        {
          assert list[1..][k] == list[k + 1];
        }
      }
      assert multiset(list) == multiset([list[0]]) + multiset(list[1..]);
    }
  }

  /** With neither a removal date nor a removal version the timeline warning
      is raised exactly once, and never otherwise. */
  lemma TimelineWarningOnce(d: Deprecation, now: int, parseDate: string -> Option<int>)
    ensures var w := ValidateDeprecationMetadata(d, now, parseDate).warnings;
      multiset(w)[NoRemovalTimeline] == if !Truthy(d.plannedRemovalDate) && !Truthy(d.removalPlannedInVersion) then 1 else 0
  {
    var w := ValidateDeprecationMetadata(d, now, parseDate).warnings;
    OrderedCount(w, NoRemovalTimeline);
  }

  /** The description warning follows the description the record was built
      from: it is raised exactly when the description lacks DEPRECATED. */
  lemma DescriptionWarningFollowsDescription(schema: string, info: DeprecationInfo, description: Option<string>,
                                             now: int, parseDate: string -> Option<int>)
    ensures NoDescriptionWarning in ValidateDeprecationMetadata(AnalyzeDeprecation(schema, info, description), now, parseDate).warnings
      <==> !(description.Some? && Contains(description.value, DeprecatedMarker))
  {
  }

  // ---------------------------------------------------------------------
  // Urgency

  /** Thirty days in milliseconds. */
  const ThirtyDaysMs: int := 30 * 24 * 60 * 60 * 1000

  /** `isUrgentDeprecation`. A removal date that does not parse makes the
      difference NaN, and a comparison with NaN is false. */
  function IsUrgentDeprecation(d: Deprecation, now: int, parseDate: string -> Option<int>): (urgent: bool)
    ensures d.urgency == "high" ==> urgent
    ensures d.urgency != "high" && !Truthy(d.plannedRemovalDate) ==> !urgent
    ensures d.urgency != "high" && Truthy(d.plannedRemovalDate) ==>
      (urgent <==> parseDate(d.plannedRemovalDate.value).Some? && parseDate(d.plannedRemovalDate.value).value - now < 2592000000)
  {
    if d.urgency == "high" then true
    else if Truthy(d.plannedRemovalDate) then
      match parseDate(d.plannedRemovalDate.value)
      case None => false
      case Some(removal) => removal - now < ThirtyDaysMs
    else false
  }

  /** Urgency only grows with time: what is urgent now stays urgent later. */
  lemma UrgencyGrowsWithTime(d: Deprecation, now: int, later: int, parseDate: string -> Option<int>)
    requires now <= later
    requires IsUrgentDeprecation(d, now, parseDate)
    ensures IsUrgentDeprecation(d, later, parseDate)
  {
  }

  /** A removal date the lint reports as past is always urgent. */
  lemma PastRemovalIsUrgent(d: Deprecation, now: int, parseDate: string -> Option<int>)
    requires RemovalDateInPast in ValidateDeprecationMetadata(d, now, parseDate).errors
    ensures IsUrgentDeprecation(d, now, parseDate)
  {
  }

  /** An analyzed deprecation without an urgency is "medium", so only its
      removal date can make it urgent. */
  lemma DefaultUrgencyNeedsDate(schema: string, info: DeprecationInfo, description: Option<string>,
                                now: int, parseDate: string -> Option<int>)
    requires !Truthy(info.urgency) && !Truthy(info.plannedRemovalDate)
    ensures !IsUrgentDeprecation(AnalyzeDeprecation(schema, info, description), now, parseDate)
  {
  }
}

=== FILE: discovery_types.dfy ===
/** The records of the discovery package: event and series metadata, their
    shared sub-records and the two discovery payload wrappers. A Go pointer
    field is an `Option`; a Go slice or map left nil is the empty sequence or
    map. */
module DiscoveryTypes {
  import opened Wrappers
  import opened Enums
  import Json

  /** A Go `time.Time`, as the signed count of nanoseconds since Go's zero
      instant (January 1, year 1, UTC); `IsZero` is Go's `Time.IsZero`. */
  datatype Time = Time(nanosSinceZero: int) {
    predicate IsZero() {
      nanosSinceZero == 0
    }
  }

  /** The value `time.Time{}`, which `time.Parse` also returns on failure. */
  const ZeroTime: Time := Time(0)

  /** Batch/run bookkeeping of one discovery message. */
  datatype DiscoveryMeta = DiscoveryMeta(
    batchId: string,
    batchSequence: int,
    batchTotalCount: int,
    discoveryRunId: string)

  datatype Relationships = Relationships(
    seriesId: Option<string>,
    eventIds: seq<string>,
    instrumentIds: seq<string>)

  datatype FinancialData = FinancialData(
    volume24hUsd: Option<real>,
    volumeTotalUsd: Option<real>,
    liquidityTotalUsd: Option<real>,
    volume24hContracts: Option<int>,
    volumeTotalContracts: Option<int>,
    score: Option<real>,
    currency: Option<string>)

  datatype StatusData = StatusData(
    archived: Option<bool>,
    isNew: Option<bool>,
    featured: Option<bool>,
    restricted: Option<bool>,
    isTemplate: Option<bool>,
    competitive: Option<string>,
    commentsEnabled: Option<bool>)

  datatype SettlementSource = SettlementSource(name: string, url: Option<string>)

  datatype ContractData = ContractData(
    contractUrl: Option<string>,
    contractTermsUrl: Option<string>,
    feeType: Option<string>,
    feeMultiplier: Option<real>,
    additionalProhibitions: seq<string>,
    settlementSources: seq<SettlementSource>)

  datatype TimestampData = TimestampData(
    publishedAt: Option<Time>,
    createdAt: Option<Time>,
    updatedAt: Option<Time>)

  datatype CreatorData = CreatorData(createdBy: Option<string>, updatedBy: Option<string>)

  datatype SeriesData = SeriesData(
    ticker: Option<string>,
    slug: Option<string>,
    subtitle: Option<string>,
    seriesType: Option<string>,
    recurrence: Option<string>,
    imageUrl: Option<string>,
    iconUrl: Option<string>,
    layout: Option<string>,
    financial: Option<FinancialData>,
    status: Option<StatusData>,
    contract: Option<ContractData>,
    timestamps: Option<TimestampData>,
    creators: Option<CreatorData>)

  /** One prediction-market event at one venue. `active` and `closed` are
      tri-state: absent, present false, present true. */
  datatype EventMetadata = EventMetadata(
    kind: DiscoveryKind,
    venueId: VenueId,
    eventId: string,
    title: string,
    description: Option<string>,
    category: Option<string>,
    active: Option<bool>,
    closed: Option<bool>,
    startDate: Option<Time>,
    endDate: Option<Time>,
    parentSeriesId: Option<string>,
    parentSeriesTitle: Option<string>,
    tags: seq<string>,
    relationships: Option<Relationships>,
    discoveredAt: Time,
    lastSeen: Time,
    extraMetadata: map<string, Json.Value>)

  /** A series (collection of related events) at one venue. */
  datatype SeriesMetadata = SeriesMetadata(
    kind: DiscoveryKind,
    venueId: VenueId,
    eventId: string,
    title: string,
    description: Option<string>,
    category: Option<string>,
    active: Option<bool>,
    closed: Option<bool>,
    tags: seq<string>,
    childEventIds: seq<string>,
    relationships: Option<Relationships>,
    discoveredAt: Time,
    lastSeen: Time,
    seriesData: Option<SeriesData>,
    extraMetadata: map<string, Json.Value>)

  /** The message emitted for an event; `eventId` is the message id, distinct
      from `event.eventId`. */
  datatype EventDiscoveryPayload = EventDiscoveryPayload(
    event: EventMetadata,
    eventId: string,
    eventType: EventType,
    timestamp: Time,
    venueId: VenueId,
    discoveryMeta: Option<DiscoveryMeta>)

  /** The message emitted for a series; same outer fields as the event one. */
  datatype SeriesDiscoveryPayload = SeriesDiscoveryPayload(
    event: SeriesMetadata,
    eventId: string,
    eventType: EventType,
    timestamp: Time,
    venueId: VenueId,
    discoveryMeta: Option<DiscoveryMeta>)
}

=== FILE: enums.dfy ===
/** The string-typed enumerations of the discovery package. Each is an open
    string type in Go, so values outside the declared set (such as
    "invalid") are representable; only validation rejects them. */
module Enums {

  type DiscoveryKind = string
  type EventType = string
  type VenueId = string
  type Currency = string

  const DiscoveryKindEvent: DiscoveryKind := "event"
  const DiscoveryKindSeries: DiscoveryKind := "series"

  const EventTypeDiscovered: EventType := "discovered"
  const EventTypeUpdated: EventType := "updated"
  const EventTypeExpired: EventType := "expired"

  const VenueIdPolymarket: VenueId := "polymarket"
  const VenueIdKalshi: VenueId := "kalshi"

  const CurrencyUsd: Currency := "USD"

  /** The declared constants of each enumeration, in declaration order. */
  const DiscoveryKinds: seq<DiscoveryKind> := [DiscoveryKindEvent, DiscoveryKindSeries]
  const EventTypes: seq<EventType> := [EventTypeDiscovered, EventTypeUpdated, EventTypeExpired]
  const VenueIds: seq<VenueId> := [VenueIdPolymarket, VenueIdKalshi]
  const Currencies: seq<Currency> := [CurrencyUsd]

  /** The `switch` of `isValidEventType`. */
  predicate IsValidEventType(eventType: EventType) {
    eventType == EventTypeDiscovered || eventType == EventTypeUpdated || eventType == EventTypeExpired
  }

  /** The `switch` of `isValidVenueID`. */
  predicate IsValidVenueId(venueId: VenueId) {
    venueId == VenueIdPolymarket || venueId == VenueIdKalshi
  }

  /** The enumerations hold exactly the documented literals, pairwise
      distinct. */
  lemma DeclaredValues()
    ensures DiscoveryKinds == ["event", "series"] && DiscoveryKinds[0] != DiscoveryKinds[1]
    ensures EventTypes == ["discovered", "updated", "expired"]
    ensures EventTypes[0] != EventTypes[1] && EventTypes[1] != EventTypes[2] && EventTypes[0] != EventTypes[2]
    ensures VenueIds == ["polymarket", "kalshi"] && VenueIds[0] != VenueIds[1]
    ensures Currencies == ["USD"]
  {
  }

  /** `isValidEventType` accepts exactly the declared event types. */
  lemma EventTypeValidIffDeclared(eventType: EventType)
    ensures IsValidEventType(eventType) <==> eventType in EventTypes
    ensures !IsValidEventType("invalid")
  {
  }

  /** `isValidVenueID` accepts exactly the declared venues. */
  lemma VenueIdValidIffDeclared(venueId: VenueId)
    ensures IsValidVenueId(venueId) <==> venueId in VenueIds
    ensures !IsValidVenueId("invalid")
  {
  }
}

=== FILE: json.dfy ===
/** Dynamically typed JSON values: Go's `any` / `interface{}` as filled by
    `encoding/json`, and JavaScript values produced by `JSON.parse`. */
module Json {

  datatype Value =
    | Null
    | Bool(b: bool)
    | Num(n: real)
    | Str(s: string)
    | Arr(items: seq<Value>)
    | Obj(fields: map<string, Value>)
}

=== FILE: mapping.dfy ===
/** The two venue mappers that turn a venue's series listing into canonical
    series metadata. The wall clock (`time.Now()`) and the RFC 3339 parser
    (`time.Parse(time.RFC3339, ...)`) are parameters; a parse that fails
    yields `None`, for which the mapper stores Go's zero time, as `time.Parse`
    returns it with the discarded error. */
module Mapping {
  import opened Wrappers
  import opened Enums
  import opened DiscoveryTypes
  import opened Validation
  import Precision

  /** A series as listed by Polymarket's API. */
  datatype PolymarketSeriesApi = PolymarketSeriesApi(
    id: string,
    title: string,
    ticker: string,
    slug: string,
    subtitle: string,
    seriesType: string,
    recurrence: string,
    category: string,
    image: string,
    icon: string,
    volume24hr: real,
    volume: real,
    active: bool,
    closed: bool,
    createdAt: string,
    updatedAt: string)

  /** One settlement source as listed by Kalshi. */
  datatype KalshiSource = KalshiSource(name: string, url: string)

  /** A series as listed by Kalshi's API. */
  datatype KalshiSeriesApi = KalshiSeriesApi(
    ticker: string,
    title: string,
    category: string,
    frequency: string,
    tags: seq<string>,
    contractUrl: string,
    contractTermsUrl: string,
    feeType: string,
    additionalProhibitions: seq<string>,
    settlementSources: seq<KalshiSource>,
    active: bool,
    closed: bool,
    createdAt: string,
    updatedAt: string)

  /** `time.Parse` with its error discarded: the parsed instant, or the zero
      time when the text does not parse. */
  function ParsedOrZero(parseRfc3339: string -> Option<Time>, text: string): (t: Time)
    ensures parseRfc3339(text).Some? ==> t == parseRfc3339(text).value
    ensures parseRfc3339(text).None? ==> t == ZeroTime
  {
    parseRfc3339(text).GetOr(ZeroTime)
  }

  /** `mapPolymarketToCanonical`. */
  function MapPolymarketToCanonical(data: PolymarketSeriesApi, now: Time, parseRfc3339: string -> Option<Time>): (m: SeriesMetadata)
    ensures m.kind == DiscoveryKindSeries && m.venueId == VenueIdPolymarket
    ensures m.eventId == data.id && m.title == data.title && m.category == Some(data.category)
    ensures m.description.None?
    ensures m.active == Some(data.active) && m.closed == Some(data.closed)
    ensures m.discoveredAt == now && m.lastSeen == now
    ensures m.tags == [] && m.childEventIds == [] && m.relationships.None? && m.extraMetadata == map[]
    ensures m.seriesData.Some?
    ensures var d := m.seriesData.value;
      && d.ticker == Some(data.ticker) && d.slug == Some(data.slug) && d.subtitle == Some(data.subtitle)
      && d.seriesType == Some(data.seriesType) && d.recurrence == Some(data.recurrence)
      && d.imageUrl == Some(data.image) && d.iconUrl == Some(data.icon)
      && d.contract.None?
      && d.financial == Some(FinancialData(Some(data.volume24hr), Some(data.volume), None, None, None, None, Some(CurrencyUsd)))
      && d.layout.None? && d.status.None? && d.creators.None?
      && d.timestamps == Some(TimestampData(None, Some(ParsedOrZero(parseRfc3339, data.createdAt)),
                                            Some(ParsedOrZero(parseRfc3339, data.updatedAt))))
  {
    var createdAt := ParsedOrZero(parseRfc3339, data.createdAt);
    var updatedAt := ParsedOrZero(parseRfc3339, data.updatedAt);
    SeriesMetadata(
      kind := DiscoveryKindSeries,
      venueId := VenueIdPolymarket,
      eventId := data.id,
      title := data.title,
      description := None,
      category := Some(data.category),
      active := Some(data.active),
      closed := Some(data.closed),
      tags := [],
      childEventIds := [],
      relationships := None,
      discoveredAt := now,
      lastSeen := now,
      seriesData := Some(SeriesData(
        ticker := Some(data.ticker),
        slug := Some(data.slug),
        subtitle := Some(data.subtitle),
        seriesType := Some(data.seriesType),
        recurrence := Some(data.recurrence),
        imageUrl := Some(data.image),
        iconUrl := Some(data.icon),
        layout := None,
        financial := Some(FinancialData(
          volume24hUsd := Some(data.volume24hr),
          volumeTotalUsd := Some(data.volume),
          liquidityTotalUsd := None,
          volume24hContracts := None,
          volumeTotalContracts := None,
          score := None,
          currency := Some(CurrencyUsd))),
        status := None,
        contract := None,
        timestamps := Some(TimestampData(None, Some(createdAt), Some(updatedAt))),
        creators := None)),
      extraMetadata := map[])
  }

  /** The settlement-source loop of `mapKalshiToCanonical`: one canonical
      source per listed source, in order, with the URL always present. */
  function MapSettlementSources(sources: seq<KalshiSource>): (r: seq<SettlementSource>)
    ensures |r| == |sources|
    ensures forall i :: 0 <= i < |r| ==> r[i].name == sources[i].name && r[i].url == Some(sources[i].url)
  {
    if |sources| == 0 then []
    else [SettlementSource(sources[0].name, Some(sources[0].url))] + MapSettlementSources(sources[1..])
  }

  /** `mapKalshiToCanonical`. */
  function MapKalshiToCanonical(data: KalshiSeriesApi, now: Time, parseRfc3339: string -> Option<Time>): (m: SeriesMetadata)
    ensures m.kind == DiscoveryKindSeries && m.venueId == VenueIdKalshi
    ensures m.eventId == data.ticker && m.title == data.title && m.category == Some(data.category)
    ensures m.active == Some(data.active) && m.closed == Some(data.closed)
    ensures m.description.None?
    ensures m.tags == data.tags
    ensures m.childEventIds == [] && m.relationships.None? && m.extraMetadata == map[]
    ensures m.discoveredAt == now && m.lastSeen == now
    ensures m.seriesData.Some?
    ensures var d := m.seriesData.value;
      && d.ticker == Some(data.ticker) && d.recurrence == Some(data.frequency)
      && d.slug.None? && d.subtitle.None? && d.seriesType.None?
      && d.imageUrl.None? && d.iconUrl.None? && d.layout.None?
      && d.status.None? && d.creators.None?
      && d.financial.None?
      && d.contract.Some?
      && d.contract.value.contractUrl == Some(data.contractUrl)
      && d.contract.value.contractTermsUrl == Some(data.contractTermsUrl)
      && d.contract.value.feeType == Some(data.feeType)
      && d.contract.value.additionalProhibitions == data.additionalProhibitions
      && d.contract.value.feeMultiplier.None?
      && d.contract.value.settlementSources == MapSettlementSources(data.settlementSources)
      && d.timestamps == Some(TimestampData(None, Some(ParsedOrZero(parseRfc3339, data.createdAt)),
                                            Some(ParsedOrZero(parseRfc3339, data.updatedAt))))
  {
    var createdAt := ParsedOrZero(parseRfc3339, data.createdAt);
    var updatedAt := ParsedOrZero(parseRfc3339, data.updatedAt);
    SeriesMetadata(
      kind := DiscoveryKindSeries,
      venueId := VenueIdKalshi,
      eventId := data.ticker,
      title := data.title,
      description := None,
      category := Some(data.category),
      active := Some(data.active),
      closed := Some(data.closed),
      tags := data.tags,
      childEventIds := [],
      relationships := None,
      discoveredAt := now,
      lastSeen := now,
      seriesData := Some(SeriesData(
        ticker := Some(data.ticker),
        slug := None,
        subtitle := None,
        seriesType := None,
        recurrence := Some(data.frequency),
        imageUrl := None,
        iconUrl := None,
        layout := None,
        financial := None,
        status := None,
        contract := Some(ContractData(
          contractUrl := Some(data.contractUrl),
          contractTermsUrl := Some(data.contractTermsUrl),
          feeType := Some(data.feeType),
          feeMultiplier := None,
          additionalProhibitions := data.additionalProhibitions,
          settlementSources := MapSettlementSources(data.settlementSources))),
        timestamps := Some(TimestampData(None, Some(createdAt), Some(updatedAt))),
        creators := None)),
      extraMetadata := map[])
  }

  // ---------------------------------------------------------------------
  // What the mapped records satisfy

  /** A mapped Polymarket series passes the series validator exactly when the
      listing has an id and a title, the clock reading is not the zero time,
      and both volumes are non-negative whole numbers of cents. */
  lemma PolymarketMappingValidIff(data: PolymarketSeriesApi, now: Time, parseRfc3339: string -> Option<Time>)
    ensures ValidateSeriesMetadata(MapPolymarketToCanonical(data, now, parseRfc3339)).Pass? <==>
      && data.id != "" && data.title != "" && !now.IsZero()
      && data.volume24hr >= 0.0 && Precision.IsValidCentsPrecision(data.volume24hr)
      && data.volume >= 0.0 && Precision.IsValidCentsPrecision(data.volume)
  {
  }

  /** A mapped Kalshi series passes the series validator exactly when the
      listing has a ticker and a title, the clock reading is not the zero
      time, and every settlement source has a name. */
  lemma KalshiMappingValidIff(data: KalshiSeriesApi, now: Time, parseRfc3339: string -> Option<Time>)
    ensures ValidateSeriesMetadata(MapKalshiToCanonical(data, now, parseRfc3339)).Pass? <==>
      && data.ticker != "" && data.title != "" && !now.IsZero()
      && forall i :: 0 <= i < |data.settlementSources| ==> data.settlementSources[i].name != ""
  {
    var m := MapKalshiToCanonical(data, now, parseRfc3339);
    var sources := m.seriesData.value.contract.value.settlementSources;
    assert forall i :: 0 <= i < |sources| ==> sources[i].name == data.settlementSources[i].name;
  }

  /** A mapped Kalshi series with a nameless source is rejected on the first
      such source, under its index. */
  lemma {:induction false} KalshiNamelessSourceReported(data: KalshiSeriesApi, now: Time, parseRfc3339: string -> Option<Time>, i: nat)
    requires data.ticker != "" && data.title != "" && !now.IsZero()
    requires i < |data.settlementSources| && data.settlementSources[i].name == ""
    requires forall j :: 0 <= j < i ==> data.settlementSources[j].name != ""
    ensures ValidateSeriesMetadata(MapKalshiToCanonical(data, now, parseRfc3339)) ==
      Fail(Wrapped(SeriesDataFailed, Wrapped(ContractDataFailed,
        Wrapped(SettlementSourceFailed(i), Invalid(ValidationError("name", MsgEmpty))))))
  {
    var m := MapKalshiToCanonical(data, now, parseRfc3339);
    var c := m.seriesData.value.contract.value;
    ContractReportsFirstNamelessSource(c, i);
  }

  /** Only the two clock fields depend on the clock reading. */
  lemma MappingClockOnlyStampsTimes(p: PolymarketSeriesApi, k: KalshiSeriesApi, now1: Time, now2: Time,
                                    parseRfc3339: string -> Option<Time>)
    ensures MapPolymarketToCanonical(p, now2, parseRfc3339) ==
      MapPolymarketToCanonical(p, now1, parseRfc3339).(discoveredAt := now2, lastSeen := now2)
    ensures MapKalshiToCanonical(k, now2, parseRfc3339) ==
      MapKalshiToCanonical(k, now1, parseRfc3339).(discoveredAt := now2, lastSeen := now2)
  {
  }

  /** An unparseable creation or update stamp is not dropped: it is stored as
      a present zero time, which no rule of the validator inspects. */
  lemma UnparseableStampStoredAsZero(p: PolymarketSeriesApi, k: KalshiSeriesApi, now: Time,
                                     parseRfc3339: string -> Option<Time>)
    ensures var t := MapPolymarketToCanonical(p, now, parseRfc3339).seriesData.value.timestamps.value;
      && (parseRfc3339(p.createdAt).None? ==> t.createdAt == Some(ZeroTime))
      && (parseRfc3339(p.updatedAt).None? ==> t.updatedAt == Some(ZeroTime))
    ensures var t := MapKalshiToCanonical(k, now, parseRfc3339).seriesData.value.timestamps.value;
      && (parseRfc3339(k.createdAt).None? ==> t.createdAt == Some(ZeroTime))
      && (parseRfc3339(k.updatedAt).None? ==> t.updatedAt == Some(ZeroTime))
    ensures ValidateSeriesMetadata(MapPolymarketToCanonical(p, now, parseRfc3339)) ==
      ValidateSeriesMetadata(MapPolymarketToCanonical(p, now, _ => None))
    ensures ValidateSeriesMetadata(MapKalshiToCanonical(k, now, parseRfc3339)) ==
      ValidateSeriesMetadata(MapKalshiToCanonical(k, now, _ => None))
  {
    var none: string -> Option<Time> := _ => None;
    var mp := MapPolymarketToCanonical(p, now, none);
    assert MapPolymarketToCanonical(p, now, parseRfc3339) ==
      mp.(seriesData := Some(mp.seriesData.value.(timestamps :=
        MapPolymarketToCanonical(p, now, parseRfc3339).seriesData.value.timestamps)));
    TimestampsNotValidated(mp, MapPolymarketToCanonical(p, now, parseRfc3339).seriesData.value.timestamps);
    var mk := MapKalshiToCanonical(k, now, none);
    assert MapKalshiToCanonical(k, now, parseRfc3339) ==
      mk.(seriesData := Some(mk.seriesData.value.(timestamps :=
        MapKalshiToCanonical(k, now, parseRfc3339).seriesData.value.timestamps)));
    TimestampsNotValidated(mk, MapKalshiToCanonical(k, now, parseRfc3339).seriesData.value.timestamps);
  }

  /** The series validator never reads the timestamp record. */
  lemma TimestampsNotValidated(m: SeriesMetadata, ts: Option<TimestampData>)
    requires m.seriesData.Some?
    ensures ValidateSeriesMetadata(m.(seriesData := Some(m.seriesData.value.(timestamps := ts)))) ==
      ValidateSeriesMetadata(m)
  {
  }

  /** The Polymarket listing of the mapping test. */
  function ConcacafListing(): PolymarketSeriesApi {
    PolymarketSeriesApi("10244", "Concacaf", "CONCACAF", "concacaf", "Soccer Championship", "single",
      "annual", "Sports", "https://polymarket.com/image.jpg", "https://polymarket.com/icon.png",
      125000.50, 2500000.75, true, false, "2025-09-03T03:07:56.295896Z", "2025-11-03T21:01:11.954948Z")
  }

  /** The mapped test listing keeps its id, title and volumes, and passes
      validation at any non-zero clock reading. */
  lemma ConcacafMapsToValidSeries(now: Time, parseRfc3339: string -> Option<Time>)
    requires !now.IsZero()
    ensures var m := MapPolymarketToCanonical(ConcacafListing(), now, parseRfc3339);
      && m.eventId == "10244" && m.title == "Concacaf"
      && m.seriesData.value.financial.value.volume24hUsd == Some(125000.50)
      && ValidateSeriesMetadata(m) == Pass
  {
    Precision.WholeCentsAreValid(12500050);
    Precision.WholeCentsAreValid(250000075);
    PolymarketMappingValidIff(ConcacafListing(), now, parseRfc3339);
  }
}

=== FILE: precision.dfy ===
/** The cents-precision test of the financial validator, on exact reals:
    `value` passes when it lies within 1e-10 of the value obtained by
    rounding `value * 100` half away from zero and dividing by 100. */
module Precision {

  /** The tolerance of the comparison, 1e-10. */
  const Epsilon: real := 0.0000000001

  function Abs(x: real): real {
    if x < 0.0 then -x else x
  }

  /** Go's `math.Round`: nearest integer, ties away from zero. */
  function Round(x: real): (n: int)
    ensures Abs(x - n as real) <= 0.5
    ensures Abs(x - n as real) == 0.5 ==> Abs(n as real) > Abs(x)
  {
    if x >= 0.0 then (x + 0.5).Floor else -((-x + 0.5).Floor)
  }

  /** `isValidCentsPrecision`. */
  predicate IsValidCentsPrecision(value: real) {
    var rounded := Round(value * 100.0) as real / 100.0;
    Abs(value - rounded) < Epsilon
  }

  /** `value` lies within the tolerance of the amount of `cents` cents. */
  predicate NearCents(value: real, cents: int) {
    Abs(value - cents as real / 100.0) < Epsilon
  }

  /** An integer strictly closer than one half to `x` is what `Round`
      returns. */
  lemma RoundOfNearInteger(x: real, m: int)
    requires Abs(x - m as real) < 0.5
    ensures Round(x) == m
  {
  }

  /** The check accepts exactly the values within 1e-10 of a whole number
      of cents. */
  lemma CentsPrecisionIffNearCents(value: real)
    ensures IsValidCentsPrecision(value) <==> exists cents: int :: NearCents(value, cents)
  {
    if IsValidCentsPrecision(value) {
      assert NearCents(value, Round(value * 100.0));
    } else {
      forall cents: int
        ensures !NearCents(value, cents)
      {
        if NearCents(value, cents) {
          assert Abs(value * 100.0 - cents as real) < 100.0 * Epsilon;
          RoundOfNearInteger(value * 100.0, cents);
        }
      }
    }
  }

  /** Every whole number of cents passes. */
  lemma WholeCentsAreValid(cents: int)
    ensures IsValidCentsPrecision(cents as real / 100.0)
  {
    CentsPrecisionIffNearCents(cents as real / 100.0);
    assert NearCents(cents as real / 100.0, cents);
  }

  /** The accepted and rejected values of the package's unit test. */
  lemma UnitTestValues()
    ensures IsValidCentsPrecision(0.0) && IsValidCentsPrecision(0.01) && IsValidCentsPrecision(99.99)
    ensures IsValidCentsPrecision(100.0) && IsValidCentsPrecision(123.45) && IsValidCentsPrecision(99999.99)
    ensures !IsValidCentsPrecision(123.456) && !IsValidCentsPrecision(0.005)
    ensures !IsValidCentsPrecision(100.001) && !IsValidCentsPrecision(1.23456789)
  {
    WholeCentsAreValid(0);
    WholeCentsAreValid(1);
    WholeCentsAreValid(9999);
    WholeCentsAreValid(10000);
    WholeCentsAreValid(12345);
    WholeCentsAreValid(9999999);
    RoundOfNearInteger(12345.6, 12346);
    RoundOfNearInteger(10000.1, 10000);
    RoundOfNearInteger(123.456789, 123);
  }
}

=== FILE: registry.dfy ===
/** The registry of schema identifiers and venues with its two validators.
    Each validator is a `switch` over the declared constants that returns
    nil or an error whose text names the rejected value. */
module Registry {
  import opened Wrappers
  import Enums

  type EventSchema = string

  const SchemaInfraVenueHealthV1: EventSchema := "infra.venue_health.v1"
  const SchemaInsightsArbLiteV1: EventSchema := "insights.arb.lite.v1"
  const SchemaInsightsMoversV1: EventSchema := "insights.movers.v1"
  const SchemaInsightsUnusualV1: EventSchema := "insights.unusual.v1"
  const SchemaInsightsWhalesLiteV1: EventSchema := "insights.whales.lite.v1"
  const SchemaMdOrderbookDeltaV1: EventSchema := "md.orderbook.delta.v1"
  const SchemaMdTradeV1: EventSchema := "md.trade.v1"
  const SchemaRawV0: EventSchema := "raw.v0"

  const VenuePolymarket: string := "polymarket"
  const VenueKalshi: string := "kalshi"

  const TradeSideBuy: string := "buy"
  const TradeSideSell: string := "sell"

  const HealthConnected: string := "CONNECTED"
  const HealthDegraded: string := "DEGRADED"
  const HealthStale: string := "STALE"

  /** `AllSchemas()`: every schema identifier, in declaration order. */
  function AllSchemas(): (all: seq<EventSchema>)
    ensures |all| == 8
    ensures forall i, j :: 0 <= i < j < |all| ==> all[i] != all[j]
  {
    [ SchemaInfraVenueHealthV1, SchemaInsightsArbLiteV1, SchemaInsightsMoversV1,
      SchemaInsightsUnusualV1, SchemaInsightsWhalesLiteV1, SchemaMdOrderbookDeltaV1,
      SchemaMdTradeV1, SchemaRawV0 ]
  }

  /** `AllVenues()`: every venue identifier, in declaration order. */
  function AllVenues(): (all: seq<string>)
    ensures |all| == 2 && all[0] != all[1]
    ensures all == Enums.VenueIds
  {
    [VenuePolymarket, VenueKalshi]
  }

  /** `ValidateSchema`: nil for a declared schema identifier, otherwise an
      error naming the rejected value. */
  function ValidateSchema(schema: string): (r: Outcome<string>)
    ensures r.Pass? <==> schema in AllSchemas()
    ensures r.Fail? ==> r.error == "invalid schema: " + schema
  {
    if schema == SchemaInfraVenueHealthV1 || schema == SchemaInsightsArbLiteV1
      || schema == SchemaInsightsMoversV1 || schema == SchemaInsightsUnusualV1
      || schema == SchemaInsightsWhalesLiteV1 || schema == SchemaMdOrderbookDeltaV1
      || schema == SchemaMdTradeV1 || schema == SchemaRawV0
    then Pass
    else Fail("invalid schema: " + schema)
  }

  /** `ValidateVenue`: nil for a declared venue, otherwise an error naming the
      rejected value. */
  function ValidateVenue(venue: string): (r: Outcome<string>)
    ensures r.Pass? <==> venue in AllVenues()
    ensures r.Fail? ==> r.error == "invalid venue: " + venue
  {
    if venue == VenuePolymarket || venue == VenueKalshi then Pass
    else Fail("invalid venue: " + venue)
  }

  /** The registry and the discovery validator agree on which venues exist. */
  lemma RegistryAgreesWithDiscoveryVenues(venue: string)
    ensures ValidateVenue(venue).Pass? <==> Enums.IsValidVenueId(venue)
  {
  }

  /** Every identifier `AllSchemas` lists passes `ValidateSchema`, and
      nothing outside it does; both are the same eight values. */
  lemma AllSchemasValidate()
    ensures forall i :: 0 <= i < |AllSchemas()| ==> ValidateSchema(AllSchemas()[i]).Pass?
    ensures ValidateSchema("raw.v0").Pass? && ValidateSchema("md.trade.v1").Pass?
    ensures ValidateSchema("raw.v1").Fail? && ValidateSchema("").Fail?
  {
  }
}

=== FILE: text.dfy ===
/** String primitives of the two host languages that the model needs:
    JavaScript `startsWith`, `includes`, `trim`, `split` and `parseInt`, and
    the decimal rendering of integers used by template strings. Strings are
    sequences of Unicode scalar values. */
module Text {
  import opened Wrappers

  /** `s.startsWith(prefix)` (JavaScript) / `strings.HasPrefix` (Go). */
  predicate StartsWith(s: string, prefix: string) {
    |prefix| <= |s| && s[..|prefix|] == prefix
  }

  /** `s.includes(sub)`: `sub` occurs at some position of `s`. */
  predicate Contains(s: string, sub: string)
    decreases |s|
  {
    StartsWith(s, sub) || (|s| > 0 && Contains(s[1..], sub))
  }

  /** The characters JavaScript's `trim` and `parseInt` skip: the WhiteSpace
      and LineTerminator productions of ECMAScript (tab, vertical tab, form
      feed, space, no-break space, byte-order mark, the Unicode space
      separators, line feed, carriage return, U+2028 and U+2029). */
  predicate IsJsWhiteSpace(c: char) {
    var k := c as int;
    || k == 0x09 || k == 0x0A || k == 0x0B || k == 0x0C || k == 0x0D
    || k == 0x20 || k == 0xA0 || k == 0x1680
    || (0x2000 <= k <= 0x200A)
    || k == 0x2028 || k == 0x2029 || k == 0x202F || k == 0x205F
    || k == 0x3000 || k == 0xFEFF
  }

  /** Leading JavaScript white space removed. */
  function TrimStart(s: string): (t: string)
    ensures |t| <= |s| && t == s[|s| - |t|..]
    ensures forall i :: 0 <= i < |s| - |t| ==> IsJsWhiteSpace(s[i])
    ensures |t| > 0 ==> !IsJsWhiteSpace(t[0])
    decreases |s|
  {
    if |s| > 0 && IsJsWhiteSpace(s[0]) then TrimStart(s[1..]) else s
  }

  /** `s.trim()` is the empty string, i.e. `s.trim()` is falsy. */
  predicate IsBlank(s: string) {
    TrimStart(s) == ""
  }

  /** A line is blank exactly when every character of it is white space. */
  lemma BlankIffAllWhiteSpace(s: string)
    ensures IsBlank(s) <==> forall i :: 0 <= i < |s| ==> IsJsWhiteSpace(s[i])
  {
    if !IsBlank(s) {
      var t := TrimStart(s);
      assert t[0] == s[|s| - |t|];
    }
  }

  predicate IsDigit(c: char) {
    '0' <= c <= '9'
  }

  function DigitValue(c: char): (d: nat)
    requires IsDigit(c)
    ensures d < 10
  {
    c as int - '0' as int
  }

  function DigitChar(d: nat): (c: char)
    requires d < 10
    ensures IsDigit(c) && DigitValue(c) == d
  {
    (d + '0' as int) as char
  }

  predicate AllDigits(s: string) {
    forall i :: 0 <= i < |s| ==> IsDigit(s[i])
  }

  /** The number a string of decimal digits denotes. */
  function DigitsValue(s: string): nat
    requires AllDigits(s)
  {
    if |s| == 0 then 0 else DigitsValue(s[..|s| - 1]) * 10 + DigitValue(s[|s| - 1])
  }

  /** Length of the longest prefix of `s` made of decimal digits. */
  function DigitPrefixLength(s: string): (n: nat)
    ensures n <= |s| && AllDigits(s[..n])
    ensures n < |s| ==> !IsDigit(s[n])
    decreases |s|
  {
    if |s| > 0 && IsDigit(s[0]) then
      var m := DigitPrefixLength(s[1..]);
      assert s[..m + 1] == [s[0]] + s[1..][..m];
      m + 1
    else 0
  }

  /** Decimal rendering of a natural number, as JavaScript prints an
      integer-valued number. */
  function NatToString(n: nat): (s: string)
    ensures |s| > 0 && AllDigits(s) && DigitsValue(s) == n
  {
    if n < 10 then [DigitChar(n)]
    else
      var prefix := NatToString(n / 10);
      var s := prefix + [DigitChar(n % 10)];
      assert s[..|s| - 1] == prefix;
      s
  }

  /** Decimal rendering of an integer with a leading '-' when negative. */
  function IntToString(n: int): string {
    if n < 0 then "-" + NatToString(-n) else NatToString(n)
  }

  /** The longest run of decimal digits at the head of `u`, read as a
      number; `None` when `u` does not start with a digit. */
  function ParseDigits(u: string): Option<nat> {
    var n := DigitPrefixLength(u);
    if n == 0 then None else Some(DigitsValue(u[..n]))
  }

  /** JavaScript `parseInt(s, 10)`: leading white space is skipped, one
      optional sign is read, then the longest run of decimal digits; `None`
      stands for NaN, returned when that run is empty. */
  function ParseInt(s: string): Option<int> {
    var t := TrimStart(s);
    if |t| > 0 && t[0] == '-' then
      match ParseDigits(t[1..])
      case None => None
      case Some(v) => Some(-(v as int))
    else if |t| > 0 && t[0] == '+' then
      match ParseDigits(t[1..])
      case None => None
      case Some(v) => Some(v)
    else
      match ParseDigits(t)
      case None => None
      case Some(v) => Some(v)
  }

  lemma ParseDigitsOfDigits(d: string)
    requires |d| > 0 && AllDigits(d)
    ensures ParseDigits(d) == Some(DigitsValue(d))
  {
    assert DigitPrefixLength(d) == |d|;
    assert d[..|d|] == d;
  }

  /** Printing an integer and reading it back with `parseInt` gives the
      integer back. */
  lemma ParseIntOfIntToString(n: int)
    ensures ParseInt(IntToString(n)) == Some(n)
  {
    var s := IntToString(n);
    assert !IsJsWhiteSpace(s[0]);
    assert TrimStart(s) == s;
    if n < 0 {
      var d := NatToString(-n);
      assert s[1..] == d;
      ParseDigitsOfDigits(d);
    } else {
      ParseDigitsOfDigits(s);
    }
  }

  /** JavaScript `s.split(sep)` for a one-character separator: the pieces of
      `s` between separators, in order; an empty `s` gives one empty piece. */
  function Split(s: string, sep: char): (parts: seq<string>)
    ensures |parts| >= 1
    ensures forall i :: 0 <= i < |parts| ==> sep !in parts[i]
    decreases |s|
  {
    if |s| == 0 then [""]
    else
      var rest := Split(s[1..], sep);
      if s[0] == sep then [""] + rest else [[s[0]] + rest[0]] + rest[1..]
  }

  /** The pieces glued back together with the separator between them. */
  function Join(parts: seq<string>, sep: char): string
    requires |parts| >= 1
  {
    if |parts| == 1 then parts[0] else parts[0] + [sep] + Join(parts[1..], sep)
  }

  /** Splitting loses nothing: joining the pieces restores the string. */
  lemma {:induction false} JoinSplit(s: string, sep: char)
    ensures Join(Split(s, sep), sep) == s
    decreases |s|
  {
    if |s| > 0 {
      var rest := Split(s[1..], sep);
      JoinSplit(s[1..], sep);
      if s[0] == sep {
        assert Split(s, sep)[1..] == rest;
        assert s == [sep] + s[1..];
      } else if |rest| == 1 {
        assert s == [s[0]] + s[1..];
      } else {
        var parts := Split(s, sep);
        assert parts[1..] == rest[1..];
        assert s == [s[0]] + s[1..];
      }
    }
  }

  /** A string without the separator is a single piece. */
  lemma {:induction false} SplitWithoutSeparator(a: string, sep: char)
    requires sep !in a
    ensures Split(a, sep) == [a]
    decreases |a|
  {
    if |a| > 0 {
      SplitWithoutSeparator(a[1..], sep);
      assert [a[0]] + a[1..] == a;
    }
  }

  /** A separator-free head followed by the separator splits off as the
      first piece. */
  lemma {:induction false} SplitAfterHead(a: string, sep: char, b: string)
    requires sep !in a
    ensures Split(a + [sep] + b, sep) == [a] + Split(b, sep)
    decreases |a|
  {
    var s := a + [sep] + b;
    if |a| == 0 {
      assert s[1..] == b;
    } else {
      assert s[1..] == a[1..] + [sep] + b;
      SplitAfterHead(a[1..], sep, b);
      assert [a[0]] + a[1..] == a;
    }
  }

  /** Joining separator-free pieces and splitting again gives the pieces. */
  lemma {:induction false} SplitJoin(parts: seq<string>, sep: char)
    requires |parts| >= 1
    requires forall i :: 0 <= i < |parts| ==> sep !in parts[i]
    ensures Split(Join(parts, sep), sep) == parts
    decreases |parts|
  {
    if |parts| == 1 {
      SplitWithoutSeparator(parts[0], sep);
    } else {
      SplitJoin(parts[1..], sep);
      SplitAfterHead(parts[0], sep, Join(parts[1..], sep));
      assert parts == [parts[0]] + parts[1..];
    }
  }
}

=== FILE: validation.dfy ===
/** The discovery validator: a fail-fast chain of field checks over already
    decoded records. A failing check yields `ValidationError{Field, Message}`;
    each enclosing level wraps it with its own context, so an error records
    the path from the payload down to the offending field. */
module Validation {
  import opened Wrappers
  import opened Enums
  import opened DiscoveryTypes
  import Precision
  import Text

  datatype ValidationError = ValidationError(field: string, message: string)

  /** The prefixes the validator adds with `fmt.Errorf("...: %w", err)`. */
  datatype Context =
    | EventMetadataFailed
    | SeriesMetadataFailed
    | DiscoveryMetaFailed
    | SeriesDataFailed
    | FinancialDataFailed
    | ContractDataFailed
    | SettlementSourceFailed(index: nat)

  /** An error returned by the validator: a bare `ValidationError`, one
      wrapped in a context, or the failure of JSON decoding itself, whose
      reason is opaque here. */
  datatype Error =
    | Invalid(cause: ValidationError)
    | Wrapped(context: Context, inner: Error)
    | Unmarshal(reason: string)

  /** The input bytes of the `Validate...DiscoveryPayload` entry points after
      `json.Unmarshal`: a decoded record, or the decoder's failure. */
  datatype Decoded<T> = Decoded(value: T) | Malformed(reason: string)

  const MsgEmpty := "required field is empty"
  const MsgMissing := "required field is missing"
  const MsgZero := "required field is zero"
  const MsgInvalidVenue := "invalid venue ID"
  const MsgInvalidEventType := "invalid event type"
  const MsgNonNegative := "must be >= 0"
  const MsgCents := "must be a multiple of 0.01"
  const MsgUsd := "must be 'USD'"
  const MsgAtLeastOne := "must be >= 1"

  function ContextText(c: Context): string {
    match c
    case EventMetadataFailed => "event metadata validation failed"
    case SeriesMetadataFailed => "series metadata validation failed"
    case DiscoveryMetaFailed => "discovery_meta validation failed"
    case SeriesDataFailed => "series_data validation failed"
    case FinancialDataFailed => "financial data validation failed"
    case ContractDataFailed => "contract data validation failed"
    case SettlementSourceFailed(i) => "settlement_sources[" + Text.NatToString(i) + "] validation failed"
  }

  /** The text of `err.Error()`. */
  function Render(e: Error): string {
    match e
    case Invalid(v) => "validation error in field '" + v.field + "': " + v.message
    case Wrapped(c, inner) => ContextText(c) + ": " + Render(inner)
    case Unmarshal(reason) => "failed to unmarshal payload: " + reason
  }

  /** The `ValidationError` at the bottom of a wrapped error. */
  function Innermost(e: Error): Option<ValidationError> {
    match e
    case Invalid(v) => Some(v)
    case Wrapped(_, inner) => Innermost(inner)
    case Unmarshal(_) => None
  }

  /** The contexts an error passed through, outermost first. */
  function ContextPath(e: Error): seq<Context> {
    match e
    case Invalid(_) => []
    case Wrapped(c, inner) => [c] + ContextPath(inner)
    case Unmarshal(_) => []
  }

  function Lift(o: Outcome<ValidationError>): Outcome<Error> {
    match o
    case Pass => Pass
    case Fail(v) => Fail(Invalid(v))
  }

  // ---------------------------------------------------------------------
  // Fail-fast order, stated once as a table of checks

  /** One field check: whether it holds, and the error it reports if not. */
  datatype Check = Check(ok: bool, failure: ValidationError)

  /** Runs the checks in order and reports the first one that fails. */
  function FirstFailure(checks: seq<Check>): (r: Outcome<ValidationError>)
    ensures r.Pass? <==> forall i :: 0 <= i < |checks| ==> checks[i].ok
    ensures r.Fail? ==>
      exists i :: 0 <= i < |checks| && !checks[i].ok && checks[i].failure == r.error &&
        forall j :: 0 <= j < i ==> checks[j].ok
  {
    if |checks| == 0 then Pass
    else if !checks[0].ok then Fail(checks[0].failure)
    else
      FirstFailure(checks[1..])
  }

  /** One step of the run, from check `k` on. */
  lemma FirstFailureAt(checks: seq<Check>, k: nat)
    requires k < |checks|
    ensures FirstFailure(checks[k..]) ==
      if !checks[k].ok then Fail(checks[k].failure) else FirstFailure(checks[k + 1..])
  {
    assert checks[k..][0] == checks[k];
    assert checks[k..][1..] == checks[k + 1..];
  }

  /** Running two tables one after the other: the second is consulted only
      when every check of the first holds. */
  lemma {:induction false} FirstFailureAppend(a: seq<Check>, b: seq<Check>)
    ensures FirstFailure(a + b) == if FirstFailure(a).Fail? then FirstFailure(a) else FirstFailure(b)
    decreases |a|
  {
    if |a| > 0 {
      assert (a + b)[1..] == a[1..] + b;
      FirstFailureAppend(a[1..], b);
    } else {
      assert a + b == b;
    }
  }

  /** When the checks report pairwise distinct fields, the field reported is
      that of check `i` exactly when check `i` is the first failing one. */
  lemma FirstFailureReportsFirstFailingField(checks: seq<Check>, i: nat)
    requires i < |checks|
    requires forall a, b :: 0 <= a < b < |checks| ==> checks[a].failure.field != checks[b].failure.field
    ensures (FirstFailure(checks).Fail? && FirstFailure(checks).error.field == checks[i].failure.field)
        <==> (!checks[i].ok && forall j :: 0 <= j < i ==> checks[j].ok)
  {
    var r := FirstFailure(checks);
    if !checks[i].ok && forall j :: 0 <= j < i ==> checks[j].ok {
      assert r.Fail?;
      var k :| 0 <= k < |checks| && !checks[k].ok && checks[k].failure == r.error &&
        forall j :: 0 <= j < k ==> checks[j].ok;
      assert k == i;
    }
    if r.Fail? && r.error.field == checks[i].failure.field {
      var k :| 0 <= k < |checks| && !checks[k].ok && checks[k].failure == r.error &&
        forall j :: 0 <= j < k ==> checks[j].ok;
      assert k == i;
    }
  }

  // ---------------------------------------------------------------------
  // Event and series metadata: the shared header

  /** The required fields event and series metadata have in common. */
  datatype Header = Header(
    kind: DiscoveryKind,
    venueId: VenueId,
    eventId: string,
    title: string,
    active: Option<bool>,
    closed: Option<bool>,
    discoveredAt: Time,
    lastSeen: Time)

  function EventHeader(m: EventMetadata): Header {
    Header(m.kind, m.venueId, m.eventId, m.title, m.active, m.closed, m.discoveredAt, m.lastSeen)
  }

  function SeriesHeader(m: SeriesMetadata): Header {
    Header(m.kind, m.venueId, m.eventId, m.title, m.active, m.closed, m.discoveredAt, m.lastSeen)
  }

  /** The message of the kind rule in each of the two validators. */
  function KindMessage(expected: DiscoveryKind): string {
    if expected == DiscoveryKindEvent then "must be 'event' for event metadata"
    else "must be 'series' for series metadata"
  }

  /** The header rules in the order the validator applies them. */
  function HeaderChecks(h: Header, expected: DiscoveryKind): seq<Check> {
    [ Check(h.kind == expected, ValidationError("kind", KindMessage(expected))),
      Check(IsValidVenueId(h.venueId), ValidationError("venue_id", MsgInvalidVenue)),
      Check(h.eventId != "", ValidationError("event_id", MsgEmpty)),
      Check(h.title != "", ValidationError("title", MsgEmpty)),
      Check(h.active.Some?, ValidationError("active", MsgMissing)),
      Check(h.closed.Some?, ValidationError("closed", MsgMissing)),
      Check(!h.discoveredAt.IsZero(), ValidationError("discovered_at", MsgZero)),
      Check(!h.lastSeen.IsZero(), ValidationError("last_seen", MsgZero)) ]
  }

  /** A header every rule accepts: the expected kind, a known venue, non-empty
      ids and title, both booleans present (either value) and both clock
      stamps non-zero. */
  predicate HeaderValid(h: Header, expected: DiscoveryKind) {
    && h.kind == expected
    && IsValidVenueId(h.venueId)
    && h.eventId != ""
    && h.title != ""
    && h.active.Some?
    && h.closed.Some?
    && !h.discoveredAt.IsZero()
    && !h.lastSeen.IsZero()
  }

  /** The if-chain that opens both `validateEventMetadata` and
      `validateSeriesMetadata`. */
  function ValidateHeader(h: Header, expected: DiscoveryKind): (r: Outcome<ValidationError>)
    ensures r.Pass? <==> HeaderValid(h, expected)
    ensures r == FirstFailure(HeaderChecks(h, expected))
  {
    HeaderRun(h, expected);
    if h.kind != expected then Fail(ValidationError("kind", KindMessage(expected)))
    else if !IsValidVenueId(h.venueId) then Fail(ValidationError("venue_id", MsgInvalidVenue))
    else if h.eventId == "" then Fail(ValidationError("event_id", MsgEmpty))
    else if h.title == "" then Fail(ValidationError("title", MsgEmpty))
    else if h.active.None? then Fail(ValidationError("active", MsgMissing))
    else if h.closed.None? then Fail(ValidationError("closed", MsgMissing))
    else if h.discoveredAt.IsZero() then Fail(ValidationError("discovered_at", MsgZero))
    else if h.lastSeen.IsZero() then Fail(ValidationError("last_seen", MsgZero))
    else Pass
  }

  /** The header table run check by check. */
  lemma HeaderRun(h: Header, expected: DiscoveryKind)
    ensures FirstFailure(HeaderChecks(h, expected)) ==
      if h.kind != expected then Fail(ValidationError("kind", KindMessage(expected)))
      else if !IsValidVenueId(h.venueId) then Fail(ValidationError("venue_id", MsgInvalidVenue))
      else if h.eventId == "" then Fail(ValidationError("event_id", MsgEmpty))
      else if h.title == "" then Fail(ValidationError("title", MsgEmpty))
      else if h.active.None? then Fail(ValidationError("active", MsgMissing))
      else if h.closed.None? then Fail(ValidationError("closed", MsgMissing))
      else if h.discoveredAt.IsZero() then Fail(ValidationError("discovered_at", MsgZero))
      else if h.lastSeen.IsZero() then Fail(ValidationError("last_seen", MsgZero))
      else Pass
  {
    var checks := HeaderChecks(h, expected);
    assert checks[0..] == checks && checks[8..] == [];
    FirstFailureAt(checks, 7); FirstFailureAt(checks, 6); FirstFailureAt(checks, 5); FirstFailureAt(checks, 4);
    FirstFailureAt(checks, 3); FirstFailureAt(checks, 2); FirstFailureAt(checks, 1); FirstFailureAt(checks, 0);
  }

  /** Fail-fast order: the header validator reports the field of check `i`
      exactly when every earlier rule holds and rule `i` does not; so the
      order is kind, venue_id, event_id, title, active, closed,
      discovered_at, last_seen. */
  lemma HeaderReportsFirstFailingField(h: Header, expected: DiscoveryKind, i: nat)
    requires i < 8
    ensures HeaderChecks(h, expected)[i].failure.field ==
      ["kind", "venue_id", "event_id", "title", "active", "closed", "discovered_at", "last_seen"][i]
    ensures (ValidateHeader(h, expected).Fail? && ValidateHeader(h, expected).error.field == HeaderChecks(h, expected)[i].failure.field)
        <==> (!HeaderChecks(h, expected)[i].ok && forall j :: 0 <= j < i ==> HeaderChecks(h, expected)[j].ok)
  {
    FirstFailureReportsFirstFailingField(HeaderChecks(h, expected), i);
  }

  /** `validateEventMetadata`. */
  function ValidateEventMetadata(m: EventMetadata): (r: Outcome<Error>)
    ensures r.Pass? <==>
      && m.kind == DiscoveryKindEvent
      && IsValidVenueId(m.venueId)
      && m.eventId != ""
      && m.title != ""
      && m.active.Some?
      && m.closed.Some?
      && !m.discoveredAt.IsZero()
      && !m.lastSeen.IsZero()
    ensures r == Lift(FirstFailure(HeaderChecks(EventHeader(m), DiscoveryKindEvent)))
    ensures m.kind != DiscoveryKindEvent ==>
      r == Fail(Invalid(ValidationError("kind", "must be 'event' for event metadata")))
  {
    Lift(ValidateHeader(EventHeader(m), DiscoveryKindEvent))
  }

  // ---------------------------------------------------------------------
  // Financial data, settlement sources, contract and series data

  /** A USD amount accepted by the financial rules: absent, or non-negative
      and a whole number of cents up to the tolerance. */
  predicate UsdAmountValid(amount: Option<real>) {
    amount.None? || (amount.value >= 0.0 && Precision.IsValidCentsPrecision(amount.value))
  }

  predicate FinancialValid(d: FinancialData) {
    && UsdAmountValid(d.volume24hUsd)
    && UsdAmountValid(d.volumeTotalUsd)
    && UsdAmountValid(d.liquidityTotalUsd)
    && (d.volume24hContracts.None? || d.volume24hContracts.value >= 0)
    && (d.volumeTotalContracts.None? || d.volumeTotalContracts.value >= 0)
    && (d.score.None? || d.score.value >= 0.0)
    && (d.currency.None? || d.currency.value == CurrencyUsd)
  }

  /** The two rules on one optional USD amount: sign first, then precision. */
  function UsdChecks(amount: Option<real>, field: string): seq<Check> {
    [ Check(amount.None? || amount.value >= 0.0, ValidationError(field, MsgNonNegative)),
      Check(amount.None? || Precision.IsValidCentsPrecision(amount.value), ValidationError(field, MsgCents)) ]
  }

  /** The rules on counts, score and currency, in order. */
  function CountChecks(d: FinancialData): seq<Check> {
    [ Check(d.volume24hContracts.None? || d.volume24hContracts.value >= 0,
        ValidationError("volume_24h_contracts", MsgNonNegative)),
      Check(d.volumeTotalContracts.None? || d.volumeTotalContracts.value >= 0,
        ValidationError("volume_total_contracts", MsgNonNegative)),
      Check(d.score.None? || d.score.value >= 0.0,
        ValidationError("score", MsgNonNegative)),
      Check(d.currency.None? || d.currency.value == CurrencyUsd,
        ValidationError("currency", MsgUsd)) ]
  }

  /** The financial rules in the order `ValidateFinancialData` applies them. */
  function FinancialChecks(d: FinancialData): seq<Check> {
    UsdChecks(d.volume24hUsd, "volume_24h_usd")
      + UsdChecks(d.volumeTotalUsd, "volume_total_usd")
      + UsdChecks(d.liquidityTotalUsd, "liquidity_total_usd")
      + CountChecks(d)
  }

  /** The `if data.X != nil { ... }` block for one USD amount. */
  function ValidateUsdAmount(amount: Option<real>, field: string): (r: Outcome<ValidationError>)
    ensures r.Pass? <==> UsdAmountValid(amount)
    ensures r == FirstFailure(UsdChecks(amount, field))
  {
    if amount.None? then Pass
    else if amount.value < 0.0 then Fail(ValidationError(field, MsgNonNegative))
    else if !Precision.IsValidCentsPrecision(amount.value) then Fail(ValidationError(field, MsgCents))
    else Pass
  }

  /** The tail of `ValidateFinancialData`: counts, score, currency. */
  function ValidateCounts(d: FinancialData): (r: Outcome<ValidationError>)
    ensures r == FirstFailure(CountChecks(d))
  {
    var checks := CountChecks(d);
    if d.volume24hContracts.Some? && d.volume24hContracts.value < 0 then Fail(checks[0].failure)
    else if d.volumeTotalContracts.Some? && d.volumeTotalContracts.value < 0 then Fail(checks[1].failure)
    else if d.score.Some? && d.score.value < 0.0 then Fail(checks[2].failure)
    else if d.currency.Some? && d.currency.value != CurrencyUsd then Fail(checks[3].failure)
    else Pass
  }

  /** The financial table runs as its four parts one after the other. */
  lemma FinancialChecksInOrder(d: FinancialData)
    ensures var a, b, c := UsdChecks(d.volume24hUsd, "volume_24h_usd"),
        UsdChecks(d.volumeTotalUsd, "volume_total_usd"), UsdChecks(d.liquidityTotalUsd, "liquidity_total_usd");
      FirstFailure(FinancialChecks(d)) ==
        if FirstFailure(a).Fail? then FirstFailure(a)
        else if FirstFailure(b).Fail? then FirstFailure(b)
        else if FirstFailure(c).Fail? then FirstFailure(c)
        else FirstFailure(CountChecks(d))
  {
    var a := UsdChecks(d.volume24hUsd, "volume_24h_usd");
    var b := UsdChecks(d.volumeTotalUsd, "volume_total_usd");
    var c := UsdChecks(d.liquidityTotalUsd, "liquidity_total_usd");
    FirstFailureAppend(a, b);
    FirstFailureAppend(a + b, c);
    FirstFailureAppend(a + b + c, CountChecks(d));
  }

  /** `ValidateFinancialData`. */
  function ValidateFinancialData(d: FinancialData): (r: Outcome<Error>)
    ensures r.Pass? <==> FinancialValid(d)
    ensures r == Lift(FirstFailure(FinancialChecks(d)))
    ensures d.volume24hUsd.Some? && d.volume24hUsd.value < 0.0 ==>
      r == Fail(Invalid(ValidationError("volume_24h_usd", MsgNonNegative)))
  {
    var v24 := ValidateUsdAmount(d.volume24hUsd, "volume_24h_usd");
    var total := ValidateUsdAmount(d.volumeTotalUsd, "volume_total_usd");
    var liquidity := ValidateUsdAmount(d.liquidityTotalUsd, "liquidity_total_usd");
    FinancialChecksInOrder(d);
    if v24.Fail? then Lift(v24)
    else if total.Fail? then Lift(total)
    else if liquidity.Fail? then Lift(liquidity)
    else Lift(ValidateCounts(d))
  }

  /** `ValidateSettlementSource`. */
  function ValidateSettlementSource(source: SettlementSource): (r: Outcome<Error>)
    ensures r.Pass? <==> source.name != ""
    ensures r.Fail? ==> r.error == Invalid(ValidationError("name", MsgEmpty))
  {
    if source.name == "" then Fail(Invalid(ValidationError("name", MsgEmpty))) else Pass
  }

  predicate ContractValid(c: ContractData) {
    forall i :: 0 <= i < |c.settlementSources| ==> c.settlementSources[i].name != ""
  }

  /** The `for i, source := range ...` loop of `validateContractData`,
      resumed at index `from`. */
  function ValidateSourcesFrom(sources: seq<SettlementSource>, from: nat): (r: Outcome<Error>)
    requires from <= |sources|
    ensures r.Pass? <==> forall i :: from <= i < |sources| ==> sources[i].name != ""
    ensures r.Fail? ==>
      exists i :: from <= i < |sources| && sources[i].name == "" &&
        (forall j :: from <= j < i ==> sources[j].name != "") &&
        r.error == Wrapped(SettlementSourceFailed(i), Invalid(ValidationError("name", MsgEmpty)))
    decreases |sources| - from
  {
    if from == |sources| then Pass
    else
      match ValidateSettlementSource(sources[from])
      case Fail(e) => Fail(Wrapped(SettlementSourceFailed(from), e))
      case Pass => ValidateSourcesFrom(sources, from + 1)
  }

  /** `validateContractData`: the first settlement source with an empty name
      is reported, under its index. */
  function ValidateContractData(c: ContractData): (r: Outcome<Error>)
    ensures r.Pass? <==> ContractValid(c)
    ensures r.Fail? ==>
      exists i :: 0 <= i < |c.settlementSources| && c.settlementSources[i].name == "" &&
        (forall j :: 0 <= j < i ==> c.settlementSources[j].name != "") &&
        r.error == Wrapped(SettlementSourceFailed(i), Invalid(ValidationError("name", MsgEmpty)))
  {
    ValidateSourcesFrom(c.settlementSources, 0)
  }

  /** The source reported is the first one without a name, whatever the
      later sources hold. */
  lemma ContractReportsFirstNamelessSource(c: ContractData, i: nat)
    requires i < |c.settlementSources| && c.settlementSources[i].name == ""
    requires forall j :: 0 <= j < i ==> c.settlementSources[j].name != ""
    ensures ValidateContractData(c) ==
      Fail(Wrapped(SettlementSourceFailed(i), Invalid(ValidationError("name", MsgEmpty))))
  {
    var sources := c.settlementSources;
    var r := ValidateContractData(c);
    assert r.Fail?;
    var k :| 0 <= k < |sources| && sources[k].name == "" &&
      (forall j :: 0 <= j < k ==> sources[j].name != "") &&
      r.error == Wrapped(SettlementSourceFailed(k), Invalid(ValidationError("name", MsgEmpty)));
    assert k == i;
  }

  predicate SeriesDataValid(d: SeriesData) {
    && (d.financial.None? || FinancialValid(d.financial.value))
    && (d.contract.None? || ContractValid(d.contract.value))
  }

  /** `validateSeriesData`: financial data first, then contract data, each
      only when present. */
  function ValidateSeriesData(d: SeriesData): (r: Outcome<Error>)
    ensures r.Pass? <==> SeriesDataValid(d)
    ensures d.financial.Some? && !FinancialValid(d.financial.value) ==>
      r == Fail(Wrapped(FinancialDataFailed, ValidateFinancialData(d.financial.value).error))
    ensures r.Fail? && (d.financial.None? || FinancialValid(d.financial.value)) ==>
      && d.contract.Some? && ValidateContractData(d.contract.value).Fail?
      && r == Fail(Wrapped(ContractDataFailed, ValidateContractData(d.contract.value).error))
  {
    if d.financial.Some? && ValidateFinancialData(d.financial.value).Fail? then
      Fail(Wrapped(FinancialDataFailed, ValidateFinancialData(d.financial.value).error))
    else if d.contract.Some? && ValidateContractData(d.contract.value).Fail? then
      Fail(Wrapped(ContractDataFailed, ValidateContractData(d.contract.value).error))
    else Pass
  }

  /** `validateSeriesMetadata`: the header rules with kind "series", then the
      series data when present. */
  function ValidateSeriesMetadata(m: SeriesMetadata): (r: Outcome<Error>)
    ensures r.Pass? <==>
      && m.kind == DiscoveryKindSeries
      && IsValidVenueId(m.venueId)
      && m.eventId != ""
      && m.title != ""
      && m.active.Some?
      && m.closed.Some?
      && !m.discoveredAt.IsZero()
      && !m.lastSeen.IsZero()
      && (m.seriesData.None? || SeriesDataValid(m.seriesData.value))
    ensures !HeaderValid(SeriesHeader(m), DiscoveryKindSeries) ==>
      r == Lift(FirstFailure(HeaderChecks(SeriesHeader(m), DiscoveryKindSeries)))
    ensures HeaderValid(SeriesHeader(m), DiscoveryKindSeries) && r.Fail? ==>
      && m.seriesData.Some? && ValidateSeriesData(m.seriesData.value).Fail?
      && r == Fail(Wrapped(SeriesDataFailed, ValidateSeriesData(m.seriesData.value).error))
  {
    match ValidateHeader(SeriesHeader(m), DiscoveryKindSeries)
    case Fail(v) => Fail(Invalid(v))
    case Pass =>
      if m.seriesData.Some? && ValidateSeriesData(m.seriesData.value).Fail? then
        Fail(Wrapped(SeriesDataFailed, ValidateSeriesData(m.seriesData.value).error))
      else Pass
  }

  // ---------------------------------------------------------------------
  // Discovery payloads

  predicate DiscoveryMetaValid(meta: DiscoveryMeta) {
    meta.batchId != "" && meta.batchSequence >= 1 && meta.batchTotalCount >= 1 && meta.discoveryRunId != ""
  }

  function DiscoveryMetaChecks(meta: DiscoveryMeta): seq<Check> {
    [ Check(meta.batchId != "", ValidationError("batch_id", MsgEmpty)),
      Check(meta.batchSequence >= 1, ValidationError("batch_sequence", MsgAtLeastOne)),
      Check(meta.batchTotalCount >= 1, ValidationError("batch_total_count", MsgAtLeastOne)),
      Check(meta.discoveryRunId != "", ValidationError("discovery_run_id", MsgEmpty)) ]
  }

  /** `validateDiscoveryMeta`. */
  function ValidateDiscoveryMeta(meta: DiscoveryMeta): (r: Outcome<Error>)
    ensures r.Pass? <==> DiscoveryMetaValid(meta)
    ensures r == Lift(FirstFailure(DiscoveryMetaChecks(meta)))
  {
    var checks := DiscoveryMetaChecks(meta);
    if meta.batchId == "" then Fail(Invalid(checks[0].failure))
    else if meta.batchSequence < 1 then Fail(Invalid(checks[1].failure))
    else if meta.batchTotalCount < 1 then Fail(Invalid(checks[2].failure))
    else if meta.discoveryRunId == "" then Fail(Invalid(checks[3].failure))
    else Pass
  }

  /** The message-level rules both payload kinds apply after the embedded
      record, in order. */
  function OuterChecks(eventId: string, eventType: EventType, timestamp: Time, venueId: VenueId): seq<Check> {
    [ Check(eventId != "", ValidationError("event_id", MsgEmpty)),
      Check(IsValidEventType(eventType), ValidationError("event_type", MsgInvalidEventType)),
      Check(!timestamp.IsZero(), ValidationError("timestamp", MsgZero)),
      Check(IsValidVenueId(venueId), ValidationError("venue_id", MsgInvalidVenue)) ]
  }

  /** The tail shared by `ValidateEventDiscoveryPayload` and
      `ValidateSeriesDiscoveryPayload`: message id, event type, timestamp,
      outer venue, then the optional discovery metadata. */
  function ValidateOuter(eventId: string, eventType: EventType, timestamp: Time, venueId: VenueId,
                         meta: Option<DiscoveryMeta>): (r: Outcome<Error>)
    ensures r.Pass? <==>
      && eventId != ""
      && IsValidEventType(eventType)
      && !timestamp.IsZero()
      && IsValidVenueId(venueId)
      && (meta.None? || DiscoveryMetaValid(meta.value))
    ensures FirstFailure(OuterChecks(eventId, eventType, timestamp, venueId)).Fail? ==>
      r == Lift(FirstFailure(OuterChecks(eventId, eventType, timestamp, venueId)))
    ensures FirstFailure(OuterChecks(eventId, eventType, timestamp, venueId)).Pass? && r.Fail? ==>
      && meta.Some? && ValidateDiscoveryMeta(meta.value).Fail?
      && r == Fail(Wrapped(DiscoveryMetaFailed, ValidateDiscoveryMeta(meta.value).error))
  {
    var checks := OuterChecks(eventId, eventType, timestamp, venueId);
    if eventId == "" then Fail(Invalid(checks[0].failure))
    else if !IsValidEventType(eventType) then Fail(Invalid(checks[1].failure))
    else if timestamp.IsZero() then Fail(Invalid(checks[2].failure))
    else if !IsValidVenueId(venueId) then Fail(Invalid(checks[3].failure))
    else if meta.Some? && ValidateDiscoveryMeta(meta.value).Fail? then
      Fail(Wrapped(DiscoveryMetaFailed, ValidateDiscoveryMeta(meta.value).error))
    else Pass
  }

  /** The body of `ValidateEventDiscoveryPayload` after decoding. */
  function ValidateEventPayload(p: EventDiscoveryPayload): (r: Outcome<Error>)
    ensures r.Pass? <==>
      && ValidateEventMetadata(p.event).Pass?
      && p.eventId != ""
      && IsValidEventType(p.eventType)
      && !p.timestamp.IsZero()
      && IsValidVenueId(p.venueId)
      && (p.discoveryMeta.None? || DiscoveryMetaValid(p.discoveryMeta.value))
    ensures ValidateEventMetadata(p.event).Fail? ==>
      r == Fail(Wrapped(EventMetadataFailed, ValidateEventMetadata(p.event).error))
    ensures ValidateEventMetadata(p.event).Pass? && r.Fail? ==>
      r.error.Invalid? || (r.error.Wrapped? && r.error.context == DiscoveryMetaFailed)
    ensures ValidateEventMetadata(p.event).Pass? ==>
      r == ValidateOuter(p.eventId, p.eventType, p.timestamp, p.venueId, p.discoveryMeta)
    ensures ValidateEventMetadata(p.event).Pass? && FirstFailure(OuterChecks(p.eventId, p.eventType, p.timestamp, p.venueId)).Fail? ==>
      r == Lift(FirstFailure(OuterChecks(p.eventId, p.eventType, p.timestamp, p.venueId)))
    ensures ValidateEventMetadata(p.event).Pass? && FirstFailure(OuterChecks(p.eventId, p.eventType, p.timestamp, p.venueId)).Pass?
            && r.Fail? ==>
      && p.discoveryMeta.Some? && ValidateDiscoveryMeta(p.discoveryMeta.value).Fail?
      && r == Fail(Wrapped(DiscoveryMetaFailed, ValidateDiscoveryMeta(p.discoveryMeta.value).error))
  {
    match ValidateEventMetadata(p.event)
    case Fail(e) => Fail(Wrapped(EventMetadataFailed, e))
    case Pass => ValidateOuter(p.eventId, p.eventType, p.timestamp, p.venueId, p.discoveryMeta)
  }

  /** The body of `ValidateSeriesDiscoveryPayload` after decoding. */
  function ValidateSeriesPayload(p: SeriesDiscoveryPayload): (r: Outcome<Error>)
    ensures r.Pass? <==>
      && ValidateSeriesMetadata(p.event).Pass?
      && p.eventId != ""
      && IsValidEventType(p.eventType)
      && !p.timestamp.IsZero()
      && IsValidVenueId(p.venueId)
      && (p.discoveryMeta.None? || DiscoveryMetaValid(p.discoveryMeta.value))
    ensures ValidateSeriesMetadata(p.event).Fail? ==>
      r == Fail(Wrapped(SeriesMetadataFailed, ValidateSeriesMetadata(p.event).error))
    ensures ValidateSeriesMetadata(p.event).Pass? && r.Fail? ==>
      r.error.Invalid? || (r.error.Wrapped? && r.error.context == DiscoveryMetaFailed)
    ensures ValidateSeriesMetadata(p.event).Pass? ==>
      r == ValidateOuter(p.eventId, p.eventType, p.timestamp, p.venueId, p.discoveryMeta)
    ensures ValidateSeriesMetadata(p.event).Pass? && FirstFailure(OuterChecks(p.eventId, p.eventType, p.timestamp, p.venueId)).Fail? ==>
      r == Lift(FirstFailure(OuterChecks(p.eventId, p.eventType, p.timestamp, p.venueId)))
    ensures ValidateSeriesMetadata(p.event).Pass? && FirstFailure(OuterChecks(p.eventId, p.eventType, p.timestamp, p.venueId)).Pass?
            && r.Fail? ==>
      && p.discoveryMeta.Some? && ValidateDiscoveryMeta(p.discoveryMeta.value).Fail?
      && r == Fail(Wrapped(DiscoveryMetaFailed, ValidateDiscoveryMeta(p.discoveryMeta.value).error))
  {
    match ValidateSeriesMetadata(p.event)
    case Fail(e) => Fail(Wrapped(SeriesMetadataFailed, e))
    case Pass => ValidateOuter(p.eventId, p.eventType, p.timestamp, p.venueId, p.discoveryMeta)
  }

  /** `ValidateEventDiscoveryPayload` on the decoder's output. */
  function ValidateEventDiscoveryPayload(input: Decoded<EventDiscoveryPayload>): (r: Outcome<Error>)
    ensures input.Malformed? ==> r == Fail(Unmarshal(input.reason))
    ensures r.Pass? <==> input.Decoded? && ValidateEventPayload(input.value).Pass?
  {
    match input
    case Malformed(reason) => Fail(Unmarshal(reason))
    case Decoded(p) => ValidateEventPayload(p)
  }

  /** `ValidateSeriesDiscoveryPayload` on the decoder's output. */
  function ValidateSeriesDiscoveryPayload(input: Decoded<SeriesDiscoveryPayload>): (r: Outcome<Error>)
    ensures input.Malformed? ==> r == Fail(Unmarshal(input.reason))
    ensures r.Pass? <==> input.Decoded? && ValidateSeriesPayload(input.value).Pass?
  {
    match input
    case Malformed(reason) => Fail(Unmarshal(reason))
    case Decoded(p) => ValidateSeriesPayload(p)
  }
}

=== FILE: validation_properties.dfy ===
/** Properties of the discovery validator that relate several calls or
    several inputs: what the validator ignores, which field an error names,
    the context path a nested error carries, and the worked examples. */
module ValidationProperties {
  import opened Wrappers
  import opened Enums
  import opened DiscoveryTypes
  import opened Validation
  import Precision

  // ---------------------------------------------------------------------
  // Order of the rules

  /** A series record handed to the event validator is rejected on its kind,
      whatever its other fields hold. */
  lemma SeriesKindRejectedByEventValidator(m: EventMetadata)
    requires m.kind == DiscoveryKindSeries
    ensures ValidateEventMetadata(m) == Fail(Invalid(ValidationError("kind", "must be 'event' for event metadata")))
  {
  }

  /** The outer rules of a payload are consulted only once the embedded record
      is valid: an invalid record is reported under its context even when every
      outer field is broken too. */
  lemma EmbeddedRecordCheckedBeforeOuterFields(p: EventDiscoveryPayload)
    requires ValidateEventMetadata(p.event).Fail?
    ensures ValidateEventPayload(p).Fail?
    ensures ContextPath(ValidateEventPayload(p).error) == [EventMetadataFailed]
    ensures Innermost(ValidateEventPayload(p).error) == Innermost(ValidateEventMetadata(p.event).error)
  {
    var e := ValidateEventMetadata(p.event).error;
    assert e.Invalid?;
  }

  /** Once decoded, every rejection names a field: the error bottoms out in a
      `ValidationError`, never in a decoding failure. */
  lemma {:induction false} DecodedSeriesErrorsNameAField(p: SeriesDiscoveryPayload)
    requires ValidateSeriesPayload(p).Fail?
    ensures Innermost(ValidateSeriesPayload(p).error).Some?
  {
    var m := p.event;
    if ValidateSeriesMetadata(m).Fail? {
      if HeaderValid(SeriesHeader(m), DiscoveryKindSeries) {
        var d := m.seriesData.value;
        if d.financial.Some? && !FinancialValid(d.financial.value) {
          assert ValidateFinancialData(d.financial.value).error.Invalid?;
        } else {
          var c := d.contract.value;
          var i :| 0 <= i < |c.settlementSources| && c.settlementSources[i].name == "" &&
            (forall j :: 0 <= j < i ==> c.settlementSources[j].name != "") &&
            ValidateContractData(c).error == Wrapped(SettlementSourceFailed(i), Invalid(ValidationError("name", MsgEmpty)));
        }
      }
    }
  }

  // ---------------------------------------------------------------------
  // Nested error paths

  /** A series payload whose only fault is a settlement source without a name
      is rejected with the error for the first such source, reached through
      the series, series-data, contract and source contexts in that order. */
  lemma {:induction false} EmptySourceNameErrorPath(p: SeriesDiscoveryPayload, i: nat)
    requires HeaderValid(SeriesHeader(p.event), DiscoveryKindSeries)
    requires p.event.seriesData.Some? && p.event.seriesData.value.financial.None?
    requires p.event.seriesData.value.contract.Some?
    requires var sources := p.event.seriesData.value.contract.value.settlementSources;
      i < |sources| && sources[i].name == "" && forall j :: 0 <= j < i ==> sources[j].name != ""
    ensures ValidateSeriesPayload(p) ==
      Fail(Wrapped(SeriesMetadataFailed, Wrapped(SeriesDataFailed, Wrapped(ContractDataFailed,
        Wrapped(SettlementSourceFailed(i), Invalid(ValidationError("name", MsgEmpty)))))))
    ensures ContextPath(ValidateSeriesPayload(p).error) ==
      [SeriesMetadataFailed, SeriesDataFailed, ContractDataFailed, SettlementSourceFailed(i)]
  {
    var c := p.event.seriesData.value.contract.value;
    var sources := c.settlementSources;
    assert !ContractValid(c);
    var r := ValidateContractData(c);
    var k :| 0 <= k < |sources| && sources[k].name == "" &&
      (forall j :: 0 <= j < k ==> sources[j].name != "") &&
      r.error == Wrapped(SettlementSourceFailed(k), Invalid(ValidationError("name", MsgEmpty)));
    assert k == i;
    var inner := Wrapped(SettlementSourceFailed(i), Invalid(ValidationError("name", MsgEmpty)));
    assert ContextPath(inner) == [SettlementSourceFailed(i)];
    assert ContextPath(Wrapped(ContractDataFailed, inner)) == [ContractDataFailed, SettlementSourceFailed(i)];
    assert ContextPath(Wrapped(SeriesDataFailed, Wrapped(ContractDataFailed, inner))) ==
      [SeriesDataFailed, ContractDataFailed, SettlementSourceFailed(i)];
  }

  // ---------------------------------------------------------------------
  // Fields the validator never looks at

  /** Event validation depends on the header fields only: description,
      category, dates, parent series, tags, relationships and extra metadata
      may hold anything. */
  lemma EventValidationIgnoresDescriptiveFields(m: EventMetadata, n: EventMetadata)
    requires EventHeader(m) == EventHeader(n)
    ensures ValidateEventMetadata(m) == ValidateEventMetadata(n)
  {
  }

  /** Series validation depends on the header and the series data only: the
      child event ids are never compared with the relationships' event ids,
      and neither is inspected. */
  lemma SeriesValidationIgnoresChildEvents(m: SeriesMetadata, childEventIds: seq<string>, relationships: Option<Relationships>)
    ensures ValidateSeriesMetadata(m.(childEventIds := childEventIds, relationships := relationships)) == ValidateSeriesMetadata(m)
  {
  }

  /** Of the series data only the financial and contract parts are checked,
      and of the contract only the settlement source names. */
  lemma SeriesDataValidationReadsFinancialAndSourceNames(d: SeriesData, e: SeriesData)
    requires d.financial == e.financial
    requires d.contract.Some? <==> e.contract.Some?
    requires d.contract.Some? ==>
      var s := d.contract.value.settlementSources;
      var t := e.contract.value.settlementSources;
      |s| == |t| && forall i :: 0 <= i < |s| ==> s[i].name == t[i].name
    ensures ValidateSeriesData(d) == ValidateSeriesData(e)
  {
    if d.contract.Some? {
      var s := d.contract.value.settlementSources;
      var t := e.contract.value.settlementSources;
      SourcesFromAgree(s, t, 0);
    }
  }

  lemma {:induction false} SourcesFromAgree(s: seq<SettlementSource>, t: seq<SettlementSource>, from: nat)
    requires |s| == |t| && from <= |s|
    requires forall i :: 0 <= i < |s| ==> s[i].name == t[i].name
    ensures ValidateSourcesFrom(s, from) == ValidateSourcesFrom(t, from)
    decreases |s| - from
  {
    if from < |s| {
      SourcesFromAgree(s, t, from + 1);
    }
  }

  /** The outer venue of a payload is checked for being a known venue only; it
      is never compared with the embedded record's venue, so a valid payload
      stays valid with any known outer venue. */
  lemma OuterVenueNotComparedWithEmbeddedVenue(p: EventDiscoveryPayload, v: VenueId)
    requires ValidateEventPayload(p).Pass?
    requires IsValidVenueId(v)
    ensures ValidateEventPayload(p.(venueId := v)).Pass?
  {
  }

  // ---------------------------------------------------------------------
  // Worked examples

  /** Every financial field is optional: an empty record is valid. */
  lemma AllAbsentFinancialValid()
    ensures ValidateFinancialData(FinancialData(None, None, None, None, None, None, None)) == Pass
  {
  }

  /** A sub-cent 24-hour volume is non-negative, so it fails on precision. */
  lemma SubCentVolumeRejected(d: FinancialData)
    requires d.volume24hUsd == Some(123.456)
    ensures ValidateFinancialData(d) == Fail(Invalid(ValidationError("volume_24h_usd", MsgCents)))
  {
    Precision.UnitTestValues();
  }

  /** A batch numbered from zero is rejected on `batch_sequence` once the
      batch id is present. */
  lemma ZeroBatchSequenceRejected(meta: DiscoveryMeta)
    requires meta.batchId != "" && meta.batchSequence == 0
    ensures ValidateDiscoveryMeta(meta) == Fail(Invalid(ValidationError("batch_sequence", MsgAtLeastOne)))
  {
  }

  /** The minimal event payload of the schema-evolution test at clock reading
      `now`: only the required fields are set. */
  function MinimalEventPayload(now: Time): EventDiscoveryPayload {
    EventDiscoveryPayload(
      EventMetadata(DiscoveryKindEvent, VenueIdPolymarket, "minimal", "Minimal Event",
        None, None, Some(true), Some(false), None, None, None, None, [], None, now, now, map[]),
      "evt_minimal", EventTypeDiscovered, now, VenueIdPolymarket, None)
  }

  /** Older minimal payloads and newer extended ones both validate: adding a
      description, a category, tags and a well-formed discovery meta changes
      nothing. */
  lemma SchemaEvolutionCompatible(now: Time)
    requires !now.IsZero()
    ensures ValidateEventPayload(MinimalEventPayload(now)) == Pass
    ensures var p := MinimalEventPayload(now);
      var extended := p.(
        event := p.event.(description := Some("Extended description"), category := Some("Test category"),
                          tags := ["test", "extended"]),
        discoveryMeta := Some(DiscoveryMeta("batch_001", 1, 1, "run_001")));
      ValidateEventPayload(extended) == Pass
  {
  }
}

=== FILE: venue_check.dfy ===
/** The venue-consistency check of the release tooling: every venue a schema
    enumerates for `venue_id`, `long_venue` or `short_venue` must be listed in
    the venue registry. Schemas are the parsed JSON objects of the schema
    directory, keyed by schema id; only their `properties` and the `enum` of
    those three properties take part. */
module VenueCheck {
  import opened Wrappers
  import opened Compatibility

  /** The properties whose enums hold venue identifiers. */
  const VenueFields: seq<string> := ["venue_id", "long_venue", "short_venue"]

  /** `schema.properties?.[field]?.enum`, or no values when any step is
      missing. */
  function EnumOf(schema: Schema, field: string): (values: seq<string>)
    ensures schema.properties.None? ==> values == []
  {
    match schema.properties
    case None => []
    case Some(props) =>
      match Lookup(props, field)
      case None => []
      case Some(p) => p.enumValues.GetOr([])
  }

  /** The independent statement for one schema: every venue it enumerates in
      a venue field is registered. */
  predicate SchemaVenuesValid(schema: Schema, validVenues: seq<string>) {
    forall f :: f in VenueFields ==> forall v :: v in EnumOf(schema, f) ==> v in validVenues
  }

  /** The checks of one schema: `venue_id`, then `long_venue` and
      `short_venue`, each passing when its enum has no value outside the
      registry. */
  function CheckOneSchema(schema: Schema, validVenues: seq<string>): (ok: bool)
    ensures ok <==> SchemaVenuesValid(schema, validVenues)
  {
    var a := Missing(EnumOf(schema, "venue_id"), validVenues);
    var b := Missing(EnumOf(schema, "long_venue"), validVenues);
    var c := Missing(EnumOf(schema, "short_venue"), validVenues);
    MissingEmptyIff(EnumOf(schema, "venue_id"), validVenues);
    MissingEmptyIff(EnumOf(schema, "long_venue"), validVenues);
    MissingEmptyIff(EnumOf(schema, "short_venue"), validVenues);
    |a| == 0 && |b| == 0 && |c| == 0
  }

  /** `checkSchemaVenues`: every schema is checked (an invalid one does not
      stop the loop) and the result is whether all passed. */
  method CheckSchemaVenues(schemas: JsObject<Schema>, validVenues: seq<string>) returns (allValid: bool)
    ensures allValid <==> forall i :: 0 <= i < |schemas| ==> SchemaVenuesValid(schemas[i].1, validVenues)
  {
    allValid := true;
    var i := 0;
    while i < |schemas|
      invariant 0 <= i <= |schemas|
      invariant allValid <==> forall k :: 0 <= k < i ==> SchemaVenuesValid(schemas[k].1, validVenues)
    {
      var ok := CheckOneSchema(schemas[i].1, validVenues);
      if !ok {
        allValid := false;
      }
      assert (forall k :: 0 <= k < i + 1 ==> SchemaVenuesValid(schemas[k].1, validVenues)) <==>
        (forall k :: 0 <= k < i ==> SchemaVenuesValid(schemas[k].1, validVenues)) && ok;
      i := i + 1;
    }
  }

  /** Registering more venues never turns a passing schema into a failing
      one. */
  lemma MoreVenuesStillValid(schema: Schema, validVenues: seq<string>, more: seq<string>)
    requires SchemaVenuesValid(schema, validVenues)
    requires forall v :: v in validVenues ==> v in more
    ensures SchemaVenuesValid(schema, more)
  {
  }

  /** A schema without a `properties` object, or whose venue fields carry no
      enum, passes whatever the registry holds. */
  lemma NoVenueEnumsPass(schema: Schema, validVenues: seq<string>)
    requires forall f :: f in VenueFields ==> EnumOf(schema, f) == []
    ensures SchemaVenuesValid(schema, validVenues)
  {
  }

  /** A `venue_id` enum naming an unregistered venue fails the schema. */
  lemma UnregisteredVenueFails(schema: Schema, validVenues: seq<string>, v: string)
    requires v in EnumOf(schema, "venue_id") && v !in validVenues
    ensures !SchemaVenuesValid(schema, validVenues)
  {
    assert "venue_id" in VenueFields;
  }
}

=== FILE: version_overlap.dfy ===
/** The semantic-version helpers of the version-overlap check: parsing
    "v1.2.3" / "1.2.3" with JavaScript `parseInt`, lexicographic comparison,
    the minor-version distance between deprecation and removal, and the
    policy that at least one minor version separates the two. A JavaScript
    `null`/`undefined` argument is `None`. */
module VersionOverlap {
  import opened Wrappers
  import opened Text

  datatype Version = Version(major: int, minor: int, patch: int, original: string)

  /** `versionString.replace(/^v/, '')`: one leading lower-case 'v' removed. */
  function StripV(s: string): (t: string)
    ensures t == s || (|s| > 0 && s[0] == 'v' && t == s[1..])
  {
    if |s| > 0 && s[0] == 'v' then s[1..] else s
  }

  /** Stripping undoes a prepended 'v'. */
  lemma StripLeadingV(s: string)
    ensures StripV("v" + s) == s
  {
    assert ("v" + s)[0] == 'v';
    assert ("v" + s)[1..] == s;
  }

  /** `parseVersion`. */
  function ParseVersion(text: Option<string>): (r: Option<Version>)
    ensures r.Some? <==>
      && text.Some? && text.value != ""
      && var parts := Split(StripV(text.value), '.');
         |parts| == 3 && ParseInt(parts[0]).Some? && ParseInt(parts[1]).Some? && ParseInt(parts[2]).Some?
    ensures r.Some? ==> r.value.original == text.value
  {
    match text
    case None => None
    case Some(s) =>
      if s == "" then None
      else
        var parts := Split(StripV(s), '.');
        if |parts| != 3 then None
        else
          match (ParseInt(parts[0]), ParseInt(parts[1]), ParseInt(parts[2]))
          case (Some(major), Some(minor), Some(patch)) => Some(Version(major, minor, patch, s))
          case _ => None
  }

  /** The canonical text "v{major}.{minor}.{patch}". */
  function VersionText(major: int, minor: int, patch: int): string {
    "v" + IntToString(major) + "." + IntToString(minor) + "." + IntToString(patch)
  }

  lemma NoDotInIntToString(n: int)
    ensures '.' !in IntToString(n)
  {
    var s := IntToString(n);
    if n < 0 {
      var d := NatToString(-n);
      assert s == "-" + d;
      assert forall i :: 0 <= i < |d| ==> IsDigit(d[i]);
    }
  }

  /** Three parts joined with dots. */
  lemma JoinDotted(a: string, b: string, c: string)
    ensures Join([a, b, c], '.') == a + "." + b + "." + c
  {
    var parts := [a, b, c];
    assert Join(parts[2..], '.') == c;
    assert Join(parts[1..], '.') == b + "." + c;
  }

  /** The canonical text splits, after its 'v', into the three numbers. */
  lemma VersionTextParts(major: int, minor: int, patch: int)
    ensures Split(StripV(VersionText(major, minor, patch)), '.') ==
      [IntToString(major), IntToString(minor), IntToString(patch)]
  {
    var a, b, c := IntToString(major), IntToString(minor), IntToString(patch);
    var parts := [a, b, c];
    NoDotInIntToString(major);
    NoDotInIntToString(minor);
    NoDotInIntToString(patch);
    var body := a + "." + b + "." + c;
    assert VersionText(major, minor, patch) == "v" + body;
    StripLeadingV(body);
    JoinDotted(a, b, c);
    SplitJoin(parts, '.');
  }

  /** The canonical text of any triple parses back to that triple. */
  lemma ParseVersionText(major: int, minor: int, patch: int)
    ensures ParseVersion(Some(VersionText(major, minor, patch))) ==
      Some(Version(major, minor, patch, VersionText(major, minor, patch)))
  {
    var text := VersionText(major, minor, patch);
    var parts := Split(StripV(text), '.');
    VersionTextParts(major, minor, patch);
    ParseIntOfIntToString(major);
    ParseIntOfIntToString(minor);
    ParseIntOfIntToString(patch);
    assert text != "";
    assert ParseInt(parts[0]) == Some(major);
    assert ParseInt(parts[1]) == Some(minor);
    assert ParseInt(parts[2]) == Some(patch);
  }

  /** With or without the leading 'v' a version text parses to the same
      numbers. */
  lemma LeadingVIsOptional(s: string)
    requires s != "" && s[0] != 'v'
    ensures ParseVersion(Some(s)).Some? <==> ParseVersion(Some("v" + s)).Some?
    ensures ParseVersion(Some(s)).Some? ==>
      var p, q := ParseVersion(Some(s)).value, ParseVersion(Some("v" + s)).value;
      p.major == q.major && p.minor == q.minor && p.patch == q.patch
  {
    StripLeadingV(s);
  }

  /** Two components are not a version. */
  lemma TwoComponentsRejected(major: int, minor: int)
    ensures ParseVersion(Some(IntToString(major) + "." + IntToString(minor))).None?
  {
    var a, b := IntToString(major), IntToString(minor);
    var parts := [a, b];
    NoDotInIntToString(major);
    NoDotInIntToString(minor);
    var s := a + "." + b;
    assert s[0] != 'v';
    assert StripV(s) == s;
    assert Join(parts[1..], '.') == b;
    assert Join(parts, '.') == s;
    SplitJoin(parts, '.');
  }

  /** `compareVersions`: the first differing component decides. */
  function CompareVersions(v1: Option<Version>, v2: Option<Version>): (r: Option<int>)
    ensures r.None? <==> v1.None? || v2.None?
    ensures r.Some? ==> (r.value == 0 <==>
      v1.value.major == v2.value.major && v1.value.minor == v2.value.minor && v1.value.patch == v2.value.patch)
  {
    if v1.None? || v2.None? then None
    else
      var a, b := v1.value, v2.value;
      if a.major != b.major then Some(a.major - b.major)
      else if a.minor != b.minor then Some(a.minor - b.minor)
      else Some(a.patch - b.patch)
  }

  /** The independent lexicographic order on (major, minor, patch). */
  predicate LexLess(a: Version, b: Version) {
    a.major < b.major
    || (a.major == b.major && a.minor < b.minor)
    || (a.major == b.major && a.minor == b.minor && a.patch < b.patch)
  }

  /** Comparison agrees in sign with the lexicographic order, is zero on a
      version compared with itself, and swaps sign with its arguments. */
  lemma CompareVersionsIsLexicographic(a: Version, b: Version)
    ensures CompareVersions(Some(a), Some(b)).value < 0 <==> LexLess(a, b)
    ensures CompareVersions(Some(a), Some(b)).value > 0 <==> LexLess(b, a)
    ensures CompareVersions(Some(a), Some(a)) == Some(0)
    ensures CompareVersions(Some(a), Some(b)).value == -CompareVersions(Some(b), Some(a)).value
  {
  }

  /** The sign of comparison is transitive. */
  lemma CompareVersionsTransitive(a: Version, b: Version, c: Version)
    requires CompareVersions(Some(a), Some(b)).value < 0 && CompareVersions(Some(b), Some(c)).value < 0
    ensures CompareVersions(Some(a), Some(c)).value < 0
  {
    CompareVersionsIsLexicographic(a, b);
    CompareVersionsIsLexicographic(b, c);
    CompareVersionsIsLexicographic(a, c);
  }

  /** The number of major-version-change overlap reported as "large enough". */
  const MajorChangeOverlap: int := 10

  /** `getMinorVersionDifference`. */
  function GetMinorVersionDifference(deprecated: Option<string>, removal: Option<string>): (r: Option<int>)
    ensures r.Some? <==>
      ParseVersion(deprecated).Some? && ParseVersion(removal).Some?
      && ParseVersion(removal).value.major >= ParseVersion(deprecated).value.major
    ensures r.Some? ==>
      var dep, rem := ParseVersion(deprecated).value, ParseVersion(removal).value;
      r.value == (if dep.major == rem.major then rem.minor - dep.minor else MajorChangeOverlap)
  {
    if deprecated.None? || deprecated.value == "" || removal.None? || removal.value == "" then None
    else
      var dep := ParseVersion(deprecated);
      var rem := ParseVersion(removal);
      if dep.None? || rem.None? then None
      else if dep.value.major == rem.value.major then Some(rem.value.minor - dep.value.minor)
      else if rem.value.major > dep.value.major then Some(MajorChangeOverlap)
      else None
  }

  /** `suggestRemovalVersion`. */
  function SuggestRemovalVersion(deprecated: Option<string>, minMinorOverlap: int): (s: string)
    ensures ParseVersion(deprecated).None? ==> s == "Invalid version"
    ensures ParseVersion(deprecated).Some? ==>
      var d := ParseVersion(deprecated).value;
      s == VersionText(d.major, d.minor + minMinorOverlap + 1, 0)
  {
    match ParseVersion(deprecated)
    case None => "Invalid version"
    case Some(d) => VersionText(d.major, d.minor + minMinorOverlap + 1, 0)
  }

  /** The minimum number of minor versions between deprecation and removal. */
  const RequiredOverlap: int := 1

  datatype OverlapPolicy = OverlapPolicy(
    valid: bool,
    actualOverlap: Option<int>,
    requiredOverlap: int,
    suggestedRemoval: Option<string>)

  /** `validateVersionOverlapPolicy`. */
  function ValidateVersionOverlapPolicy(deprecated: Option<string>, removal: Option<string>): (p: OverlapPolicy)
    ensures p.actualOverlap == GetMinorVersionDifference(deprecated, removal)
    ensures p.requiredOverlap == RequiredOverlap
    ensures p.valid <==> p.actualOverlap.Some? && p.actualOverlap.value >= RequiredOverlap
    ensures p.suggestedRemoval.Some? <==> p.actualOverlap.Some? && p.actualOverlap.value < RequiredOverlap
    ensures p.valid ==> p.suggestedRemoval.None?
  {
    var diff := GetMinorVersionDifference(deprecated, removal);
    OverlapPolicy(
      diff.Some? && diff.value >= RequiredOverlap,
      diff,
      RequiredOverlap,
      if diff.Some? && diff.value < RequiredOverlap then Some(SuggestRemovalVersion(deprecated, RequiredOverlap)) else None)
  }

  /** Within one major version the policy holds exactly when removal comes at
      a later minor version; the patch components play no part. */
  lemma SameMajorPolicy(deprecated: string, removal: string)
    requires ParseVersion(Some(deprecated)).Some? && ParseVersion(Some(removal)).Some?
    requires ParseVersion(Some(deprecated)).value.major == ParseVersion(Some(removal)).value.major
    ensures ValidateVersionOverlapPolicy(Some(deprecated), Some(removal)).valid <==>
      ParseVersion(Some(removal)).value.minor > ParseVersion(Some(deprecated)).value.minor
  {
  }

  /** Removal at a later major version always satisfies the policy. */
  lemma LaterMajorAlwaysValid(deprecated: string, removal: string)
    requires ParseVersion(Some(deprecated)).Some? && ParseVersion(Some(removal)).Some?
    requires ParseVersion(Some(removal)).value.major > ParseVersion(Some(deprecated)).value.major
    ensures ValidateVersionOverlapPolicy(Some(deprecated), Some(removal)).valid
  {
  }

  /** Two texts that parse within one major version are their minor
      components apart. */
  lemma SameMajorDifference(deprecated: string, removal: string)
    requires ParseVersion(Some(deprecated)).Some? && ParseVersion(Some(removal)).Some?
    requires ParseVersion(Some(removal)).value.major == ParseVersion(Some(deprecated)).value.major
    ensures GetMinorVersionDifference(Some(deprecated), Some(removal)) ==
      Some(ParseVersion(Some(removal)).value.minor - ParseVersion(Some(deprecated)).value.minor)
  {
  }

  /** A minor distance of at least the required overlap satisfies the policy. */
  lemma PolicyOfDifference(deprecated: string, removal: string, n: int)
    requires GetMinorVersionDifference(Some(deprecated), Some(removal)) == Some(n)
    requires n >= RequiredOverlap
    ensures ValidateVersionOverlapPolicy(Some(deprecated), Some(removal)).valid
  {
  }

  /** The suggested removal version parses, within the deprecation's major
      version, at `minMinorOverlap + 1` minor versions later. */
  lemma SuggestedRemovalParses(deprecated: string, minMinorOverlap: nat)
    requires ParseVersion(Some(deprecated)).Some?
    ensures var d := ParseVersion(Some(deprecated)).value;
      var removal := SuggestRemovalVersion(Some(deprecated), minMinorOverlap);
      ParseVersion(Some(removal)) == Some(Version(d.major, d.minor + minMinorOverlap + 1, 0, removal))
  {
    var d := ParseVersion(Some(deprecated)).value;
    ParseVersionText(d.major, d.minor + minMinorOverlap + 1, 0);
  }

  /** The suggested removal version satisfies the policy it is suggested
      for: it lies `minMinorOverlap + 1` minor versions after the deprecation. */
  lemma SuggestedRemovalSatisfiesPolicy(deprecated: string, minMinorOverlap: nat)
    requires ParseVersion(Some(deprecated)).Some?
    ensures GetMinorVersionDifference(Some(deprecated), Some(SuggestRemovalVersion(Some(deprecated), minMinorOverlap)))
      == Some(minMinorOverlap + 1)
    ensures ValidateVersionOverlapPolicy(Some(deprecated), Some(SuggestRemovalVersion(Some(deprecated), minMinorOverlap))).valid
  {
    var removal := SuggestRemovalVersion(Some(deprecated), minMinorOverlap);
    SuggestedRemovalParses(deprecated, minMinorOverlap);
    SameMajorDifference(deprecated, removal);
    PolicyOfDifference(deprecated, removal, minMinorOverlap + 1);
  }

  /** Absent and empty version strings do not parse. */
  lemma EmptyVersionRejected()
    ensures ParseVersion(None).None? && ParseVersion(Some("")).None?
  {
  }

  /** "v1.2.0" to "v1.2.5" is not enough; "v1.2.0" to "v1.3.0" is. */
  lemma PatchOnlyRemovalRejected()
    ensures !ValidateVersionOverlapPolicy(Some(VersionText(1, 2, 0)), Some(VersionText(1, 2, 5))).valid
    ensures ValidateVersionOverlapPolicy(Some(VersionText(1, 2, 0)), Some(VersionText(1, 2, 5))).suggestedRemoval
      == Some(VersionText(1, 4, 0))
    ensures ValidateVersionOverlapPolicy(Some(VersionText(1, 2, 0)), Some(VersionText(1, 3, 0))).valid
  {
    ParseVersionText(1, 2, 0);
    ParseVersionText(1, 2, 5);
    ParseVersionText(1, 3, 0);
  }
}

=== FILE: wrappers.dfy ===
/** Failure-compatible wrappers shared by every module of the model.
    `Option` stands for a Go pointer (nil or present) or a JavaScript value
    that may be `null`/`undefined`; `Outcome` stands for a Go `error`
    result that is either nil (Pass) or carries an error value (Fail). */
module Wrappers {

  datatype Option<+T> = None | Some(value: T) {

    /** The wrapped value, or `default` when absent. */
    function GetOr(default: T): T {
      match this
      case Some(v) => v
      case None => default
    }
  }

  datatype Outcome<+E> = Pass | Fail(error: E)
}
